=== FILE: README.md ===
# Agentic PR and PBI tooling — a Dafny model

This project models the decision logic of the `agentic` package. The package is a
developer assistant that works from a Jira product backlog item (PBI) and a GitHub
pull request. Five parts of it are modelled:

- **Review-comment engine** (`pr_review.py`).
  - The fetcher turns decoded review-comment records into `PRComment` objects,
    sets reply records aside and gives each comment its replies and a "fixed" flag.
  - The `CommentAnalyzer` classifies each comment through an ordered cascade of
    pattern groups: approval, question, nitpick, suggestion, code fix, code
    block, logic. It also sets a fix difficulty, an auto-fix text or a draft reply.
  - `analyze_pr` routes every classified comment into one of five buckets.
- **Auto-fixer** (`auto_fixer.py`). It applies the five textual fixes to the line a
  comment points at: `const`/`let`, whitespace, semicolon, suggestion block and
  typo swap. It also builds the commit message.
- **Jira connector** (`jira_connector.py`). It reads the acceptance criteria out of
  an issue description and picks the workflow transition that reaches a target status.
- **TODO manager** (`todo_manager.py`). It converts TODO items to and from
  dictionaries, runs the commands of the interactive session over the item list
  and renders the markdown checklist.
- **Context generator** (`enhanced_context_generator.py`). It writes the test-case
  table, the test names, the initial TODO list and its checklist item lines, and the pytest
  skeleton.

Modules:

- `Wrappers`: `Option`.
- `Text`: the Python string operations used, over ASCII.
- `Scanner`: a small matcher for the regular expressions the classifier and the
  fixer use.
- `ReviewModel`: the enums and the `PRComment` class.
- `Analyzer`, `Fetcher` and `Manager` (review engine), `AutoFix`, `Jira`, `Todo`
  and `ContextGen`.

State the source changes in place is modelled with classes:

- `PRComment`'s analysis and reply fields, assigned by `analyze` and the reply tracker;
- the buckets of `PRReviewSummary`;
- the files of the working directory of the auto-fixer (`WorkingDir`);
- the TODO list of the interactive session (`TodoSession`).

Most loops of the source are methods with invariants, proved against a
specification function. The exceptions are:
- the pattern loop of `_matches_patterns` (pr_review.py:373-375) is the recursive
  predicate `Analyzer.MatchesPatterns`;
- the template loop of `_try_auto_fix` (pr_review.py:381-384) is the recursive
  function `Analyzer.TryAutoFix`;
- the line loop of `render_category` (todo_manager.py:95-98) is the recursive
  function `Todo.ItemLines`;
- the `while True` command loop of `interactive` (todo_manager.py:171) is not a
  loop of the model: each command it reads is one call of a `TodoSession` method.

The properties the source promises are proved about the specification
functions as lemmas.

## Model

| member | source | states |
|---|---|---|
| ReviewModel.PRComment.constructor | agentic/pr_review.py:37-56 | a fresh comment keeps its payload and carries the dataclass defaults: unknown, complex, no fix, no reply, no replies, not fixed |
| Analyzer.TryAutoFix | agentic/pr_review.py:378-405 | an auto-fix it returns is never empty text |
| Analyzer.IsSimpleFix | agentic/pr_review.py:407-424 | a code block of at most three lines makes the fix simple, and so does an indicator in the lower-cased body; without a code block the fix is simple iff the lower-cased body holds an indicator; without an indicator it is simple iff there is such a block |
| Analyzer.TemplateFixNonEmpty | agentic/pr_review.py:272-289 | every template of the table that produces a fix produces non-empty text |
| Analyzer.SignalsOf | agentic/pr_review.py:291-369 | the seven tests of `analyze` in cascade order, with a non-empty auto-fix |
| Analyzer.Examine | agentic/pr_review.py:293-364 | computes exactly the tests, the auto-fix and the simple-fix verdict of the body |
| Analyzer.Classify | agentic/pr_review.py:291-369 | the classification of a body; it raises only when `_try_auto_fix` raises `IndexError`, and only in the nitpick, code-fix and logic branches |
| Analyzer.Analyze | agentic/pr_review.py:291-369 | when `analyze` returns, category, difficulty, fix and draft reply are those of the classification, and fields it does not assign keep their values; when the first auto-fix template raises `IndexError`, only the category has been assigned |
| Analyzer.Cascade | agentic/pr_review.py:295-369 | the same, for any outcome of the seven tests |
| Analyzer.ResolveFix | agentic/pr_review.py:327-364 | the shared tail of the code-fix, code-block and logic branches: auto with the fix when one is found, else simple or complex; raising leaves difficulty and fix untouched |
| Analyzer.FirstTrue | agentic/pr_review.py:295-369 | the first test that holds, and no earlier one does; none when no test holds |
| Analyzer.FirstMatchWins | agentic/pr_review.py:295-369 | the first test that holds decides the verdict, and with no test holding the comment is unknown and complex |
| Analyzer.DecideConsistent | agentic/pr_review.py:291-369 | for every outcome of the tests: a fix is recorded iff the difficulty is auto, and it is the auto-fix found; a draft reply iff question or suggestion; discussion iff approval, question or suggestion; nitpicks are auto or simple; never resolved; only the nitpick, code-fix and logic branches can raise |
| Analyzer.ClassificationConsistent | agentic/pr_review.py:291-369 | the same guarantees for every comment body, with the recorded fix non-empty |
| Analyzer.ApprovalTakesPrecedence | agentic/pr_review.py:295-299 | an approving body is an approval to discuss, with nothing recorded, whatever else it says |
| Analyzer.QuestionGetsDraftReply | agentic/pr_review.py:301-306 | a question that is not an approval gets a draft reply quoting the first 100 characters |
| Analyzer.NitpickDifficulty | agentic/pr_review.py:309-317 | a nitpick is auto iff an auto-fix is found, and records it; otherwise simple, never complex |
| Analyzer.SuggestionGetsThanks | agentic/pr_review.py:320-324 | a suggestion that no earlier rule claims is to be discussed, with the fixed thank-you draft |
| Analyzer.QuestionReplyQuotes | agentic/pr_review.py:426-428 | the question reply text contains the first 100 characters of the body |
| Analyzer.UnknownIffNothingFires | agentic/pr_review.py:366-369 | the verdict is unknown iff none of the seven tests holds |
| Analyzer.CodeBlockIsNeverUnknown | agentic/pr_review.py:339-350 | a body with a python or suggestion code block is never left unknown |
| Analyzer.IndexErrorIffFirstTemplate | agentic/pr_review.py:272-274 | `_try_auto_fix` raises iff the `const`/`let` template matches the lower-cased body, because its fix reads group 4 of a pattern with two groups |
| Analyzer.TemplateFixRaisesOnlyAtRaiser | agentic/pr_review.py:382-385 | no template other than the first can raise |
| Analyzer.NoneIndicatorNeverMatches | agentic/pr_review.py:407-424 | the `= None` simple-fix indicator is searched in the lower-cased body and so never matches |
| Fetcher.LineOf | agentic/pr_review.py:157 | a comment's line is `line` when that is truthy, else `original_line` |
| Fetcher.StateOf | agentic/pr_review.py:160 | `c.get("state", "SUBMITTED")`: the default only for a missing key, none for an explicit null, the text otherwise |
| Fetcher.TopLevelMembers | agentic/pr_review.py:147-161 | the first pass keeps exactly the records that are not replies |
| Fetcher.CollectTopLevel | agentic/pr_review.py:147-161 | one fresh, default-analysed comment per top-level record, in order, mirroring its fields (the state is `SUBMITTED` when the key is missing and none when it is null), all distinct |
| Fetcher.ReplyMapIsRepliesTo | agentic/pr_review.py:197-203 | the reply map holds, for each id, exactly the bodies of the records replying to it, in order, and has a key iff there is a reply |
| Fetcher.ReplyMapAt | agentic/pr_review.py:197-203 | the map lookup for one id is the replies to it |
| Fetcher.BuildReplyMap | agentic/pr_review.py:197-203 | the loop builds exactly the reply map |
| Fetcher.PopulateReplyStatus | agentic/pr_review.py:194-222 | every comment gets exactly its replies, becomes fixed iff it was or a reply says it is fixed, and nothing else changes |
| Fetcher.UpdateStatus | agentic/pr_review.py:206-222 | one comment of the update loop: its replies and its fixed flag |
| Fetcher.MarkIfFixed | agentic/pr_review.py:211-222 | the fixed flag becomes true iff it was or some reply contains a fix phrase |
| Fetcher.AnySaysFixedPrefix | agentic/pr_review.py:211-222 | a reply saying fixed in a prefix of the replies is a reply saying fixed in all of them |
| Fetcher.FetchReviewComments | agentic/pr_review.py:133-192 | review comments first, then issue comments, one per record, fresh, unknown and complex, all distinct |
| Fetcher.DistinctConcat | agentic/pr_review.py:133-192 | two lists of distinct comments with nothing in common concatenate to a distinct list |
| Fetcher.CollectIssueComments | agentic/pr_review.py:175-188 | one fresh comment per issue comment, with no replies and state `SUBMITTED`, mirroring the record |
| Manager.BucketOf | agentic/pr_review.py:484-498 | approvals and resolved comments go to the resolved bucket; every other comment goes to the bucket of its difficulty; the five buckets are exclusive |
| Manager.ReviewSummary.constructor | agentic/pr_review.py:74-84 | a summary for the PR with the given total and five empty buckets |
| Manager.ReviewSummary.Append | agentic/pr_review.py:484-498 | appending adds the comment to the end of one bucket and leaves the others as they were |
| Manager.AnalyzePr | agentic/pr_review.py:443-500 | no PR iff not found; the summary counts every fetched comment and carries the PR's number and title; a crash names a fetched comment |
| Manager.Summarise | agentic/pr_review.py:467-500 | an empty PR gives an empty summary; otherwise every comment is analysed and each bucket holds exactly the comments routed to it, in order; no comment is resolved; a crash names a comment whose classification raises |
| Manager.AnalyzeAndRoute | agentic/pr_review.py:484-498 | one comment: analysed, then appended to the bucket of its new category and difficulty |
| Manager.RoutedMembers | agentic/pr_review.py:484-498 | a comment is in a bucket iff it is one of the PR's comments and its category and difficulty lead there |
| Manager.RoutedPartition | agentic/pr_review.py:484-498 | the five buckets together hold every comment exactly once |
| Manager.ResolvedAreApprovals | agentic/pr_review.py:484-498 | after analysis the resolved bucket holds exactly the approvals |
| Manager.DecideNeverResolved | agentic/pr_review.py:291-369 | no branch of the cascade assigns the resolved category |
| Manager.ClassifyNeverResolved | agentic/pr_review.py:291-369 | no comment body is classified as resolved |
| AutoFix.SplitLines | agentic/auto_fixer.py:77 | `splitlines(keepends=True)`: the lines join back to the content; each is non-empty with no line break before its end (a final `\r\n` counts as one); each but the last ends in a break; no `\r\n` is split between two lines |
| AutoFix.ReadText | agentic/auto_fixer.py:76 | `read_text` in universal-newline mode: no `\r` is left, a text without `\r` is unchanged, and the text never grows |
| AutoFix.LineEndAt | agentic/auto_fixer.py:77 | the end of the line starting at a position: there is no break before it, except a `\r\n` at its end, and when it is not the end of the text it follows a break that does not split a `\r\n` |
| AutoFix.TargetIndex | agentic/auto_fixer.py:95-98 | the target line exists iff the comment's line is between 1 and the line count, and it is that line less one |
| AutoFix.TransformFor | agentic/auto_fixer.py:93-143 | the first of the five fixes whose test holds, in source order; none iff no test holds |
| AutoFix.FirstKeyword | agentic/auto_fixer.py:100 | the leftmost `var`, `let` or `const` word in the line, or none when there is none |
| AutoFix.KeywordAtUnique | agentic/auto_fixer.py:100 | at most one keyword matches at a position |
| AutoFix.SubFirstKeywordReplacesFirst | agentic/auto_fixer.py:96-104 | the `const`/`let` fix replaces the first keyword occurrence and keeps the rest of the line |
| AutoFix.SubFirstKeywordWithoutKeyword | agentic/auto_fixer.py:96-104 | a line without a keyword is left as it is |
| AutoFix.DropSpaces | agentic/auto_fixer.py:112 | removing leading spaces keeps the non-space text |
| AutoFix.CollapseSpaces | agentic/auto_fixer.py:112 | collapsing runs of spaces leaves no two spaces in a row, keeps the first character and the non-space text |
| AutoFix.CollapseSpacesKeeps | agentic/auto_fixer.py:112 | `re.sub(r'  +', ' ', ...)` is the filter that keeps every character except a space that follows a space: each run of spaces becomes exactly one |
| AutoFix.CollapseKeepsFrom | agentic/auto_fixer.py:112 | the same filter from any position, after a space or not |
| AutoFix.TrimmedLineShape | agentic/auto_fixer.py:107-117 | the whitespace fix ends its line with a newline iff the line did, leaves no double space and no trailing whitespace, and its text is the collapsed line with only trailing whitespace removed |
| AutoFix.SemicolonFix | agentic/auto_fixer.py:120-129 | the semicolon fix applies iff the stripped line does not end a statement, and then ends the line with `;` and a newline |
| AutoFix.SuggestionAlwaysApplies | agentic/auto_fixer.py:132-140 | a found suggestion block always replaces the target line, even when it is identical |
| AutoFix.QuotedWordAt | agentic/auto_fixer.py:144 | a quoted word found is non-empty and lies inside the body |
| AutoFix.TypoSwapAt | agentic/auto_fixer.py:144 | a typo pair found at a position has two non-empty words |
| AutoFix.TypoSwapFrom | agentic/auto_fixer.py:144-146 | a typo pair found has two non-empty words; none when no position from the start has one (that a found pair is the match at a position is `AutoFix.TypoSwapFromLeftmost`) |
| AutoFix.TypoSwapFromLeftmost | agentic/auto_fixer.py:144 | a typo pair found is the one at the leftmost position that has one, as `re.search` finds it |
| AutoFix.TypoFixIff | agentic/auto_fixer.py:143-154 | the typo fix applies iff the old word occurs in the line and differs from the new one, and then every occurrence of the old word is replaced and the message names both words |
| Text.ReplaceAllJoin | agentic/auto_fixer.py:150 | `str.replace`: a text made of pieces separated by the old word, with no occurrence inside or across a piece, becomes the pieces separated by the new word |
| Text.ReplaceAllPiece | agentic/auto_fixer.py:150 | text before the first occurrence is kept, that occurrence is replaced, and the rest is replaced in turn |
| AutoFix.PatchWith | agentic/auto_fixer.py:92-154 | a fix changes only the target line, as the transform says, and does not apply when the line is out of range or the transform does not apply |
| AutoFix.FixOne | agentic/auto_fixer.py:62-181 | the result names the comment and its path; success iff the file exists, is readable, the fix applies to its lines and (unless a dry run) the write succeeds; the message is the file-not-found, cannot-read, could-not-determine, failed-to-write or applied message of each case; a successful write stores the fixed lines joined; no file is created or removed, and only the comment's file can change, only on a successful run that is not a dry run |
| AutoFix.WorkingDir.constructor | agentic/auto_fixer.py:26-27 | the working directory holds the given files |
| AutoFix.WorkingDir.ApplyFixes | agentic/auto_fixer.py:31-60 | the loop over the comments yields exactly the results and the files of the fix-all specification |
| AutoFix.WorkingDir.ApplySingleFix | agentic/auto_fixer.py:62-181 | one comment: the result and the files of the single-fix specification |
| AutoFix.FixAll | agentic/auto_fixer.py:31-60 | at most one result per comment, each for an auto-fixable comment of the list |
| AutoFix.ApplyTransform | agentic/auto_fixer.py:92-154 | the fix chosen for the body applied to the target line; the lines are unchanged when it does not apply |
| AutoFix.ConstLetStep | agentic/auto_fixer.py:93-104 | the `const`/`let` branch as the specification says |
| AutoFix.TrimSpacesStep | agentic/auto_fixer.py:107-117 | the whitespace branch as the specification says |
| AutoFix.SemicolonStep | agentic/auto_fixer.py:120-129 | the semicolon branch as the specification says |
| AutoFix.SuggestionStep | agentic/auto_fixer.py:132-140 | the suggestion branch as the specification says |
| AutoFix.TypoStep | agentic/auto_fixer.py:143-154 | the typo branch as the specification says |
| AutoFix.Successful | agentic/auto_fixer.py:185 | the successful fixes and no others, none missing |
| AutoFix.SuccessPositions | agentic/auto_fixer.py:185 | strictly increasing positions of successful fixes |
| AutoFix.SuccessfulPicks | agentic/auto_fixer.py:185 | the list comprehension picks exactly the fixes at those positions, in order, so its length is their number |
| AutoFix.SuccessPositionsComplete | agentic/auto_fixer.py:185 | every successful fix's position is among them |
| AutoFix.CommitMessage | agentic/auto_fixer.py:183-193 | the message is empty or starts with `fix: ` |
| AutoFix.FixAllReportsAutoComments | agentic/auto_fixer.py:31-60 | one result per auto-fixable comment, in order; a comment without a path is reported as a failure with an empty path |
| AutoFix.DryRunWritesNothing | agentic/auto_fixer.py:31-60 | a dry run leaves every file as it was |
| AutoFix.SuccessNeedsReadableFile | agentic/auto_fixer.py:62-181 | a successful result names a comment with a path whose file exists |
| AutoFix.FilesKeepTheirNames | agentic/auto_fixer.py:31-60 | fixing never creates or deletes a file |
| AutoFix.CommitMessageCases | agentic/auto_fixer.py:183-193 | the message is empty iff no fix succeeded, is the fix's message when one did, and counts the fixes otherwise |
| Jira.CleanCriterion | agentic/jira_connector.py:101 | a cleaned criterion has no whitespace at either end |
| Jira.CleanBullet | agentic/jira_connector.py:109 | a cleaned bullet has no whitespace at either end |
| Jira.ParseAcceptanceCriteria | agentic/jira_connector.py:82-113 | the section loop, then the bullet loop when the section pass found nothing |
| Jira.AcceptanceCriteria | agentic/jira_connector.py:82-113 | no more criteria than lines of the description |
| Jira.SectionLoop | agentic/jira_connector.py:88-103 | the loop with its section flag collects exactly the section pass |
| Jira.BulletLoop | agentic/jira_connector.py:105-111 | the fallback loop collects exactly the bullet lines, cleaned |
| Jira.SectionPassClean | agentic/jira_connector.py:88-103 | every criterion of the section pass is non-empty and stripped, and there are no more than the lines |
| Jira.BulletPassClean | agentic/jira_connector.py:105-111 | every criterion of the bullet pass is non-empty and stripped, and there are no more than the lines |
| Jira.CriteriaAreClean | agentic/jira_connector.py:82-113 | every criterion returned is non-empty and stripped |
| Jira.NoMarkerMeansBullets | agentic/jira_connector.py:88-113 | without a line that opens the section, the section pass finds nothing, so the bullet pass decides |
| Jira.MarkerLineNotEmitted | agentic/jira_connector.py:89-93 | a marker line is never a criterion and always opens the section |
| Jira.ClosingLineNotEmitted | agentic/jira_connector.py:95-98 | a line that closes an open section is never a criterion and closes it |
| Jira.FirstReaching | agentic/jira_connector.py:122-129 | the first transition named like the target or leading to a state named like it, ignoring case |
| Jira.SelectTransition | agentic/jira_connector.py:122-129 | the search loop finds the id of that first transition, and none iff no transition reaches the target |
| Jira.FirstReachingIs | agentic/jira_connector.py:122-129 | a position where the search stops is the first transition reaching the target |
| Jira.UpdateStatus | agentic/jira_connector.py:115-138 | true iff a transition reaches the target and its id is not empty |
| Todo.ToDict | agentic/todo_manager.py:24-30 | the dictionary has exactly the four fields |
| Todo.FromDict | agentic/todo_manager.py:32-34 | an item is built only from a dictionary of known keys with an id and a title; status defaults to pending and category to general |
| Todo.FromDictToDict | agentic/todo_manager.py:16-34 | `from_dict(to_dict(t))` is `t` |
| Todo.ToDictFromDict | agentic/todo_manager.py:16-34 | a dictionary with all four fields that `from_dict` accepts comes back unchanged from `to_dict` |
| Todo.FirstWith | agentic/todo_manager.py:181-245 | `next(...)` over the list: the first item with the status or id, or none when there is none |
| Todo.LastWith | agentic/todo_manager.py:218-226 | the last item with the status or id, or none when there is none |
| Todo.SetStatus | agentic/todo_manager.py:181-249 | only the chosen item's status changes |
| Todo.ResetInProgress | agentic/todo_manager.py:205-217 | no item is left in progress: those that were become pending, the rest are unchanged |
| Todo.CountWith | agentic/todo_manager.py:157-249 | the count of items with a status is at most the list length |
| Todo.SetStatusCounts | agentic/todo_manager.py:181-249 | changing one item's status moves exactly one item from its old status count to its new one |
| Todo.StatusFor | agentic/todo_manager.py:227-237 | `done`, `start` and `pending` set the done, in-progress and pending status, one each |
| Todo.TodoSession.constructor | agentic/todo_manager.py:157-162 | the session starts with the loaded list and nothing saved |
| Todo.TodoSession.Save | agentic/todo_manager.py:73-82 | saving records the current list and changes nothing else |
| Todo.TodoSession.SetAndSave | agentic/todo_manager.py:181-249 | one status change, then a save of the new list |
| Todo.TodoSession.Next | agentic/todo_manager.py:179-187 | the first pending item becomes in progress and the list is saved; with no pending item nothing changes |
| Todo.TodoSession.MarkDoneCommand | agentic/todo_manager.py:188-204 | the first item in progress becomes done; without one, the item with the typed id; the id is reported invalid iff nothing is in progress and the typed id is unreadable or names no item, and then nothing changes |
| Todo.TodoSession.Start | agentic/todo_manager.py:205-217 | with a valid id every item in progress goes back to pending and the chosen one is started; otherwise nothing changes |
| Todo.TodoSession.ResetAll | agentic/todo_manager.py:211-213 | the loop resets every item in progress to pending |
| Todo.TodoSession.Undo | agentic/todo_manager.py:218-226 | the last done item goes back to pending; with none nothing changes |
| Todo.TodoSession.Act | agentic/todo_manager.py:227-237 | the item with the id gets the action's status; an unknown id changes nothing |
| Todo.TodoSession.UpdateStatus | agentic/todo_manager.py:239-249 | true iff an item has the id, and then that item, and only it, gets the status and the list is saved |
| Todo.NextMovesOne | agentic/todo_manager.py:179-187 | `next` removes one pending item and adds one in-progress item |
| Todo.UndoMovesOne | agentic/todo_manager.py:218-226 | `undo` removes one done item and adds one pending item |
| Todo.StartLeavesOneInProgress | agentic/todo_manager.py:205-217 | after `start`, exactly the chosen item is in progress |
| Todo.UndoReversesDone | agentic/todo_manager.py:188-226 | when no item after it is done, `undo` after marking an item done picks that item and restores the pending list |
| Todo.LastWithIs | agentic/todo_manager.py:218-226 | an item with the key that no later item has is the last one with it |
| Todo.ItemLine | agentic/todo_manager.py:94-98 | a done item's line is `- [x] ` and the title, an in-progress item's is unchecked with the progress mark, any other is unchecked and unmarked |
| Todo.InCategory | agentic/todo_manager.py:90 | exactly the items of the category |
| Todo.ItemLines | agentic/todo_manager.py:93-98 | one line per item, in order |
| Todo.RenderCategory | agentic/todo_manager.py:89-99 | empty iff the category has no items, else headed by the category name |
| Todo.Checklist | agentic/todo_manager.py:105-111 | the four categories in order; with none of them populated, only the blank lines remain |
| Todo.Markdown | agentic/todo_manager.py:84-115 | the file starts with the title line naming the PBI |
| Todo.UnknownCategoryNotRendered | agentic/todo_manager.py:89-111 | an item outside the four categories appears in no section |
| ContextGen.NameChars | agentic/enhanced_context_generator.py:133 | only letters, digits and spaces remain |
| ContextGen.AcToTestName | agentic/enhanced_context_generator.py:131-133 | every name starts with `test_` |
| ContextGen.TestNameShape | agentic/enhanced_context_generator.py:131-133 | every name is a lower-case Python identifier of at most five words, with at most five underscores |
| ContextGen.Shorten | agentic/enhanced_context_generator.py:169 | a text no longer than the limit is kept; a longer one is cut to the limit and ends with `...` |
| ContextGen.Priority | agentic/enhanced_context_generator.py:128 | High iff among the first three criteria, Medium otherwise |
| ContextGen.CaseRows | agentic/enhanced_context_generator.py:124-128 | one row per criterion, numbered from 1 |
| ContextGen.TestCaseRows | agentic/enhanced_context_generator.py:124-128 | the loop builds exactly those rows |
| ContextGen.GenerateTestCases | agentic/enhanced_context_generator.py:120-129 | no criteria gives the placeholder table; otherwise the header, the rule and one rendered row per criterion, joined by newlines |
| ContextGen.TestItems | agentic/enhanced_context_generator.py:167-168 | a test item per criterion, at most five |
| ContextGen.GenerateTodo | agentic/enhanced_context_generator.py:159-174 | five fixed items plus one test item per criterion (at most five), numbered from 1, all pending, with their categories and titles |
| ContextGen.NumberedLookup | agentic/enhanced_context_generator.py:159-174 | in a list numbered from 1, the item with id n is at position n - 1, and an id out of range is not found |
| ContextGen.FreshLines | agentic/enhanced_context_generator.py:186-188 | one unchecked line per item of the category, in order |
| ContextGen.FreshChecklistAgrees | agentic/enhanced_context_generator.py:183-206 | for a new, all-pending list, the generator's checklist item lines are the TODO manager's (the headings differ) |
| ContextGen.Underscored | agentic/enhanced_context_generator.py:216 | same length; every `-` becomes `_`, and every other character is kept |
| ContextGen.TestFileName | agentic/enhanced_context_generator.py:216 | `test_` + key + `.py`, with no `-` |
| ContextGen.TestFunc.Name | agentic/enhanced_context_generator.py:225 | every test function name starts with `test_` |
| ContextGen.TestFunc.Text | agentic/enhanced_context_generator.py:226-231 | every test function starts with its `def` line |
| ContextGen.FunctionsOf | agentic/enhanced_context_generator.py:222-231 | one test function per criterion, numbered from 1 |
| ContextGen.TestFunctions | agentic/enhanced_context_generator.py:222-231 | the loop builds a test function for each of the first five criteria |
| ContextGen.TestsCode | agentic/enhanced_context_generator.py:233-234 | no functions gives the placeholder test; otherwise the code starts with the first function's `def` line |
| ContextGen.GenerateTestSkeleton | agentic/enhanced_context_generator.py:208-240 | the test path is `tests/test_<key>.py`; `__init__.py` is written iff missing; an existing test file is never overwritten, and a missing one is written last with the docstring, the import and the test code of the criteria |
| ContextGen.TestFileText | agentic/enhanced_context_generator.py:222-239 | the loop and the f-string build exactly the file content: docstring, import, then the tests code |
| ContextGen.TestFileDefinesTests | agentic/enhanced_context_generator.py:222-239 | the file defines a test function named after each of the first five criteria |
| ContextGen.TestFileWithoutCriteria | agentic/enhanced_context_generator.py:233-239 | without criteria the file holds the placeholder test |

## Left out

- The `gh` and Jira network calls, JSON decoding and encoding, the console UI
  (`rich` tables, prompts) and the report and markdown files of `PRReviewManager`
  (pr_review.py:502-687) are not modelled. The fetcher receives records already
  decoded, and the auto-fixer and the skeleton generator work on files given as
  values (`FileEntry`, `Written`).
- The transition call itself (`client.transition_issue`) and the
  `transition_to_*` wrappers (jira_connector.py:140-150) are not modelled: the
  wrappers only look the target status up in the configuration.
- `load_todos` and `save_todos` are not modelled as file I/O. A save is recorded
  as a snapshot of the list in `TodoSession.saves`.
- `show` (todo_manager.py:118-155) is a console table and is not modelled.
- The string operations (`lower`, `isalnum`, `isdigit`, `isspace`) are modelled
  for ASCII only; there is no Unicode case folding. The scanner's regex classes
  `\w`, `\b` and `\s` are ASCII too, where Python's are Unicode for `str`
  patterns: a body such as `nité` matches the model's `\bnit\b` but not
  Python's.
- AutoFix.FixOne: a failed write leaves the file as it was. Python's
  `write_text` truncates the file when it opens it, so an error during the write
  itself (an encoding error, a full disk) can leave it empty or partly written;
  the model has only the error message for that case.
- Files are read with universal newlines (`AutoFix.ReadText`) and written back
  from the joined lines. Writing assumes `os.linesep` is `\n`: the `\r\n` and
  lone `\r` of a fixed file are written back as `\n`.
- The emoji literals of the source are mis-decoded in the files themselves. They
  are kept as the characters the files hold.
- Regular expressions are modelled by a scanner for the patterns used. Where a
  pattern's backtracking can only pick one match, the scanner takes that match.
  The typo template (pr_review.py:279) captures the last two word characters of
  the line, as Python's greedy `.*` does.
- Analyzer.Examine: evaluates the pure pattern tests before the cascade rather
  than one by one. Each test is a function of the body alone, so the verdict is
  the same.
- Manager.AnalyzeAndRoute: states only one direction of the link to the
  classification, namely that a crash means the classification raises.
  `Analyzer.Analyze` carries the full link.
- Manager.Summarise: routing is specified over the comments' fields after
  analysis rather than over the classification of each body. The two agree by
  `Analyzer.Analyze`.
- Todo.Markdown: states the title line only. The progress percentage comes from
  a float expression (`int(done / total * 100)`), so it is a parameter. Float
  rounding makes it differ from integer division for some counts.
- Todo.FromDict: rejects values of the wrong type. Python's `cls(**data)` would
  accept them unchecked.
- The `interactive` command loop (todo_manager.py:171) is not modelled as a
  loop. A session is any sequence of calls of `TodoSession.Next`,
  `MarkDoneCommand`, `Start`, `Undo` and `Act`, one per command read.
- `int(...)` of a typed id in the interactive session is modelled as an
  `Option<int>`: `None` stands for the `ValueError` the source catches.
- TodoItem objects, which the source mutates in place, are modelled as values in
  a sequence. Aliasing between lists is therefore not captured.
- `_generate_todo` returns the item list. Its JSON dump of dictionaries is not
  modelled.
- Messages, notes and draft replies are datatypes rendered by `Text()`. The
  model compares the datatypes, and the text only where a property needs it.
- The following source behaviours are kept as written and proved as such:
  - `_try_auto_fix` raises `IndexError` for the first template
    (`Analyzer.IndexErrorIffFirstTemplate`);
  - the `= None` indicator never matches (`Analyzer.NoneIndicatorNeverMatches`);
  - the resolved category is never assigned by `analyze`
    (`Manager.ClassifyNeverResolved`);
  - the typo fix replaces every occurrence (`AutoFix.TypoFixIff`);
  - the semicolon fix always ends its line with `\n` (`AutoFix.SemicolonFix`);
  - the fixer's `const`/`let` test (auto_fixer.py:93) does not allow the quotes
    around the keyword that the classifier's template (pr_review.py:273) accepts,
    so a quoted request can be classified auto-fixable and still not be applied
    (`AutoFix.TransformFor`).

=== FILE: analyzer.dfy ===
/** The comment classifier, `CommentAnalyzer` (pr_review.py:241-432): an ordered
    cascade of pattern groups that sets a comment's category and fix difficulty,
    the auto-fix template table, and the simple-fix heuristic. */
module Analyzer {
  import opened Wrappers
  import opened Text
  import opened Scanner
  import opened ReviewModel

  // The thumbs-up and checkmark literals of the source are mis-decoded emoji;
  // they are kept as the three characters the source file actually holds.
  const ThumbsUpMarker: string := "\U{00F0}\U{0178}\U{2018}"
  const CheckMarkMarker: string := "\U{00E2}\U{0153}\U{2026}"
  // The arrow of the typo template, mis-decoded in the same way.
  const TypoArrow: string := "\U{00E2}\U{2020}\U{2019}"

  const Quotes: string := "`'"

  /** `\bw\b` */
  function WordPattern(w: string): Pattern {
    Pattern(false, [Boundary, Lit(w), Boundary])
  }

  /** `^w\b` */
  function LeadingWord(w: string): Pattern {
    Pattern(true, [Lit(w), Boundary])
  }

  /** `\bw1\s+w2\b`, or anchored `^w1\s+w2\b` */
  function TwoWords(anchored: bool, w1: string, w2: string): Pattern {
    if anchored then Pattern(true, [Lit(w1), Gap(true), Lit(w2), Boundary])
    else Pattern(false, [Boundary, Lit(w1), Gap(true), Lit(w2), Boundary])
  }

  const ApprovalPatterns: seq<Pattern> := [
    WordPattern("lgtm"),
    Pattern(false, [Boundary, Lit("approve"), Opt(AnyOf("d")), Boundary]),
    Pattern(false, [Boundary, Lit("ship"), Opt(Space), Lit("it"), Boundary]),
    Pattern(false, [Lit(ThumbsUpMarker)]),
    Pattern(false, [Lit(CheckMarkMarker)]),
    Pattern(false, [Boundary, Lit("look"), Opt(AnyOf("s")), Gap(true), Lit("good"), Boundary]),
    WordPattern("nice"),
    WordPattern("great")
  ]

  const QuestionPatterns: seq<Pattern> := [
    Pattern(false, [Lit("?"), LineEnd]),
    LeadingWord("why"),
    LeadingWord("what"),
    LeadingWord("how"),
    TwoWords(true, "can", "you"),
    TwoWords(true, "could", "you"),
    LeadingWord("should"),
    WordPattern("explain")
  ]

  const NitpickPatterns: seq<Pattern> := [
    WordPattern("nit"),
    WordPattern("nitpick"),
    WordPattern("minor"),
    WordPattern("typo"),
    WordPattern("spacing"),
    Pattern(false, [Boundary, Lit("indent")]),
    WordPattern("whitespace"),
    Pattern(false, [Boundary, Lit("format")])
  ]

  const SuggestionPatterns: seq<Pattern> := [
    WordPattern("consider"),
    WordPattern("might"),
    WordPattern("could"),
    WordPattern("maybe"),
    WordPattern("suggestion"),
    WordPattern("optional"),
    WordPattern("fyi")
  ]

  const CodeFixPatterns: seq<Pattern> := [
    TwoWords(false, "should", "be"),
    TwoWords(false, "change", "to"),
    Pattern(false, [Boundary, Lit("use"), Boundary, AnyOnLine, Boundary, Lit("instead"), Boundary]),
    WordPattern("replace"),
    WordPattern("remove"),
    WordPattern("add"),
    WordPattern("missing"),
    WordPattern("rename"),
    WordPattern("wrong"),
    WordPattern("incorrect"),
    WordPattern("bug")
  ]

  /** Substrings that make an otherwise unmatched comment a logic issue. */
  const LogicKeywords: seq<string> :=
    ["logic", "handle", "case", "error", "null", "undefined", "edge", "guard", "none", "typeerror", "crash"]

  /** Substrings that make a fix simple. They are looked for in the lower-cased
      body, so "= None", the only one with a capital letter, can never be found. */
  const SimpleIndicators: seq<string> :=
    ["rename", "typo", "import", "const", "let", "var", "semicolon", "comma", "bracket", "parenthesis",
     "guard", "check", "if not", "or []", "or {}", "= None", "exists", "missing"]

  /** `_matches_patterns`: some pattern of the group occurs in the text. */
  predicate MatchesPatterns(t: string, ps: seq<Pattern>) {
    ps != [] && (Search(t, ps[0]).Some? || MatchesPatterns(t, ps[1..]))
  }

  // ---------------------------------------------------------------------------
  // Auto-fix templates (pr_review.py:272-289), in declaration order

  /** How a template turns its match into a fix description. */
  datatype Generator =
    | RaisesIndexError   // reads group 4 of a pattern with two groups
    | Constant(text: string)
    | AddMissing         // "Add missing <group 1>"
    | FixTypo            // "Fix typo: `<group 2>` -> `<group 3>`"
    | ChangeReturn       // "Change return value to `<group 2>`"
    | RenameTo           // "Rename `<group 1>` to `<group 2>`"

  datatype Template = Template(pattern: Pattern, gen: Generator)

  const AutoFixTemplates: seq<Template> := [
    Template(Pattern(false, [Lit("use"), Gap(true), Opt(AnyOf(Quotes)), Choice(["const", "let"]), Opt(AnyOf(Quotes)),
                             Gap(true), Lit("instead"), Gap(true), Lit("of"), Gap(true),
                             Opt(AnyOf(Quotes)), Choice(["var", "let", "const"]), Opt(AnyOf(Quotes))]),
             RaisesIndexError),
    Template(Pattern(false, [Lit("remove"), Gap(true), Choice(["unused", "extra"]), Gap(true), Lit("import")]),
             Constant("Remove unused import")),
    Template(Pattern(false, [Lit("add"), Gap(true), Lit("missing"), Gap(true), Choice(["semicolon", "comma", "bracket"])]),
             AddMissing),
    Template(TypoPhrase, FixTypo),
    Template(Pattern(false, [Lit("extra"), Gap(true), Choice(["space", "whitespace", "line"])]),
             Constant("Remove extra whitespace")),
    Template(Pattern(false, [Lit("missing"), Gap(true), Choice(["space", "newline"])]),
             AddMissing),
    Template(Pattern(false, [Lit("should"), Gap(true), Choice(["return", "be"]), Gap(true),
                             Opt(AnyOf(Quotes)), Word, Opt(AnyOf(Quotes))]),
             ChangeReturn),
    Template(Pattern(false, [Lit("rename"), Gap(true), Opt(AnyOf(Quotes)), Word, Opt(AnyOf(Quotes)), Gap(true),
                             Lit("to"), Gap(true), Opt(AnyOf(Quotes)), Word, Opt(AnyOf(Quotes))]),
             RenameTo)
  ]

  /** The outcome of `_try_auto_fix`: a fix description, none, or the `IndexError`
      that the first template raises when it matches. */
  datatype AutoFix = Fix(text: string) | NoFix | IndexError

  function Generate(g: Generator, m: Match): AutoFix {
    match g
    case RaisesIndexError => IndexError
    case Constant(text) => Fix(text)
    case AddMissing => Fix("Add missing " + Group(m, 0))
    case FixTypo => Fix("Fix typo: `" + Group(m, 1) + "` " + TypoArrow + " `" + Group(m, 2) + "`")
    case ChangeReturn => Fix("Change return value to `" + Group(m, 1) + "`")
    case RenameTo => Fix("Rename `" + Group(m, 0) + "` to `" + Group(m, 1) + "`")
  }

  /** The loop over the template table: the first template that matches decides. */
  function TemplateFix(low: string, table: seq<Template>): AutoFix {
    if table == [] then NoFix
    else
      match Search(low, table[0].pattern)
      case Some(m) => Generate(table[0].gen, m)
      case None => TemplateFix(low, table[1..])
  }

  /** `[`']([^`']+)[`']\s*instead`, ignoring case. */
  const InsteadPattern: Pattern :=
    Pattern(false, [One(AnyOf(Quotes)), NoneOf(Quotes), One(AnyOf(Quotes)), Gap(false), LitFolded("instead")])

  /** `_try_auto_fix`: the template table on the lower-cased body, then a fenced
      suggestion block, then a short python block, then a quoted "X instead". */
  function TryAutoFix(body: string): (r: AutoFix)
    ensures r.Fix? ==> r.text != []
  {
    var fromTable := TemplateFix(Lower(body), AutoFixTemplates);
    if !fromTable.NoFix? then
      assert fromTable.Fix? ==> fromTable.text != [] by {
        assert ConstantsNonEmpty(AutoFixTemplates);
        TemplateFixNonEmpty(Lower(body), AutoFixTemplates);
      }
      fromTable
    else
      match FencedBlock(body, Tag("suggestion"))
      case Some(block) => Fix("Apply suggestion:\n" + block)
      case None =>
        var python := FencedBlock(body, Tag("python"));
        if python.Some? && CountChar(Strip(python.value), '\n') <= 2 && |Strip(python.value)| < 200 then
          Fix("Apply code fix:\n```python\n" + Strip(python.value) + "\n```")
        else
          match Search(body, InsteadPattern)
          case Some(m) => Fix("Use `" + Group(m, 0) + "` instead")
          case None => NoFix
  }

  /** Every constant fix text of a table is non-empty. */
  predicate ConstantsNonEmpty(table: seq<Template>) {
    forall k :: 0 <= k < |table| && table[k].gen.Constant? ==> table[k].gen.text != []
  }

  /** A table whose constant texts are non-empty yields only non-empty fix texts. */
  lemma {:induction false} TemplateFixNonEmpty(low: string, table: seq<Template>)
    requires ConstantsNonEmpty(table)
    ensures TemplateFix(low, table).Fix? ==> TemplateFix(low, table).text != []
    decreases |table|
  {
    if table != [] && Search(low, table[0].pattern).None? {
      assert ConstantsNonEmpty(table[1..]) by {
        forall k | 0 <= k < |table| - 1 && table[1..][k].gen.Constant?
          ensures table[1..][k].gen.text != []
        {
          assert table[1..][k] == table[k + 1];
        }
      }
      TemplateFixNonEmpty(low, table[1..]);
    }
  }

  /** `_is_simple_fix`: the first fenced block has at most three lines once
      stripped, or the lower-cased body holds one of the indicators. A block of
      one to three lines is one with at most two line breaks; without a block,
      the indicators alone decide. */
  function IsSimpleFix(body: string): (simple: bool)
    ensures var code := FencedBlock(body, AnyTag);
            code.Some? && CountChar(Strip(code.value), '\n') <= 2 ==> simple
    ensures ContainsAny(Lower(body), SimpleIndicators) ==> simple
    ensures FencedBlock(body, AnyTag).None? ==> (simple <==> ContainsAny(Lower(body), SimpleIndicators))
    ensures !ContainsAny(Lower(body), SimpleIndicators) ==>
              (simple <==> FencedBlock(body, AnyTag).Some? && CountChar(Strip(FencedBlock(body, AnyTag).value), '\n') <= 2)
  {
    var code := FencedBlock(body, AnyTag);
    (code.Some? && |Split(Strip(code.value), '\n')| <= 3) || ContainsAny(Lower(body), SimpleIndicators)
  }

  /** `_generate_question_reply`: quotes the first 100 characters of the body. */
  function QuestionReply(body: string): DraftReply {
    QuestionDraft(Prefix(body, 100))
  }

  /** `_generate_suggestion_reply` */
  const SuggestionReply: DraftReply := SuggestionDraft

  // ---------------------------------------------------------------------------
  // The classification cascade (pr_review.py:291-372)

  /** The tests of `analyze`, in the order it makes them. */
  datatype Rule = ApprovalRule | QuestionRule | NitpickRule | SuggestionRule | CodeFixRule | CodeBlockRule | LogicRule

  const RuleOrder: seq<Rule> :=
    [ApprovalRule, QuestionRule, NitpickRule, SuggestionRule, CodeFixRule, CodeBlockRule, LogicRule]

  /** The text the pattern groups are matched against: the body lower-cased, then stripped. */
  function Normalised(body: string): string {
    Strip(Lower(body))
  }

  /** What `analyze` finds out about a comment body: the outcome of each test in
      `RuleOrder`, the auto-fix and the simple-fix verdict. */
  datatype Signals = Signals(fires: seq<bool>, autoFix: AutoFix, simpleFix: bool)

  function SignalsOf(body: string): (s: Signals)
    ensures |s.fires| == |RuleOrder|
    ensures s.autoFix.Fix? ==> s.autoFix.text != []
  {
    var t := Normalised(body);
    Signals([MatchesPatterns(t, ApprovalPatterns),
             MatchesPatterns(t, QuestionPatterns),
             MatchesPatterns(t, NitpickPatterns),
             MatchesPatterns(t, SuggestionPatterns),
             MatchesPatterns(t, CodeFixPatterns),
             Contains(body, "```python") || Contains(body, "```suggestion"),
             ContainsAny(t, LogicKeywords)],
            TryAutoFix(body), IsSimpleFix(body))
  }

  /** The index of the first test from `from` on that holds. */
  function FirstTrue(tests: seq<bool>, from: nat): (r: Option<nat>)
    decreases |tests| - from
    ensures r.Some? ==> from <= r.value < |tests| && tests[r.value]
    ensures r.Some? ==> forall j :: from <= j < r.value ==> !tests[j]
    ensures r.None? ==> forall j :: from <= j < |tests| ==> !tests[j]
  {
    if from >= |tests| then None
    else if tests[from] then Some(from)
    else FirstTrue(tests, from + 1)
  }

  /** What `analyze` assigns: a field given as `None` is one it leaves untouched. */
  datatype Analysis = Analysis(category: Category, difficulty: Difficulty,
                               suggestedFix: Option<string>, draftReply: Option<DraftReply>)

  /** The end of `analyze`: it returns with its assignments made, or it raises the
      `IndexError` of the first auto-fix template after assigning the category. */
  datatype Verdict = Analysed(analysis: Analysis) | Raised(category: Category)

  /** The three branches that try an auto-fix and fall back on the simple-fix test. */
  function Resolve(cat: Category, s: Signals): Verdict {
    match s.autoFix
    case Fix(text) => Analysed(Analysis(cat, Auto, Some(text), None))
    case NoFix => Analysed(Analysis(cat, if s.simpleFix then Simple else Complex, None, None))
    case IndexError => Raised(cat)
  }

  /** What the branch of a rule does once its test has held. */
  function Effect(rule: Rule, s: Signals, body: string): Verdict {
    match rule
    case ApprovalRule => Analysed(Analysis(Approval, Discussion, None, None))
    case QuestionRule => Analysed(Analysis(Question, Discussion, None, Some(QuestionReply(body))))
    case NitpickRule =>
      (match s.autoFix
       case Fix(text) => Analysed(Analysis(Nitpick, Auto, Some(text), None))
       case NoFix => Analysed(Analysis(Nitpick, Simple, None, None))
       case IndexError => Raised(Nitpick))
    case SuggestionRule => Analysed(Analysis(Suggestion, Discussion, None, Some(SuggestionReply)))
    case CodeFixRule => Resolve(CodeFix, s)
    case CodeBlockRule => Resolve(CodeFix, s)
    case LogicRule => Resolve(LogicIssue, s)
  }

  /** The cascade: the branch of the first rule whose test holds, or unknown and
      complex when none does. */
  function Decide(s: Signals, body: string): Verdict
    requires |s.fires| == |RuleOrder|
  {
    match FirstTrue(s.fires, 0)
    case Some(k) => Effect(RuleOrder[k], s, body)
    case None => Analysed(Analysis(Unknown, Complex, None, None))
  }

  /** The classification of a comment body: `analyze` raises only where
      `_try_auto_fix` raises, and only in a branch that tries it. */
  function Classify(body: string): (v: Verdict)
    ensures v.Raised? ==> TryAutoFix(body) == IndexError && v.category in {Nitpick, CodeFix, LogicIssue}
  {
    DecideConsistent(SignalsOf(body), body);
    Decide(SignalsOf(body), body)
  }

  /** Python's `x = v` on an optional field: `Some(v)` overwrites, `None` leaves the value before in place. */
  function Assign<T>(before: Option<T>, written: Option<T>): Option<T> {
    if written.Some? then written else before
  }

  datatype Outcome = Returned | RaisedIndexError

  /** The seven tests of `analyze`, the auto-fix and the simple-fix verdict for a
      body. Every one is a pure function of the body, so computing them before the
      cascade rather than as it goes changes nothing that `analyze` does. */
  method Examine(body: string) returns (s: Signals)
    ensures s == SignalsOf(body)
  {
    var bodyLower := Strip(Lower(body));
    var approval := MatchesPatterns(bodyLower, ApprovalPatterns);
    var question := MatchesPatterns(bodyLower, QuestionPatterns);
    var nitpick := MatchesPatterns(bodyLower, NitpickPatterns);
    var suggestion := MatchesPatterns(bodyLower, SuggestionPatterns);
    var codeFix := MatchesPatterns(bodyLower, CodeFixPatterns);
    var codeBlock := Contains(body, "```python") || Contains(body, "```suggestion");
    var logic := ContainsAny(bodyLower, LogicKeywords);
    s := Signals([approval, question, nitpick, suggestion, codeFix, codeBlock, logic],
                 TryAutoFix(body), IsSimpleFix(body));
  }

  /** `CommentAnalyzer.analyze`: the cascade of early returns, updating the comment in place. */
  method Analyze(c: PRComment) returns (outcome: Outcome)
    modifies c`category, c`difficulty, c`suggestedFix, c`draftReply
    ensures Classify(c.body).Analysed? ==>
      var a := Classify(c.body).analysis;
      outcome == Returned && c.category == a.category && c.difficulty == a.difficulty
      && c.suggestedFix == Assign(old(c.suggestedFix), a.suggestedFix)
      && c.draftReply == Assign(old(c.draftReply), a.draftReply)
    ensures Classify(c.body).Raised? ==>
      outcome == RaisedIndexError && c.category == Classify(c.body).category
      && c.difficulty == old(c.difficulty) && c.suggestedFix == old(c.suggestedFix)
      && c.draftReply == old(c.draftReply)
  {
    var s := Examine(c.body);
    outcome := Cascade(c, s);
  }

  /** The branches of `analyze`, given the outcome of its tests. */
  method Cascade(c: PRComment, s: Signals) returns (outcome: Outcome)
    requires |s.fires| == |RuleOrder|
    modifies c`category, c`difficulty, c`suggestedFix, c`draftReply
    ensures Decide(s, c.body).Analysed? ==>
      var a := Decide(s, c.body).analysis;
      outcome == Returned && c.category == a.category && c.difficulty == a.difficulty
      && c.suggestedFix == Assign(old(c.suggestedFix), a.suggestedFix)
      && c.draftReply == Assign(old(c.draftReply), a.draftReply)
    ensures Decide(s, c.body).Raised? ==>
      outcome == RaisedIndexError && c.category == Decide(s, c.body).category
      && c.difficulty == old(c.difficulty) && c.suggestedFix == old(c.suggestedFix)
      && c.draftReply == old(c.draftReply)
  {
    if s.fires[0] {
      FirstMatchWins(s, c.body, 0);
      c.category := Approval;
      c.difficulty := Discussion;
      return Returned;
    }
    if s.fires[1] {
      FirstMatchWins(s, c.body, 1);
      c.category := Question;
      c.difficulty := Discussion;
      c.draftReply := Some(QuestionReply(c.body));
      return Returned;
    }
    if s.fires[2] {
      FirstMatchWins(s, c.body, 2);
      c.category := Nitpick;
      if s.autoFix.IndexError? {
        return RaisedIndexError;
      }
      if s.autoFix.Fix? {
        c.difficulty := Auto;
        c.suggestedFix := Some(s.autoFix.text);
      } else {
        c.difficulty := Simple;
      }
      return Returned;
    }
    if s.fires[3] {
      FirstMatchWins(s, c.body, 3);
      c.category := Suggestion;
      c.difficulty := Discussion;
      c.draftReply := Some(SuggestionReply);
      return Returned;
    }
    if s.fires[4] {
      FirstMatchWins(s, c.body, 4);
      outcome := ResolveFix(c, CodeFix, s);
      return;
    }
    if s.fires[5] {
      FirstMatchWins(s, c.body, 5);
      outcome := ResolveFix(c, CodeFix, s);
      return;
    }
    if s.fires[6] {
      FirstMatchWins(s, c.body, 6);
      outcome := ResolveFix(c, LogicIssue, s);
      return;
    }
    FirstMatchWins(s, c.body, 7);
    c.category := Unknown;
    c.difficulty := Complex;
    return Returned;
  }

  /** The shared body of the code-fix, code-block and logic branches. */
  method ResolveFix(c: PRComment, cat: Category, s: Signals) returns (outcome: Outcome)
    modifies c`category, c`difficulty, c`suggestedFix
    ensures Resolve(cat, s).Analysed? ==>
      var a := Resolve(cat, s).analysis;
      outcome == Returned && c.category == a.category && c.difficulty == a.difficulty
      && c.suggestedFix == Assign(old(c.suggestedFix), a.suggestedFix)
    ensures Resolve(cat, s).Raised? ==>
      outcome == RaisedIndexError && c.category == cat
      && c.difficulty == old(c.difficulty) && c.suggestedFix == old(c.suggestedFix)
  {
    c.category := cat;
    if s.autoFix.IndexError? {
      return RaisedIndexError;
    }
    if s.autoFix.Fix? {
      c.difficulty := Auto;
      c.suggestedFix := Some(s.autoFix.text);
    } else if s.simpleFix {
      c.difficulty := Simple;
    } else {
      c.difficulty := Complex;
    }
    return Returned;
  }

  // ---------------------------------------------------------------------------
  // Properties of the classification

  /** The first test that holds decides: when tests `0..k-1` fail and test `k`
      holds, the verdict is rule `k`'s branch; when all seven fail (k = 7), the
      comment is unknown and complex. */
  lemma FirstMatchWins(s: Signals, body: string, k: nat)
    requires |s.fires| == |RuleOrder| && k <= |RuleOrder|
    requires forall j :: 0 <= j < k ==> !s.fires[j]
    requires k < |RuleOrder| ==> s.fires[k]
    ensures k < |RuleOrder| ==> Decide(s, body) == Effect(RuleOrder[k], s, body)
    ensures k == |RuleOrder| ==> Decide(s, body) == Analysed(Analysis(Unknown, Complex, None, None))
  {
    if k < |RuleOrder| {
      assert FirstTrue(s.fires, 0) == Some(k);
    }
  }

  /** What the cascade can assign, for any outcome of the tests: a fix is recorded
      exactly when the difficulty is auto, and it is the auto-fix found; a draft
      reply is written exactly for questions and suggestions; discussion is the
      difficulty of exactly the approvals, questions and suggestions; nitpicks are
      never complex; no verdict is "resolved"; and only the three branches that try
      an auto-fix can raise. */
  lemma DecideConsistent(s: Signals, body: string)
    requires |s.fires| == |RuleOrder|
    ensures Decide(s, body).Analysed? ==>
      var a := Decide(s, body).analysis;
      (a.difficulty == Auto <==> a.suggestedFix.Some?)
      && (a.suggestedFix.Some? ==> s.autoFix == Fix(a.suggestedFix.value))
      && (a.draftReply.Some? <==> a.category in {Question, Suggestion})
      && (a.difficulty == Discussion <==> a.category in {Approval, Question, Suggestion})
      && (a.category == Nitpick ==> a.difficulty in {Auto, Simple})
      && a.category != Resolved
    ensures Decide(s, body).Raised? ==> s.autoFix == IndexError && Decide(s, body).category in {Nitpick, CodeFix, LogicIssue}
  {
    match FirstTrue(s.fires, 0)
    case None =>
    case Some(k) =>
      assert RuleOrder[k] in {ApprovalRule, QuestionRule, NitpickRule, SuggestionRule, CodeFixRule, CodeBlockRule, LogicRule};
  }

  /** The cascade's guarantees for every comment body, with the recorded fix the
      non-empty text `_try_auto_fix` found. */
  lemma ClassificationConsistent(body: string)
    ensures Classify(body).Analysed? ==>
      var a := Classify(body).analysis;
      (a.difficulty == Auto <==> a.suggestedFix.Some?)
      && (a.suggestedFix.Some? ==> a.suggestedFix.value != [] && TryAutoFix(body) == Fix(a.suggestedFix.value))
      && (a.draftReply.Some? <==> a.category in {Question, Suggestion})
      && (a.difficulty == Discussion <==> a.category in {Approval, Question, Suggestion})
      && (a.category == Nitpick ==> a.difficulty in {Auto, Simple})
      && a.category != Resolved
    ensures Classify(body).Raised? ==> TryAutoFix(body) == IndexError && Classify(body).category in {Nitpick, CodeFix, LogicIssue}
  {
    DecideConsistent(SignalsOf(body), body);
  }

  /** An approving comment is an approval to discuss, whatever else it says. */
  lemma ApprovalTakesPrecedence(body: string)
    requires MatchesPatterns(Normalised(body), ApprovalPatterns)
    ensures Classify(body) == Analysed(Analysis(Approval, Discussion, None, None))
  {
    FirstMatchWins(SignalsOf(body), body, 0);
  }

  /** A question that is not an approval is to be discussed, with a draft reply
      quoting its first 100 characters (see `QuestionReplyQuotes`). */
  lemma QuestionGetsDraftReply(s: Signals, body: string)
    requires |s.fires| == |RuleOrder| && !s.fires[0] && s.fires[1]
    ensures Decide(s, body) == Analysed(Analysis(Question, Discussion, None, Some(QuestionDraft(Prefix(body, 100)))))
  {
    FirstMatchWins(s, body, 1);
  }

  /** A nitpick that is neither an approval nor a question is auto-fixable exactly
      when an auto-fix is found, and records it; otherwise it is simple, never complex. */
  lemma NitpickDifficulty(s: Signals, body: string)
    requires |s.fires| == |RuleOrder| && !s.fires[0] && !s.fires[1] && s.fires[2] && !s.autoFix.IndexError?
    ensures Decide(s, body).Analysed? && Decide(s, body).analysis.category == Nitpick
    ensures Decide(s, body).analysis.difficulty == Auto <==> s.autoFix.Fix?
    ensures s.autoFix.Fix? ==> Decide(s, body).analysis.suggestedFix == Some(s.autoFix.text)
    ensures s.autoFix.NoFix? ==> Decide(s, body).analysis.difficulty == Simple
  {
    FirstMatchWins(s, body, 2);
  }

  /** A suggestion that no earlier rule claims is to be discussed, with the fixed
      thank-you draft. */
  lemma SuggestionGetsThanks(s: Signals, body: string)
    requires |s.fires| == |RuleOrder| && !s.fires[0] && !s.fires[1] && !s.fires[2] && s.fires[3]
    ensures Decide(s, body) == Analysed(Analysis(Suggestion, Discussion, None, Some(SuggestionDraft)))
  {
    FirstMatchWins(s, body, 3);
  }

  /** The question draft holds the first 100 characters of the body verbatim. */
  lemma QuestionReplyQuotes(body: string)
    ensures Contains(QuestionReply(body).Text(), Prefix(body, 100))
  {
    var lead := "_[Draft reply for question]_\n\n> ";
    var text := QuestionReply(body).Text();
    assert text[|lead|..|lead| + |Prefix(body, 100)|] == Prefix(body, 100);
    assert IsPrefixAt(text, |lead|, Prefix(body, 100));
  }

  /** A comment is left unknown exactly when none of the seven tests holds. */
  lemma UnknownIffNothingFires(s: Signals, body: string)
    requires |s.fires| == |RuleOrder|
    ensures (Decide(s, body).Analysed? && Decide(s, body).analysis.category == Unknown)
            <==> forall j :: 0 <= j < |RuleOrder| ==> !s.fires[j]
  {
    match FirstTrue(s.fires, 0)
    case None =>
    case Some(k) =>
      assert RuleOrder[k] in {ApprovalRule, QuestionRule, NitpickRule, SuggestionRule, CodeFixRule, CodeBlockRule, LogicRule};
  }

  /** A comment whose body holds a fenced python or suggestion block is never left unknown. */
  lemma CodeBlockIsNeverUnknown(body: string)
    requires Contains(body, "```python") || Contains(body, "```suggestion")
    ensures Classify(body).Analysed? ==> Classify(body).analysis.category != Unknown
  {
    assert SignalsOf(body).fires[5];
    UnknownIffNothingFires(SignalsOf(body), body);
  }

  /** `IndexError` is raised exactly when the lower-cased body matches the first
      template ("use const instead of var"): no other template and no later
      step of `_try_auto_fix` can raise. */
  lemma {:induction false} IndexErrorIffFirstTemplate(body: string)
    ensures TryAutoFix(body) == IndexError <==> Search(Lower(body), AutoFixTemplates[0].pattern).Some?
  {
    var low := Lower(body);
    if Search(low, AutoFixTemplates[0].pattern).None? {
      TemplateFixRaisesOnlyAtRaiser(low, AutoFixTemplates);
    }
  }

  /** Only a template whose generator raises can make the table raise. */
  lemma {:induction false} TemplateFixRaisesOnlyAtRaiser(low: string, table: seq<Template>)
    requires table != [] && Search(low, table[0].pattern).None?
    requires forall k :: 1 <= k < |table| ==> !table[k].gen.RaisesIndexError?
    ensures !TemplateFix(low, table).IndexError?
    decreases |table|
  {
    if |table| > 1 && Search(low, table[1].pattern).None? {
      var tail := table[1..];
      assert forall k :: 1 <= k < |tail| ==> !tail[k].gen.RaisesIndexError? by {
        forall k | 1 <= k < |tail| ensures !tail[k].gen.RaisesIndexError? {
          assert tail[k] == table[k + 1];
        }
      }
      TemplateFixRaisesOnlyAtRaiser(low, tail);
    }
  }

  /** "= None" is upper-case, so the lower-cased body never holds it. */
  lemma NoneIndicatorNeverMatches(body: string)
    ensures !Contains(Lower(body), "= None")
  {
    forall i: nat | i <= |Lower(body)|
      ensures !IsPrefixAt(Lower(body), i, "= None")
    {
      if i + 6 <= |Lower(body)| {
        assert Lower(body)[i + 2] != 'N';
        assert "= None"[2] == 'N';
      }
    }
  }
}

=== FILE: auto_fix.dfy ===
/** `AutoFixer` (auto_fixer.py:16-193): for every review comment whose difficulty is
    `AUTO`, picks one single-line transform from the comment body, applies it to the
    line the comment points at, writes the file back unless this is a dry run, and
    reports the attempt as an `AppliedFix`. */
module AutoFix {
  import opened Wrappers
  import opened Text
  import opened Scanner
  import opened ReviewModel

  /** The record of one attempt. */
  datatype AppliedFix = AppliedFix(comment: PRComment, filePath: string, success: bool, message: Message)

  /** What the transform that applied did. */
  datatype FixNote =
    | ChangedTo(keyword: string)
    | RemovedWhitespace
    | AddedSemicolon
    | AppliedSuggestion
    | FixedTypo(oldWord: string, newWord: string)
  {
    /** `fix_message` (auto_fixer.py:104, 117, 129, 140, 154). */
    function Text(): string {
      match this
      case ChangedTo(keyword) => "Changed to `" + keyword + "`"
      case RemovedWhitespace => "Removed extra whitespace"
      case AddedSemicolon => "Added semicolon"
      case AppliedSuggestion => "Applied suggestion"
      case FixedTypo(a, b) => "Fixed typo: " + a + " → " + b
    }
  }

  /** The message of an `AppliedFix`, kept as the case that produced it. */
  datatype Message =
    | NoFilePath
    | FileNotFound(path: string)
    | CannotRead(error: string)
    | NothingApplied
    | FailedToWrite(error: string)
    | Applied(note: FixNote, dryRun: bool)
  {
    /** The message text as the source formats it. */
    function Text(): string {
      match this
      case NoFilePath => "No file path specified"
      case FileNotFound(path) => "File not found: " + path
      case CannotRead(e) => "Cannot read file: " + e
      case NothingApplied => "Could not determine how to apply fix"
      case FailedToWrite(e) => "Failed to write: " + e
      case Applied(note, dryRun) => note.Text() + (if dryRun then " (dry run)" else "")
    }
  }

  /** A file under the working directory: its text, and the error that reading it
      or writing it raises, if any. */
  datatype FileEntry = FileEntry(content: string, readError: Option<string>, writeError: Option<string>)

  // ---------------------------------------------------------------------------
  // The file as a list of lines

  /** The characters at which `str.splitlines` ends a line. */
  predicate IsLineBreak(c: char) {
    c == '\n' || c == '\r' || c == '\U{000B}' || c == '\U{000C}' || ('\U{001C}' <= c <= '\U{001E}')
    || c == '\U{0085}' || c == '\U{2028}' || c == '\U{2029}'
  }

  /** `Path.read_text` with universal newlines: `\r\n` and a lone `\r` both become `\n`. */
  function ReadText(s: string): (r: string)
    ensures '\r' !in r
    ensures '\r' !in s ==> r == s
    ensures |r| <= |s|
  {
    if s == [] then []
    else if s[0] == '\r' then "\n" + ReadText(if |s| > 1 && s[1] == '\n' then s[2..] else s[1..])
    else
      assert '\r' !in s ==> '\r' !in s[1..] by {
        assert forall c :: c in s[1..] ==> c in s;
      }
      [s[0]] + ReadText(s[1..])
  }

  /** No line break in `s[i..e]` before its last character, except a `\r` that
      directly precedes a final `\n`. */
  predicate BreakOnlyAtEnd(s: string, i: nat, e: nat)
    requires i <= e <= |s|
  {
    forall j :: i <= j < e - 1 ==> !IsLineBreak(s[j]) || (j == e - 2 && s[j] == '\r' && s[e - 1] == '\n')
  }

  /** The end of the line that holds index `i`, past its line break (`\r\n` is one
      break): no break comes earlier, and a `\r` is never split from a `\n` after it. */
  function LineEndAt(s: string, i: nat): (e: nat)
    requires i < |s|
    decreases |s| - i
    ensures i < e <= |s| && BreakOnlyAtEnd(s, i, e)
    ensures e < |s| ==> IsLineBreak(s[e - 1]) && !(s[e - 1] == '\r' && s[e] == '\n')
  {
    if IsLineBreak(s[i]) then (if s[i] == '\r' && i + 1 < |s| && s[i + 1] == '\n' then i + 2 else i + 1)
    else if i + 1 == |s| then |s|
    else LineEndAt(s, i + 1)
  }

  /** One line as `splitlines` cuts it: not empty, and no line break before its
      end, where a final `\r\n` counts as one break. */
  predicate OneLine(l: string) {
    l != [] && forall j :: 0 <= j < |l| - 1 ==> !IsLineBreak(l[j]) || (j == |l| - 2 && l[j] == '\r' && l[|l| - 1] == '\n')
  }

  /** Line `next` follows line `prev`: `prev` ends in a line break, and not in a `\r`
      that `next` continues with `\n`. */
  predicate Follows(prev: string, next: string) {
    prev != [] && next != [] && IsLineBreak(prev[|prev| - 1]) && !(prev[|prev| - 1] == '\r' && next[0] == '\n')
  }

  /** Lines as `splitlines` leaves them: each one is a line, each but the last ends
      in a line break, and no `\r\n` pair is split between two lines. */
  predicate SplitShape(r: seq<string>) {
    (forall k :: 0 <= k < |r| ==> OneLine(r[k]))
    && forall k :: 0 <= k < |r| - 1 ==> Follows(r[k], r[k + 1])
  }

  /** A line put in front of split lines keeps their shape when it ends in a break that
      does not split a `\r\n`. */
  lemma SplitShapeCons(x: string, rest: seq<string>)
    requires OneLine(x) && SplitShape(rest)
    requires rest != [] ==> Follows(x, rest[0])
    ensures SplitShape([x] + rest)
  {
    var r := [x] + rest;
    assert forall k :: 1 <= k < |r| ==> r[k] == rest[k - 1];
  }

  /** `s.splitlines(keepends=True)`: joining the lines gives the text back; every
      line holds exactly one line break, at its end, except that the last line
      may have none; and no `\r\n` pair is split between two lines. */
  function SplitLines(s: string): (r: seq<string>)
    decreases |s|
    ensures Join("", r) == s
    ensures SplitShape(r)
  {
    if s == [] then []
    else
      var n := LineEndAt(s, 0);
      var rest := SplitLines(s[n..]);
      var line := s[..n];
      FirstLineShape(s, n);
      JoinOneMore(line, rest);
      assert line + Join("", rest) == s by {
        assert s == line + s[n..];
      }
      assert rest != [] ==> Follows(line, rest[0]) by {
        assert |line| == n;
      }
      SplitShapeCons(line, rest);
      [line] + rest
  }

  /** The first line of `s`, up to `n`, is one line, and a line of its own. */
  lemma FirstLineShape(s: string, n: nat)
    requires s != [] && n == LineEndAt(s, 0)
    ensures OneLine(s[..n])
    ensures n < |s| ==> IsLineBreak(s[..n][n - 1]) && !(s[..n][n - 1] == '\r' && s[n] == '\n')
  {
    assert forall j :: 0 <= j < n ==> s[..n][j] == s[j];
  }

  /** One more piece in front of pieces joined without separator; the joined text
      continues with the first character of the next piece. */
  lemma JoinOneMore(x: string, rest: seq<string>)
    requires forall k :: 0 <= k < |rest| ==> rest[k] != []
    ensures Join("", [x] + rest) == x + Join("", rest)
    ensures rest != [] ==> |x + Join("", rest)| > |x| && (x + Join("", rest))[|x|] == rest[0][0]
  {
    if rest != [] {
      assert ([x] + rest)[1..] == rest;
      if |rest| > 1 {
        assert Join("", rest) == rest[0] + Join("", rest[1..]);
      }
    }
  }

  /** The lines `_apply_single_fix` reads from a file. */
  function LinesOf(e: FileEntry): seq<string> {
    SplitLines(ReadText(e.content))
  }

  /** The index `comment.line - 1`, when `comment.line` is set, is not 0, and names a
      line of the file: the tests of auto_fixer.py:98-100 and their repetitions. */
  function TargetIndex(line: Option<int>, count: nat): (r: Option<nat>)
    ensures r.Some? <==> line.Some? && 1 <= line.value <= count
    ensures r.Some? ==> r.value + 1 == line.value && r.value < count
  {
    if line.Some? && line.value != 0 && 0 <= line.value - 1 < count then Some(line.value - 1) else None
  }

  // ---------------------------------------------------------------------------
  // Choosing the transform (auto_fixer.py:93-154): the first test that holds wins

  /** `use\s+(const|let)\s+instead`. Backticks or quotes around the keyword make it
      fail, although the classifier's template at pr_review.py:273 allows them. */
  const ConstLetRequest: Pattern :=
    Pattern(false, [Lit("use"), Gap(true), Choice(["const", "let"]), Gap(true), Lit("instead")])

  /** `use\s+[`']?(const|let)[`']?\s+instead`, which captures the keyword. */
  const ConstLetQuoted: Pattern :=
    Pattern(false, [Lit("use"), Gap(true), Opt(AnyOf("`'")), Choice(["const", "let"]), Opt(AnyOf("`'")),
                    Gap(true), Lit("instead")])

  datatype Transform = ConstLet | TrimSpaces | AddSemicolon | ApplySuggestion | FixTypo | NoTransform

  predicate AsksConstLet(body: string) { Search(Lower(body), ConstLetRequest).Some? }

  predicate AsksTrimSpaces(body: string) {
    var bl := Lower(body);
    Contains(bl, "extra") && (Contains(bl, "space") || Contains(bl, "whitespace"))
  }

  predicate AsksSemicolon(body: string) {
    var bl := Lower(body);
    Contains(bl, "missing") && Contains(bl, "semicolon")
  }

  /** Looked for in the body as written, not lower-cased. */
  predicate GivesSuggestion(body: string) { Contains(body, "```suggestion") }

  predicate MentionsTypo(body: string) { Contains(Lower(body), "typo") }

  /** The branch of the `if`/`elif` chain that runs: each one exactly when its own
      test holds and no earlier one does. */
  function TransformFor(body: string): (t: Transform)
    ensures t == ConstLet <==> AsksConstLet(body)
    ensures t == TrimSpaces <==> !AsksConstLet(body) && AsksTrimSpaces(body)
    ensures t == AddSemicolon <==> !AsksConstLet(body) && !AsksTrimSpaces(body) && AsksSemicolon(body)
    ensures t == ApplySuggestion <==>
              !AsksConstLet(body) && !AsksTrimSpaces(body) && !AsksSemicolon(body) && GivesSuggestion(body)
    ensures t == FixTypo <==>
              !AsksConstLet(body) && !AsksTrimSpaces(body) && !AsksSemicolon(body) && !GivesSuggestion(body)
              && MentionsTypo(body)
    ensures t == NoTransform <==>
              !AsksConstLet(body) && !AsksTrimSpaces(body) && !AsksSemicolon(body) && !GivesSuggestion(body)
              && !MentionsTypo(body)
  {
    if AsksConstLet(body) then ConstLet
    else if AsksTrimSpaces(body) then TrimSpaces
    else if AsksSemicolon(body) then AddSemicolon
    else if GivesSuggestion(body) then ApplySuggestion
    else if MentionsTypo(body) then FixTypo
    else NoTransform
  }

  // ---------------------------------------------------------------------------
  // The const/let transform (auto_fixer.py:93-104)

  const Keywords: seq<string> := ["var", "let", "const"]

  /** A whole-word `var`, `let` or `const` starts at `i`. */
  predicate KeywordAt(t: string, i: nat, kw: string) {
    kw in Keywords && IsPrefixAt(t, i, kw) && IsBoundary(t, i) && IsBoundary(t, i + |kw|)
  }

  /** The leftmost whole-word keyword at or after `i`. */
  function FirstKeyword(t: string, i: nat): (r: Option<(nat, string)>)
    requires i <= |t|
    decreases |t| - i
    ensures r.Some? ==> i <= r.value.0 <= |t| && KeywordAt(t, r.value.0, r.value.1)
    ensures r.Some? ==> forall j, kw :: i <= j < r.value.0 ==> !KeywordAt(t, j, kw)
    ensures r.None? ==> forall j, kw :: i <= j ==> !KeywordAt(t, j, kw)
  {
    if KeywordAt(t, i, "var") then Some((i, "var"))
    else if KeywordAt(t, i, "let") then Some((i, "let"))
    else if KeywordAt(t, i, "const") then Some((i, "const"))
    else if i == |t| then None
    else FirstKeyword(t, i + 1)
  }

  /** `re.sub(r'\b(var|let|const)\b', target, t, count=1)`: the leftmost whole-word
      keyword becomes `target`; a line without one is left as it is. */
  function SubFirstKeyword(t: string, target: string): string {
    match FirstKeyword(t, 0)
    case None => t
    case Some((i, kw)) => t[..i] + target + t[i + |kw|..]
  }

  /** At most one keyword starts at an index: the three begin with different letters. */
  lemma KeywordAtUnique(t: string, i: nat, kw1: string, kw2: string)
    requires KeywordAt(t, i, kw1) && KeywordAt(t, i, kw2)
    ensures kw1 == kw2
  {
    assert t[i] == t[i..i + |kw1|][0] == kw1[0];
    assert t[i] == t[i..i + |kw2|][0] == kw2[0];
  }

  /** The const/let rewrite replaces the leftmost whole-word keyword and nothing else. */
  lemma SubFirstKeywordReplacesFirst(t: string, target: string, i: nat, kw: string)
    requires KeywordAt(t, i, kw)
    requires forall j: nat, kw2 :: j < i ==> !KeywordAt(t, j, kw2)
    ensures SubFirstKeyword(t, target) == t[..i] + target + t[i + |kw|..]
  {
    var f := FirstKeyword(t, 0);
    assert f.Some?;
    assert f.value.0 == i;
    KeywordAtUnique(t, i, f.value.1, kw);
  }

  /** A line without a whole-word keyword is left as it is, so that fix does not apply to it. */
  lemma SubFirstKeywordWithoutKeyword(t: string, target: string)
    requires forall j, kw :: !KeywordAt(t, j, kw)
    ensures SubFirstKeyword(t, target) == t
  {
  }

  // ---------------------------------------------------------------------------
  // The whitespace transform (auto_fixer.py:107-117)

  /** The text with every space character (`' '`) removed. */
  function WithoutSpaces(t: string): string {
    if t == [] then [] else (if t[0] == ' ' then [] else [t[0]]) + WithoutSpaces(t[1..])
  }

  /** The text after its leading run of spaces. */
  function DropSpaces(t: string): (r: string)
    ensures |r| <= |t| && (r == [] || r[0] != ' ')
    ensures WithoutSpaces(r) == WithoutSpaces(t)
  {
    if t != [] && t[0] == ' ' then DropSpaces(t[1..]) else t
  }

  /** `re.sub(r'  +', ' ', t)`: every run of spaces becomes one space (a single
      space is left as it is), so no two spaces are adjacent afterwards and every
      other character is kept in order. */
  function CollapseSpaces(t: string): (r: string)
    decreases |t|
    ensures |r| > 0 <==> |t| > 0
    ensures |r| > 0 ==> r[0] == t[0]
    ensures forall i :: 0 <= i < |r| - 1 ==> !(r[i] == ' ' && r[i + 1] == ' ')
    ensures WithoutSpaces(r) == WithoutSpaces(t)
  {
    if t == [] then []
    else if t[0] == ' ' then
      var rest := CollapseSpaces(DropSpaces(t[1..]));
      assert WithoutSpaces(" " + rest) == WithoutSpaces(rest) by {
        assert (" " + rest)[1..] == rest;
      }
      " " + rest
    else
      var rest := CollapseSpaces(t[1..]);
      assert ([t[0]] + rest)[1..] == rest;
      [t[0]] + rest
  }

  /** `t[i]` is a space right after another space: a character `re.sub(r'  +', ' ', t)` drops. */
  predicate RepeatedSpace(t: string, i: nat)
    requires i < |t|
  {
    i > 0 && t[i] == ' ' && t[i - 1] == ' '
  }

  /** The characters of `t` from index `i` on that are not repeated spaces, in order. */
  function KeptFrom(t: string, i: nat): string
    requires i <= |t|
    decreases |t| - i
  {
    if i == |t| then [] else (if RepeatedSpace(t, i) then [] else [t[i]]) + KeptFrom(t, i + 1)
  }

  /** From index `i` on, collapsing keeps exactly the characters that are not repeated
      spaces; after a space, the run it starts is dropped first. */
  lemma {:induction false} CollapseKeepsFrom(t: string, i: nat)
    requires i <= |t|
    decreases |t| - i
    ensures (i == 0 || t[i - 1] != ' ') ==> KeptFrom(t, i) == CollapseSpaces(t[i..])
    ensures (i > 0 && t[i - 1] == ' ') ==> KeptFrom(t, i) == CollapseSpaces(DropSpaces(t[i..]))
  {
    if i < |t| {
      CollapseKeepsFrom(t, i + 1);
      assert t[i..][1..] == t[i + 1..];
    }
  }

  /** `re.sub(r'  +', ' ', t)` keeps every character except a space that follows a space. */
  lemma CollapseSpacesKeeps(t: string)
    ensures CollapseSpaces(t) == KeptFrom(t, 0)
  {
    CollapseKeepsFrom(t, 0);
    assert t[0..] == t;
  }

  /** The new line of the whitespace fix: runs of spaces collapsed, trailing
      whitespace removed, and `\n` put back when the line had one. */
  function TrimmedLine(current: string): string {
    var collapsed := CollapseSpaces(current);
    if EndsWith(current, "\n") then RStrip(collapsed) + "\n" else RStrip(collapsed)
  }

  // ---------------------------------------------------------------------------
  // The semicolon transform (auto_fixer.py:120-129)

  /** `s.endswith((';', '{', '}', ':'))` */
  predicate EndsStatement(s: string) {
    s != [] && s[|s| - 1] in ";{}:"
  }

  // ---------------------------------------------------------------------------
  // The typo transform (auto_fixer.py:142-154)

  const TypoQuotes: string := "`'\""

  /** `[`'"](\w+)[`'"]` at `i`: the word and the index just past the closing quote.
      A word character can never be a quote, so the longest word is the only one
      the closing quote can follow. */
  function QuotedWordAt(t: string, i: nat): (r: Option<(string, nat)>)
    requires i <= |t|
    ensures r.Some? ==> r.value.0 != [] && i < r.value.1 <= |t|
  {
    if i < |t| && t[i] in TypoQuotes then
      var j := SkipWord(t, i + 1);
      if j > i + 1 && j < |t| && t[j] in TypoQuotes then Some((t[i + 1..j], j + 1)) else None
    else None
  }

  /** The separators of the typo pattern; they start with distinct characters, none of them whitespace. */
  const TypoArrows: seq<string> := ["→", "->", "to", "should be"]

  /** The typo pattern of auto_fixer.py:144 at `i`: the old word and the new word. */
  function TypoSwapAt(t: string, i: nat): (r: Option<(string, string)>)
    requires i <= |t|
    ensures r.Some? ==> r.value.0 != [] && r.value.1 != []
  {
    match QuotedWordAt(t, i)
    case None => None
    case Some((a, j)) =>
      var k := SkipSpaces(t, j);
      match FirstAlt(t, k, TypoArrows)
      case None => None
      case Some(arrow) =>
        match QuotedWordAt(t, SkipSpaces(t, k + |arrow|))
        case None => None
        case Some((b, _)) => Some((a, b))
  }

  /** `re.search` of the typo pattern from index `s`. */
  function TypoSwapFrom(t: string, s: nat): (r: Option<(string, string)>)
    requires s <= |t|
    decreases |t| - s
    ensures r.Some? ==> r.value.0 != [] && r.value.1 != []
    ensures r.None? ==> forall i :: s <= i <= |t| ==> TypoSwapAt(t, i).None?
  {
    match TypoSwapAt(t, s)
    case Some(p) => Some(p)
    case None => if s == |t| then None else TypoSwapFrom(t, s + 1)
  }

  // ---------------------------------------------------------------------------
  // One line, one file, all comments

  /** What transform `t` makes of line `current`: the new line and the message, or `None`
      when the transform does not apply (no match, or a line it would not change). */
  function LineFix(t: Transform, body: string, current: string): Option<(string, FixNote)> {
    match t
    case ConstLet =>
      (match Search(Lower(body), ConstLetQuoted)
       case None => None
       case Some(m) =>
         var target := Group(m, 0);
         var line := SubFirstKeyword(current, target);
         if line == current then None else Some((line, ChangedTo(target))))
    case TrimSpaces =>
      var line := TrimmedLine(current);
      if line == current then None else Some((line, RemovedWhitespace))
    case AddSemicolon =>
      if EndsStatement(RStrip(current)) then None else Some((RStrip(current) + ";\n", AddedSemicolon))
    case ApplySuggestion =>
      (match FencedBlock(body, Tag("suggestion"))
       case None => None
       case Some(s) => Some((s + "\n", AppliedSuggestion)))
    case FixTypo =>
      (match TypoSwapFrom(body, 0)
       case None => None
       case Some((a, b)) =>
         var line := ReplaceAll(current, a, b);
         if line == current then None else Some((line, FixedTypo(a, b))))
    case NoTransform => None
  }

  /** The lines after transform `t` is applied to the line the comment points at,
      and its message; `None` when it does not apply. Only that line can change. */
  function PatchWith(t: Transform, body: string, line: Option<int>, lines: seq<string>)
    : (r: Option<(seq<string>, FixNote)>)
    ensures r.Some? ==> TargetIndex(line, |lines|).Some? && |r.value.0| == |lines|
    ensures r.Some? ==>
              var k := TargetIndex(line, |lines|).value;
              LineFix(t, body, lines[k]) == Some((r.value.0[k], r.value.1))
              && forall j :: 0 <= j < |lines| && j != k ==> r.value.0[j] == lines[j]
    ensures r.None? ==>
              TargetIndex(line, |lines|).None? || LineFix(t, body, lines[TargetIndex(line, |lines|).value]).None?
  {
    match TargetIndex(line, |lines|)
    case None => None
    case Some(k) =>
      match LineFix(t, body, lines[k])
      case None => None
      case Some((text, note)) => Some((lines[k := text], note))
  }

  /** What `_apply_single_fix` does to the lines of the file: the transform the body
      selects, at the line the comment points at. */
  function Patch(body: string, line: Option<int>, lines: seq<string>): Option<(seq<string>, FixNote)> {
    PatchWith(TransformFor(body), body, line, lines)
  }

  /** `_apply_single_fix` on the files of the working directory: the result, and the files afterwards.
      It succeeds exactly when the file exists, can be read, the transform applies to
      its lines, and (unless this is a dry run) the file can be written; only then does
      the file change, to the patched lines joined back together. */
  function FixOne(files: map<string, FileEntry>, c: PRComment, dryRun: bool): (r: (AppliedFix, map<string, FileEntry>))
    requires c.filePath.Some?
    ensures r.0.comment == c && r.0.filePath == c.filePath.value
    ensures r.1.Keys == files.Keys
    ensures var path := c.filePath.value;
            r.0.success <==>
              path in files && files[path].readError.None?
              && Patch(c.body, c.line, LinesOf(files[path])).Some?
              && (dryRun || files[path].writeError.None?)
    ensures var path := c.filePath.value;
            path !in files ==> r.0.message == FileNotFound(path)
    ensures var path := c.filePath.value;
            path in files && files[path].readError.Some? ==> r.0.message == CannotRead(files[path].readError.value)
    ensures var path := c.filePath.value;
            path in files && files[path].readError.None? && Patch(c.body, c.line, LinesOf(files[path])).None? ==>
              r.0.message == NothingApplied
    ensures var path := c.filePath.value;
            path in files && files[path].readError.None? && Patch(c.body, c.line, LinesOf(files[path])).Some?
            && !dryRun && files[path].writeError.Some? ==>
              r.0.message == FailedToWrite(files[path].writeError.value)
    ensures var path := c.filePath.value;
            r.0.success ==> r.0.message == Applied(Patch(c.body, c.line, LinesOf(files[path])).value.1, dryRun)
    ensures var path := c.filePath.value;
            r.0.success && !dryRun ==>
              r.1[path] == files[path].(content := Join("", Patch(c.body, c.line, LinesOf(files[path])).value.0))
    ensures forall p :: p in files && p != c.filePath.value ==> r.1[p] == files[p]
    ensures r.1 != files ==> !dryRun && r.0.success
  {
    var path := c.filePath.value;
    if path !in files then (AppliedFix(c, path, false, FileNotFound(path)), files)
    else
      var entry := files[path];
      if entry.readError.Some? then (AppliedFix(c, path, false, CannotRead(entry.readError.value)), files)
      else
        match Patch(c.body, c.line, LinesOf(entry))
        case None => (AppliedFix(c, path, false, NothingApplied), files)
        case Some((lines, note)) =>
          if dryRun then (AppliedFix(c, path, true, Applied(note, true)), files)
          else if entry.writeError.Some? then (AppliedFix(c, path, false, FailedToWrite(entry.writeError.value)), files)
          else (AppliedFix(c, path, true, Applied(note, false)), files[path := entry.(content := Join("", lines))])
  }

  /** A comment `apply_fixes` skips for want of a file path. */
  predicate NoPath(c: PRComment) { c.filePath.None? || c.filePath.value == "" }

  /** `apply_fixes` on the files of the working directory: the results, and the files afterwards. */
  function FixAll(files: map<string, FileEntry>, cs: seq<PRComment>, dryRun: bool)
    : (r: (seq<AppliedFix>, map<string, FileEntry>))
    reads set c | c in cs
    ensures |r.0| <= |cs|
    ensures forall k :: 0 <= k < |r.0| ==> r.0[k].comment in cs && r.0[k].comment.difficulty == Auto
  {
    if cs == [] then ([], files)
    else
      var before := FixAll(files, cs[..|cs| - 1], dryRun);
      var c := cs[|cs| - 1];
      if c.difficulty != Auto then before
      else if NoPath(c) then (before.0 + [AppliedFix(c, "", false, NoFilePath)], before.1)
      else
        var (r, after) := FixOne(before.1, c, dryRun);
        (before.0 + [r], after)
  }

  /** The comments whose difficulty is `AUTO`, in order. */
  function AutoComments(cs: seq<PRComment>): seq<PRComment>
    reads set c | c in cs
  {
    if cs == [] then []
    else AutoComments(cs[..|cs| - 1]) + (if cs[|cs| - 1].difficulty == Auto then [cs[|cs| - 1]] else [])
  }

  /** `AutoFixer` over its working directory. */
  class WorkingDir {
    var files: map<string, FileEntry>

    constructor (files: map<string, FileEntry>)
      ensures this.files == files
    {
      this.files := files;
    }

    /** `apply_fixes` */
    method ApplyFixes(comments: seq<PRComment>, dryRun: bool) returns (results: seq<AppliedFix>)
      modifies this
      ensures (results, files) == FixAll(old(files), comments, dryRun)
    {
      results := [];
      var i := 0;
      while i < |comments|
        invariant 0 <= i <= |comments|
        invariant (results, files) == FixAll(old(files), comments[..i], dryRun)
      {
        assert comments[..i + 1][..i] == comments[..i];
        var comment := comments[i];
        if comment.difficulty != Auto {
          i := i + 1;
          continue;
        }
        if comment.filePath.None? || comment.filePath.value == "" {
          results := results + [AppliedFix(comment, "", false, NoFilePath)];
          i := i + 1;
          continue;
        }
        var result := ApplySingleFix(comment, dryRun);
        results := results + [result];
        i := i + 1;
      }
      assert comments[..i] == comments;
    }

    /** `_apply_single_fix` */
    method ApplySingleFix(comment: PRComment, dryRun: bool) returns (r: AppliedFix)
      requires comment.filePath.Some?
      modifies this
      ensures (r, files) == FixOne(old(files), comment, dryRun)
    {
      var path := comment.filePath.value;
      if path !in files {
        return AppliedFix(comment, path, false, FileNotFound(path));
      }
      var entry := files[path];
      if entry.readError.Some? {
        return AppliedFix(comment, path, false, CannotRead(entry.readError.value));
      }
      var lines := LinesOf(entry);
      var fixApplied, fixNote;
      lines, fixApplied, fixNote := ApplyTransform(comment.body, comment.line, lines);
      if !fixApplied {
        return AppliedFix(comment, path, false, NothingApplied);
      }
      if !dryRun {
        if entry.writeError.Some? {
          return AppliedFix(comment, path, false, FailedToWrite(entry.writeError.value));
        }
        files := files[path := entry.(content := Join("", lines))];
      }
      r := AppliedFix(comment, path, true, Applied(fixNote.value, dryRun));
    }
  }

  /** The `if`/`elif` chain of `_apply_single_fix`: the first test that holds picks
      the branch, which overwrites the target line and raises the `fix_applied` flag
      when its fix applies. */
  method ApplyTransform(body: string, line: Option<int>, lines: seq<string>)
    returns (newLines: seq<string>, applied: bool, note: Option<FixNote>)
    ensures applied <==> Patch(body, line, lines).Some?
    ensures note.Some? <==> applied
    ensures applied ==> (newLines, note.value) == Patch(body, line, lines).value
    ensures !applied ==> newLines == lines
  {
    var bodyLower := Lower(body);
    if Search(bodyLower, ConstLetRequest).Some? {
      newLines, applied, note := ConstLetStep(body, line, lines);
    } else if Contains(bodyLower, "extra") && (Contains(bodyLower, "space") || Contains(bodyLower, "whitespace")) {
      newLines, applied, note := TrimSpacesStep(body, line, lines);
    } else if Contains(bodyLower, "missing") && Contains(bodyLower, "semicolon") {
      newLines, applied, note := SemicolonStep(body, line, lines);
    } else if Contains(body, "```suggestion") {
      newLines, applied, note := SuggestionStep(body, line, lines);
    } else if Contains(bodyLower, "typo") {
      newLines, applied, note := TypoStep(body, line, lines);
    } else {
      newLines, applied, note := lines, false, None;
    }
  }

  /** The const/let branch (auto_fixer.py:93-104). */
  method ConstLetStep(body: string, line: Option<int>, lines: seq<string>)
    returns (newLines: seq<string>, applied: bool, note: Option<FixNote>)
    ensures applied <==> PatchWith(ConstLet, body, line, lines).Some?
    ensures note.Some? <==> applied
    ensures applied ==> (newLines, note.value) == PatchWith(ConstLet, body, line, lines).value
    ensures !applied ==> newLines == lines
  {
    newLines, applied, note := lines, false, None;
    var m := Search(Lower(body), ConstLetQuoted);
    if m.Some? && line.Some? && line.value != 0 {
      var target := Group(m.value, 0);
      var idx := line.value - 1;
      if 0 <= idx < |lines| {
        var oldLine := lines[idx];
        var newLine := SubFirstKeyword(oldLine, target);
        if oldLine != newLine {
          newLines := lines[idx := newLine];
          applied, note := true, Some(ChangedTo(target));
        }
      }
    }
  }

  /** The whitespace branch (auto_fixer.py:107-117). */
  method TrimSpacesStep(body: string, line: Option<int>, lines: seq<string>)
    returns (newLines: seq<string>, applied: bool, note: Option<FixNote>)
    ensures applied <==> PatchWith(TrimSpaces, body, line, lines).Some?
    ensures note.Some? <==> applied
    ensures applied ==> (newLines, note.value) == PatchWith(TrimSpaces, body, line, lines).value
    ensures !applied ==> newLines == lines
  {
    newLines, applied, note := lines, false, None;
    if line.Some? && line.value != 0 {
      var idx := line.value - 1;
      if 0 <= idx < |lines| {
        var oldLine := lines[idx];
        var newLine := TrimmedLine(oldLine);
        if oldLine != newLine {
          newLines := lines[idx := newLine];
          applied, note := true, Some(RemovedWhitespace);
        }
      }
    }
  }

  /** The semicolon branch (auto_fixer.py:120-129). */
  method SemicolonStep(body: string, line: Option<int>, lines: seq<string>)
    returns (newLines: seq<string>, applied: bool, note: Option<FixNote>)
    ensures applied <==> PatchWith(AddSemicolon, body, line, lines).Some?
    ensures note.Some? <==> applied
    ensures applied ==> (newLines, note.value) == PatchWith(AddSemicolon, body, line, lines).value
    ensures !applied ==> newLines == lines
  {
    newLines, applied, note := lines, false, None;
    if line.Some? && line.value != 0 {
      var idx := line.value - 1;
      if 0 <= idx < |lines| {
        var oldLine := lines[idx];
        if !EndsStatement(RStrip(oldLine)) {
          newLines := lines[idx := RStrip(oldLine) + ";\n"];
          applied, note := true, Some(AddedSemicolon);
        }
      }
    }
  }

  /** The suggestion-block branch (auto_fixer.py:132-140). */
  method SuggestionStep(body: string, line: Option<int>, lines: seq<string>)
    returns (newLines: seq<string>, applied: bool, note: Option<FixNote>)
    ensures applied <==> PatchWith(ApplySuggestion, body, line, lines).Some?
    ensures note.Some? <==> applied
    ensures applied ==> (newLines, note.value) == PatchWith(ApplySuggestion, body, line, lines).value
    ensures !applied ==> newLines == lines
  {
    newLines, applied, note := lines, false, None;
    var suggestion := FencedBlock(body, Tag("suggestion"));
    if suggestion.Some? && line.Some? && line.value != 0 {
      var idx := line.value - 1;
      if 0 <= idx < |lines| {
        newLines := lines[idx := suggestion.value + "\n"];
        applied, note := true, Some(AppliedSuggestion);
      }
    }
  }

  /** The typo branch (auto_fixer.py:143-154). */
  method TypoStep(body: string, line: Option<int>, lines: seq<string>)
    returns (newLines: seq<string>, applied: bool, note: Option<FixNote>)
    ensures applied <==> PatchWith(FixTypo, body, line, lines).Some?
    ensures note.Some? <==> applied
    ensures applied ==> (newLines, note.value) == PatchWith(FixTypo, body, line, lines).value
    ensures !applied ==> newLines == lines
  {
    newLines, applied, note := lines, false, None;
    var typo := TypoSwapFrom(body, 0);
    if typo.Some? && line.Some? && line.value != 0 {
      var oldWord, newWord := typo.value.0, typo.value.1;
      var idx := line.value - 1;
      if 0 <= idx < |lines| {
        var oldLine := lines[idx];
        var newLine := ReplaceAll(oldLine, oldWord, newWord);
        if oldLine != newLine {
          newLines := lines[idx := newLine];
          applied, note := true, Some(FixedTypo(oldWord, newWord));
        }
      }
    }
  }

  /** `generate_fix_commit_message` */
  function CommitMessage(fixes: seq<AppliedFix>): (r: string)
    ensures r == "" || StartsWith(r, "fix: ")
  {
    var successful := Successful(fixes);
    if successful == [] then ""
    else if |successful| == 1 then "fix: " + successful[0].message.Text()
    else "fix: address " + NatToString(|successful|) + " review comments"
  }

  /** The successful attempts, in order. */
  function Successful(fixes: seq<AppliedFix>): (r: seq<AppliedFix>)
    ensures |r| <= |fixes|
    ensures forall k :: 0 <= k < |r| ==> r[k].success && r[k] in fixes
    ensures forall k :: 0 <= k < |fixes| && fixes[k].success ==> fixes[k] in r
  {
    if fixes == [] then []
    else Successful(fixes[..|fixes| - 1]) + (if fixes[|fixes| - 1].success then [fixes[|fixes| - 1]] else [])
  }

  /** The positions of the successful attempts, in increasing order. */
  function SuccessPositions(fixes: seq<AppliedFix>): (idx: seq<nat>)
    ensures forall k :: 0 <= k < |idx| ==> idx[k] < |fixes| && fixes[idx[k]].success
    ensures forall k, m :: 0 <= k < m < |idx| ==> idx[k] < idx[m]
  {
    if fixes == [] then []
    else
      var n := |fixes| - 1;
      var init := SuccessPositions(fixes[..n]);
      assert forall k :: 0 <= k < |init| ==> fixes[..n][init[k]] == fixes[init[k]];
      init + (if fixes[n].success then [n] else [])
  }

  /** `Successful` picks the attempts at the successful positions, in order. */
  lemma {:induction false} SuccessfulPicks(fixes: seq<AppliedFix>)
    ensures |Successful(fixes)| == |SuccessPositions(fixes)|
    ensures forall k :: 0 <= k < |Successful(fixes)| ==> Successful(fixes)[k] == fixes[SuccessPositions(fixes)[k]]
  {
    if fixes != [] {
      var n := |fixes| - 1;
      SuccessfulPicks(fixes[..n]);
      var init := SuccessPositions(fixes[..n]);
      var r0 := Successful(fixes[..n]);
      assert Successful(fixes) == r0 + (if fixes[n].success then [fixes[n]] else []);
      assert SuccessPositions(fixes) == init + (if fixes[n].success then [n] else []);
      forall k | 0 <= k < |Successful(fixes)|
        ensures Successful(fixes)[k] == fixes[SuccessPositions(fixes)[k]]
      {
        if k < |r0| {
          assert r0[k] == fixes[..n][init[k]];
        }
      }
    }
  }

  /** Every successful attempt has its position among the successful positions, so
      `Successful` leaves none out. */
  lemma {:induction false} SuccessPositionsComplete(fixes: seq<AppliedFix>)
    ensures forall j :: 0 <= j < |fixes| && fixes[j].success ==> j in SuccessPositions(fixes)
  {
    if fixes != [] {
      var n := |fixes| - 1;
      var init := SuccessPositions(fixes[..n]);
      SuccessPositionsComplete(fixes[..n]);
      assert SuccessPositions(fixes) == init + (if fixes[n].success then [n] else []);
      forall j | 0 <= j < |fixes| && fixes[j].success
        ensures j in SuccessPositions(fixes)
      {
        if j < n {
          assert fixes[..n][j] == fixes[j];
          assert j in init;
        }
      }
    }
  }

  // ---------------------------------------------------------------------------
  // Properties

  /** `apply_fixes` reports exactly the comments whose difficulty is `AUTO`, one
      result each, in input order; a comment without a file path is reported as a
      failure with an empty path. */
  lemma {:induction false} FixAllReportsAutoComments(files: map<string, FileEntry>, cs: seq<PRComment>, dryRun: bool)
    ensures |FixAll(files, cs, dryRun).0| == |AutoComments(cs)|
    ensures forall k :: 0 <= k < |AutoComments(cs)| ==> FixAll(files, cs, dryRun).0[k].comment == AutoComments(cs)[k]
    ensures forall k :: 0 <= k < |AutoComments(cs)| && NoPath(AutoComments(cs)[k]) ==>
              FixAll(files, cs, dryRun).0[k] == AppliedFix(AutoComments(cs)[k], "", false, NoFilePath)
  {
    if cs != [] {
      FixAllReportsAutoComments(files, cs[..|cs| - 1], dryRun);
    }
  }

  /** A dry run leaves every file as it was. */
  lemma {:induction false} DryRunWritesNothing(files: map<string, FileEntry>, cs: seq<PRComment>)
    ensures FixAll(files, cs, true).1 == files
  {
    if cs != [] {
      DryRunWritesNothing(files, cs[..|cs| - 1]);
    }
  }

  /** A successful result names a comment with a path, whose file exists and can be read. */
  lemma {:induction false} SuccessNeedsReadableFile(files: map<string, FileEntry>, cs: seq<PRComment>, dryRun: bool)
    ensures forall k :: 0 <= k < |FixAll(files, cs, dryRun).0| && FixAll(files, cs, dryRun).0[k].success ==>
              var f := FixAll(files, cs, dryRun).0[k];
              f.comment.filePath == Some(f.filePath) && f.filePath in files
  {
    if cs != [] {
      SuccessNeedsReadableFile(files, cs[..|cs| - 1], dryRun);
      var before := FixAll(files, cs[..|cs| - 1], dryRun);
      FilesKeepTheirNames(files, cs[..|cs| - 1], dryRun);
    }
  }

  /** Fixing never creates or deletes a file. */
  lemma {:induction false} FilesKeepTheirNames(files: map<string, FileEntry>, cs: seq<PRComment>, dryRun: bool)
    ensures FixAll(files, cs, dryRun).1.Keys == files.Keys
  {
    if cs != [] {
      FilesKeepTheirNames(files, cs[..|cs| - 1], dryRun);
    }
  }

  /** The text before an optional final newline. */
  function LineText(s: string): string {
    if EndsWith(s, "\n") then s[..|s| - 1] else s
  }

  /** No two spaces in a row and no whitespace at the end. */
  predicate Tidy(s: string) {
    (s == [] || !IsSpace(s[|s| - 1])) && forall i :: 0 <= i < |s| - 1 ==> !(s[i] == ' ' && s[i + 1] == ' ')
  }

  /** The whitespace fix ends its line with `\n` exactly when the line did; the text
      before it is tidy, and is what remains of the line once every repeated space is
      dropped and the trailing whitespace is cut off. */
  lemma TrimmedLineShape(current: string)
    ensures EndsWith(TrimmedLine(current), "\n") <==> EndsWith(current, "\n")
    ensures Tidy(LineText(TrimmedLine(current)))
    ensures var kept, l := KeptFrom(current, 0), LineText(TrimmedLine(current));
            StartsWith(kept, l) && forall i :: |l| <= i < |kept| ==> IsSpace(kept[i])
  {
    CollapseSpacesKeeps(current);
    var collapsed := CollapseSpaces(current);
    var c := RStrip(collapsed);
    assert forall i :: 0 <= i < |c| ==> c[i] == collapsed[i];
    if EndsWith(current, "\n") {
      assert (c + "\n")[..|c + "\n"| - 1] == c;
    }
    assert LineText(TrimmedLine(current)) == c;
  }

  /** The semicolon fix applies exactly when the stripped line does not already end
      a statement, and then always ends the line with `;\n`, even the last line of a
      file that had no final newline. */
  lemma SemicolonFix(body: string, current: string)
    ensures LineFix(AddSemicolon, body, current).Some? <==> !EndsStatement(RStrip(current))
    ensures LineFix(AddSemicolon, body, current).Some? ==>
              var line := LineFix(AddSemicolon, body, current).value.0;
              EndsWith(line, ";\n") && line[..|line| - 2] == RStrip(current) && StartsWith(current, RStrip(current))
  {
  }

  /** The suggestion fix applies whenever a suggestion block is found and the line
      exists, even when the block equals the line already there. */
  lemma SuggestionAlwaysApplies(body: string, line: Option<int>, lines: seq<string>)
    requires FencedBlock(body, Tag("suggestion")).Some? && TargetIndex(line, |lines|).Some?
    ensures PatchWith(ApplySuggestion, body, line, lines).Some?
    ensures PatchWith(ApplySuggestion, body, line, lines).value.0[line.value - 1]
            == FencedBlock(body, Tag("suggestion")).value + "\n"
  {
  }

  /** The typo fix applies exactly when the quoted old word occurs in the line and
      differs from the new word; the new line is `str.replace` of the one word by the
      other (every occurrence, see `Text.ReplaceAllJoin`), with the typo message. */
  lemma TypoFixIff(body: string, current: string)
    requires TypoSwapFrom(body, 0).Some?
    ensures var (a, b) := TypoSwapFrom(body, 0).value;
            LineFix(FixTypo, body, current).Some? <==> Contains(current, a) && a != b
    ensures var (a, b) := TypoSwapFrom(body, 0).value;
            LineFix(FixTypo, body, current).Some? ==>
              LineFix(FixTypo, body, current).value == (ReplaceAll(current, a, b), FixedTypo(a, b))
  {
    var (a, b) := TypoSwapFrom(body, 0).value;
    ReplaceAllUnchangedIff(current, a, b);
  }

  /** The typo pattern is searched from the left: a match from `s` on is the one at
      the first index where the pattern matches. */
  lemma {:induction false} TypoSwapFromLeftmost(t: string, s: nat) returns (i: nat)
    requires s <= |t| && TypoSwapFrom(t, s).Some?
    decreases |t| - s
    ensures s <= i <= |t| && TypoSwapAt(t, i) == TypoSwapFrom(t, s)
    ensures forall j :: s <= j < i ==> TypoSwapAt(t, j).None?
  {
    var here := TypoSwapAt(t, s);
    if here.Some? {
      i := s;
    } else {
      assert s < |t| && TypoSwapFrom(t, s) == TypoSwapFrom(t, s + 1);
      i := TypoSwapFromLeftmost(t, s + 1);
      forall j | s <= j < i
        ensures TypoSwapAt(t, j).None?
      {
        if j == s {
          assert TypoSwapAt(t, j) == here;
        }
      }
    }
  }

  /** The commit message is empty exactly when no fix succeeded, names the one
      message when one did, and counts them otherwise. */
  lemma CommitMessageCases(fixes: seq<AppliedFix>)
    ensures CommitMessage(fixes) == "" <==> forall k :: 0 <= k < |fixes| ==> !fixes[k].success
    ensures |Successful(fixes)| == 1 ==> CommitMessage(fixes) == "fix: " + Successful(fixes)[0].message.Text()
    ensures |Successful(fixes)| >= 2 ==>
              CommitMessage(fixes) == "fix: address " + NatToString(|Successful(fixes)|) + " review comments"
  {
    if Successful(fixes) != [] {
      assert Successful(fixes)[0] in fixes;
    }
  }
}

=== FILE: context_gen.dfy ===
/** The list builders of `EnhancedContextGenerator` (enhanced_context_generator.py):
    test names derived from acceptance criteria, the test-case table, the initial
    TODO list with its checklist, and the pytest skeleton. */
module ContextGen {
  import opened Wrappers
  import opened Text
  import opened Todo

  // ---------------------------------------------------------------------------
  // Test names (enhanced_context_generator.py:131-133)

  /** The characters of `ac.lower()` that are alphanumeric or a space, in order. */
  function NameChars(s: string): (r: string)
    ensures |r| <= |s|
    ensures forall i :: 0 <= i < |r| ==> IsAlnum(r[i]) || r[i] == ' '
  {
    if s == [] then []
    else (if IsAlnum(s[0]) || s[0] == ' ' then [s[0]] else []) + NameChars(s[1..])
  }

  /** `ws[:n]` */
  function Take(ws: seq<string>, n: nat): (r: seq<string>)
    ensures |r| <= n && |r| <= |ws| && forall k :: 0 <= k < |r| ==> r[k] == ws[k]
  {
    if |ws| <= n then ws else ws[..n]
  }

  /** `_ac_to_test_name`: "test_" and the first five words of the cleaned,
      lower-cased criterion joined by '_'. */
  function AcToTestName(ac: string): (r: string)
    ensures StartsWith(r, "test_")
  {
    "test_" + Join("_", Take(Words(NameChars(Lower(ac))), 5))
  }

  /** A character a test name keeps from a cleaned criterion. */
  predicate IsNameChar(c: char) { 'a' <= c <= 'z' || IsDigit(c) }

  /** A word of a test name. */
  predicate IsNameWord(w: string) {
    forall i :: 0 <= i < |w| ==> IsNameChar(w[i])
  }

  /** A cleaned criterion: name characters and spaces. */
  predicate IsNameText(s: string) {
    forall i :: 0 <= i < |s| ==> IsNameChar(s[i]) || s[i] == ' '
  }

  /** A name made of lower-case letters, digits and '_'. */
  predicate IsTestIdentifier(name: string) {
    forall i :: 0 <= i < |name| ==> IsNameChar(name[i]) || name[i] == '_'
  }

  /** Every test name is a lower-case identifier of at most five words: it holds
      no character but lower-case letters, digits and '_', and at most five '_'. */
  lemma TestNameShape(ac: string)
    ensures IsTestIdentifier(AcToTestName(ac))
    ensures CountChar(AcToTestName(ac), '_') <= 5
  {
    LowerHasNoUpper(ac);
    NameCharsOfLower(Lower(ac));
    NameShape(NameChars(Lower(ac)));
  }

  lemma LowerHasNoUpper(s: string)
    ensures forall i :: 0 <= i < |Lower(s)| ==> !('A' <= Lower(s)[i] <= 'Z')
  {
  }

  /** The name built from a cleaned criterion is an identifier with at most five '_'. */
  lemma NameShape(clean: string)
    requires IsNameText(clean)
    ensures IsTestIdentifier("test_" + Join("_", Take(Words(clean), 5)))
    ensures CountChar("test_" + Join("_", Take(Words(clean), 5)), '_') <= 5
  {
    var kept := Take(Words(clean), 5);
    WordsFrom(clean);
    JoinShape(kept);
    var j := Join("_", kept);
    PrefixShape();
    IdentifierAppend("test_", j);
    CountCharAppend("test_", j, '_');
  }

  /** The prefix "test_" is an identifier with one '_'. */
  lemma PrefixShape()
    ensures IsTestIdentifier("test_") && CountChar("test_", '_') == 1
  {
    assert IsNameWord("test");
    NoUnderscore("test");
    CountCharAppend("test", "_", '_');
    assert "test" + "_" == "test_";
  }

  lemma IdentifierAppend(a: string, b: string)
    requires IsTestIdentifier(a) && IsTestIdentifier(b)
    ensures IsTestIdentifier(a + b)
  {
    assert forall i :: 0 <= i < |a + b| ==> (a + b)[i] == if i < |a| then a[i] else b[i - |a|];
  }

  /** Keeping the alphanumeric characters and spaces of a lower-cased text leaves
      a cleaned criterion. */
  lemma {:induction false} NameCharsOfLower(s: string)
    requires forall i :: 0 <= i < |s| ==> !('A' <= s[i] <= 'Z')
    ensures IsNameText(NameChars(s))
  {
    if s != [] {
      NameCharsOfLower(s[1..]);
    }
  }

  /** The words of a cleaned criterion are name words. */
  lemma {:induction false} WordsFrom(s: string)
    requires IsNameText(s)
    ensures forall k :: 0 <= k < |Words(s)| ==> IsNameWord(Words(s)[k])
    decreases |s|
  {
    var t := LStrip(s);
    if t != [] {
      var w := TakeNonSpace(t);
      var rest := t[|w|..];
      NameTextSlice(s, |s| - |t|, |s|);
      NameTextSlice(t, 0, |w|);
      NameTextSlice(t, |w|, |t|);
      assert IsWord(w);
      assert IsNameWord(w);
      WordsFrom(rest);
      WordsUnfold(s);
      var ws := Words(rest);
      assert forall k :: 0 <= k < |ws| + 1 ==> ([w] + ws)[k] == if k == 0 then w else ws[k - 1];
    }
  }

  /** Every slice of a cleaned criterion is one. */
  lemma NameTextSlice(s: string, a: nat, b: nat)
    requires IsNameText(s) && a <= b <= |s|
    ensures IsNameText(s[a..b])
  {
    assert forall i :: 0 <= i < b - a ==> s[a..b][i] == s[a + i];
  }

  lemma WordsUnfold(s: string)
    requires LStrip(s) != []
    ensures Words(s) == [TakeNonSpace(LStrip(s))] + Words(LStrip(s)[|TakeNonSpace(LStrip(s))|..])
  {
  }

  /** Joining name words with '_' gives an identifier with one '_' fewer than words. */
  lemma {:induction false} JoinShape(ws: seq<string>)
    requires forall k :: 0 <= k < |ws| ==> IsNameWord(ws[k])
    ensures IsTestIdentifier(Join("_", ws))
    ensures CountChar(Join("_", ws), '_') == if ws == [] then 0 else |ws| - 1
  {
    if |ws| == 1 {
      NoUnderscore(ws[0]);
    } else if |ws| > 1 {
      JoinShape(ws[1..]);
      NoUnderscore(ws[0]);
      var j := Join("_", ws[1..]);
      assert Join("_", ws) == (ws[0] + "_") + j;
      CountCharAppend(ws[0] + "_", j, '_');
      CountCharAppend(ws[0], "_", '_');
    }
  }

  lemma {:induction false} NoUnderscore(w: string)
    requires IsNameWord(w)
    ensures CountChar(w, '_') == 0
  {
    if w != [] {
      assert IsNameWord(w[1..]) by {
        assert forall i :: 0 <= i < |w[1..]| ==> w[1..][i] == w[i + 1];
      }
      NoUnderscore(w[1..]);
    }
  }

  lemma {:induction false} CountCharAppend(a: string, b: string, c: char)
    ensures CountChar(a + b, c) == CountChar(a, c) + CountChar(b, c)
  {
    if a != [] {
      assert (a + b)[0] == a[0];
      assert (a + b)[1..] == a[1..] + b;
      CountCharAppend(a[1..], b, c);
      assert CountChar(a + b, c) == (if a[0] == c then 1 else 0) + CountChar(a[1..] + b, c);
    } else {
      assert a + b == b;
    }
  }

  // ---------------------------------------------------------------------------
  // The test-case table (enhanced_context_generator.py:120-129)

  /** `s[:n] + "..." if len(s) > n else s` */
  function Shorten(s: string, n: nat): (r: string)
    ensures |s| <= n ==> r == s
    ensures |s| > n ==> |r| == n + 3 && StartsWith(s, r[..n]) && EndsWith(r, "...")
  {
    if |s| > n then
      var r := s[..n] + "...";
      assert r[|r| - 3..] == "...";
      r
    else s
  }

  /** The priority of the row with 1-based index `i`. */
  function Priority(i: nat): (r: string)
    ensures r == "High" <==> i <= 3
    ensures r == "High" || r == "Medium"
  {
    if i <= 3 then "High" else "Medium"
  }

  const NoCriteriaTable: string := "| # | Test Case | Priority |\n|---|-----------|----------|\n| 1 | _Define tests_ | High |"
  const TableHeader: string := "| # | Test Case | AC | Priority |"
  const TableRule: string := "|---|-----------|-------|----------|"

  /** The table row (line 128) of the criterion at 1-based index `index`. */
  datatype CaseRow = CaseRow(index: nat, criterion: string) {
    function Text(): string {
      "| " + NatToString(index) + " | `" + AcToTestName(criterion) + "` | " + Shorten(criterion, 40) + " | "
      + Priority(index) + " |"
    }
  }

  /** The rows of the first `n` criteria, numbered from 1. */
  function CaseRows(acs: seq<string>, n: nat): (r: seq<CaseRow>)
    requires n <= |acs|
    ensures |r| == n && forall k :: 0 <= k < n ==> r[k] == CaseRow(k + 1, acs[k])
  {
    if n == 0 then [] else CaseRows(acs, n - 1) + [CaseRow(n, acs[n - 1])]
  }

  /** The texts of some rows. */
  function RowTexts(rows: seq<CaseRow>): (r: seq<string>)
    ensures |r| == |rows| && forall k :: 0 <= k < |rows| ==> r[k] == rows[k].Text()
  {
    seq(|rows|, k requires 0 <= k < |rows| => rows[k].Text())
  }

  /** The loop of `_generate_test_cases` (lines 125-128): one row per criterion,
      numbered from 1. */
  method TestCaseRows(acs: seq<string>) returns (rows: seq<CaseRow>)
    ensures |rows| == |acs| && forall k :: 0 <= k < |acs| ==> rows[k] == CaseRow(k + 1, acs[k])
  {
    rows := [];
    var i := 0;
    while i < |acs|
      invariant 0 <= i <= |acs| && rows == CaseRows(acs, i)
    {
      rows := rows + [CaseRow(i + 1, acs[i])];
      i := i + 1;
    }
  }

  /** `_generate_test_cases`: the placeholder table without criteria, else the rows
      joined by newlines. */
  method GenerateTestCases(acs: seq<string>) returns (table: string)
    ensures acs == [] ==> table == NoCriteriaTable
    ensures acs != [] ==> StartsWith(table, TableHeader + "\n" + TableRule + "\n")
    ensures acs != [] ==> table == Join("\n", [TableHeader, TableRule] + RowTexts(CaseRows(acs, |acs|)))
  {
    if acs == [] {
      return NoCriteriaTable;
    }
    var rows := TestCaseRows(acs);
    assert rows == CaseRows(acs, |acs|);
    var lines := [TableHeader, TableRule] + RowTexts(rows);
    table := Join("\n", lines);
    JoinTwoHeads(lines);
  }

  /** Three or more pieces joined by newlines start with the first two and a newline each. */
  lemma JoinTwoHeads(xs: seq<string>)
    requires |xs| >= 3
    ensures StartsWith(Join("\n", xs), xs[0] + "\n" + xs[1] + "\n")
  {
    var rest := Join("\n", xs[2..]);
    var tail := Join("\n", xs[1..]);
    assert tail == xs[1] + "\n" + rest by {
      assert xs[1..][0] == xs[1] && xs[1..][1..] == xs[2..];
    }
    assert Join("\n", xs) == xs[0] + "\n" + tail;
    TwoHeads(xs[0], xs[1], rest);
  }

  /** `a`, `b` and `rest` joined by newlines start with `a` and `b` and a newline each. */
  lemma TwoHeads(a: string, b: string, rest: string)
    ensures StartsWith(a + "\n" + (b + "\n" + rest), a + "\n" + b + "\n")
  {
    var h := a + "\n" + b + "\n";
    assert a + "\n" + (b + "\n" + rest) == h + rest;
    assert (h + rest)[..|h|] == h;
  }

  // ---------------------------------------------------------------------------
  // The initial TODO list (enhanced_context_generator.py:159-174, 183-206)

  /** The number of criteria that get a test item: at most five. */
  function TestItems(acs: seq<string>): (n: nat)
    ensures n <= 5 && n <= |acs| && (n == 5 || n == |acs|)
  {
    if |acs| < 5 then |acs| else 5
  }

  /** The category of item `k` (0-based): two requirements, `m` tests, then the
      implementation items. */
  function CategoryAt(k: nat, m: nat): string {
    if k < 2 then "requirement" else if k < 2 + m then "test" else "implementation"
  }

  /** `_generate_todo`: the items appended one by one with the running `todo_id`. */
  method GenerateTodo(acs: seq<string>) returns (todos: seq<TodoItem>)
    ensures |todos| == 5 + TestItems(acs)
    ensures forall k :: 0 <= k < |todos| ==> todos[k].id == k + 1 && todos[k].status == Pending
    ensures forall k :: 0 <= k < |todos| ==> todos[k].category == CategoryAt(k, TestItems(acs))
    ensures todos[0].title == "Review requirements" && todos[1].title == "Analyze scope"
    ensures forall k :: 0 <= k < TestItems(acs) ==> todos[2 + k].title == "Test: " + Shorten(acs[k], 35)
    ensures var m := TestItems(acs);
            todos[2 + m].title == "Implement feature" && todos[3 + m].title == "Handle edge cases" && todos[4 + m].title == "Refactor"
  {
    var m := TestItems(acs);
    var todoId := 1;
    todos := [TodoItem(todoId, "Review requirements", Pending, "requirement")];
    todoId := todoId + 1;
    todos := todos + [TodoItem(todoId, "Analyze scope", Pending, "requirement")];
    todoId := todoId + 1;
    var i := 0;
    while i < m
      invariant 0 <= i <= m
      invariant |todos| == 2 + i && todoId == |todos| + 1
      invariant forall k :: 0 <= k < |todos| ==> todos[k].id == k + 1 && todos[k].status == Pending
      invariant forall k :: 0 <= k < |todos| ==> todos[k].category == CategoryAt(k, m)
      invariant todos[0].title == "Review requirements" && todos[1].title == "Analyze scope"
      invariant forall k :: 0 <= k < i ==> todos[2 + k].title == "Test: " + Shorten(acs[k], 35)
    {
      todos := todos + [TodoItem(todoId, "Test: " + Shorten(acs[i], 35), Pending, "test")];
      todoId := todoId + 1;
      i := i + 1;
    }
    todos := todos + [TodoItem(todoId, "Implement feature", Pending, "implementation")];
    todoId := todoId + 1;
    todos := todos + [TodoItem(todoId, "Handle edge cases", Pending, "implementation")];
    todoId := todoId + 1;
    todos := todos + [TodoItem(todoId, "Refactor", Pending, "implementation")];
  }

  /** In a list numbered 1..n, the id-lookup of the TODO manager finds item `id`
      at index `id - 1`, and no other id is present. */
  lemma NumberedLookup(ts: seq<TodoItem>, id: int)
    requires forall k :: 0 <= k < |ts| ==> ts[k].id == k + 1
    ensures 1 <= id <= |ts| ==> FirstWith(ts, ById(id)) == Some(id - 1)
    ensures !(1 <= id <= |ts|) ==> FirstWith(ts, ById(id)).None?
  {
    if 1 <= id <= |ts| {
      var r := FirstWith(ts, ById(id));
      assert Has(ts[id - 1], ById(id));
    }
  }

  /** `render` of `_generate_todo_markdown`: an unchecked box per item of the category. */
  function FreshLines(ts: seq<TodoItem>, cat: string): (r: seq<string>)
    ensures |r| == |InCategory(ts, cat)|
    ensures forall k :: 0 <= k < |r| ==> r[k] == "- [ ] " + InCategory(ts, cat)[k].title
  {
    var items := InCategory(ts, cat);
    seq(|items|, k requires 0 <= k < |items| => "- [ ] " + items[k].title)
  }

  /** The checklist written with a fresh list is what the TODO manager renders for
      it: all its items are pending, so every box is unchecked and unmarked. */
  lemma FreshChecklistAgrees(ts: seq<TodoItem>, cat: string)
    requires forall k :: 0 <= k < |ts| ==> ts[k].status == Pending
    ensures FreshLines(ts, cat) == ItemLines(InCategory(ts, cat))
  {
    var items := InCategory(ts, cat);
    forall k | 0 <= k < |items|
      ensures items[k].status == Pending
    {
      assert items[k] in ts;
    }
  }

  // ---------------------------------------------------------------------------
  // The pytest skeleton (enhanced_context_generator.py:208-240)

  /** `key.lower().replace('-', '_')` */
  function Underscored(s: string): (r: string)
    ensures |r| == |s| && '-' !in r
    ensures forall i :: 0 <= i < |s| && s[i] != '-' ==> r[i] == s[i]
    ensures forall i :: 0 <= i < |s| && s[i] == '-' ==> r[i] == '_'
  {
    seq(|s|, i requires 0 <= i < |s| => if s[i] == '-' then '_' else s[i])
  }

  /** The name of the test file of backlog item `key`. */
  function TestFileName(key: string): (r: string)
    ensures StartsWith(r, "test_") && EndsWith(r, ".py") && |r| == |key| + 8
    ensures '-' !in r
  {
    var r := "test_" + Underscored(Lower(key)) + ".py";
    assert r[|r| - 3..] == ".py";
    r
  }

  /** The test function (lines 226-231) of the criterion at 1-based index `index`. */
  datatype TestFunc = TestFunc(index: nat, criterion: string) {
    function Name(): (r: string)
      ensures StartsWith(r, "test_")
    {
      AcToTestName(criterion)
    }

    function Text(): (r: string)
      ensures StartsWith(r, "\ndef " + Name() + "():")
    {
      var head := "\ndef " + Name() + "():";
      var r := head + "\n    \"\"\"AC " + NatToString(index) + ": " + Prefix(criterion, 60)
               + "\"\"\"\n    # TODO: Implement\n    pytest.skip(\"Not implemented\")\n";
      assert r[..|head|] == head;
      r
    }
  }

  const Placeholder: string := "def test_placeholder():\n    pytest.skip(\"Add tests\")"

  /** The test functions of the first `n` criteria. */
  function FunctionsOf(acs: seq<string>, n: nat): (r: seq<TestFunc>)
    requires n <= |acs|
    ensures |r| == n && forall k :: 0 <= k < n ==> r[k] == TestFunc(k + 1, acs[k])
  {
    if n == 0 then [] else FunctionsOf(acs, n - 1) + [TestFunc(n, acs[n - 1])]
  }

  /** The loop over the first five criteria (lines 222-231). */
  method TestFunctions(acs: seq<string>) returns (funcs: seq<TestFunc>)
    ensures |funcs| == TestItems(acs) && forall k :: 0 <= k < |funcs| ==> funcs[k] == TestFunc(k + 1, acs[k])
  {
    funcs := [];
    var m := TestItems(acs);
    var i := 0;
    while i < m
      invariant 0 <= i <= m && funcs == FunctionsOf(acs, i)
    {
      funcs := funcs + [TestFunc(i + 1, acs[i])];
      i := i + 1;
    }
  }

  /** Pieces of text, one after the other. */
  function Concat(ts: seq<string>): string {
    if ts == [] then "" else ts[0] + Concat(ts[1..])
  }

  /** The texts of some test functions. */
  function FuncTexts(funcs: seq<TestFunc>): (r: seq<string>)
    ensures |r| == |funcs| && forall k :: 0 <= k < |funcs| ==> r[k] == funcs[k].Text()
  {
    seq(|funcs|, k requires 0 <= k < |funcs| => funcs[k].Text())
  }

  /** `"".join(test_funcs) if test_funcs else placeholder` */
  function TestsCode(funcs: seq<TestFunc>): (r: string)
    ensures funcs == [] ==> r == Placeholder
    ensures funcs != [] ==> StartsWith(r, "\ndef " + funcs[0].Name() + "():")
  {
    if funcs == [] then Placeholder
    else
      var ts := FuncTexts(funcs);
      var head := "\ndef " + funcs[0].Name() + "():";
      assert Concat(ts) == ts[0] + Concat(ts[1..]);
      assert Concat(ts)[..|head|] == ts[0][..|head|];
      Concat(ts)
  }

  /** The docstring and import that open the test file. */
  function TestFileHeader(key: string, summary: string): string {
    "\"\"\"Tests for " + key + ": " + summary + "\"\"\"\nimport pytest\n\n"
  }

  /** The content of the generated test file. */
  function TestFileContent(key: string, summary: string, acs: seq<string>): string {
    TestFileHeader(key, summary) + TestsCode(FunctionsOf(acs, TestItems(acs))) + "\n"
  }

  /** Piece `k` occurs in the concatenation of the pieces, at index `i`. */
  lemma {:induction false} ConcatHolds(ts: seq<string>, k: nat) returns (i: nat)
    requires k < |ts|
    ensures IsPrefixAt(Concat(ts), i, ts[k])
  {
    if k == 0 {
      i := 0;
      assert Concat(ts)[..|ts[0]|] == ts[0];
    } else {
      var j := ConcatHolds(ts[1..], k - 1);
      i := |ts[0]| + j;
      PrefixAtShift(ts[0], Concat(ts[1..]), "", j, ts[k]);
      assert ts[0] + Concat(ts[1..]) + "" == Concat(ts);
    }
  }

  /** A piece found in `b` is found in `a + b + c`, shifted by `|a|`. */
  lemma PrefixAtShift(a: string, b: string, c: string, i: nat, p: string)
    requires IsPrefixAt(b, i, p)
    ensures IsPrefixAt(a + b + c, |a| + i, p)
  {
    assert (a + b + c)[|a| + i..|a| + i + |p|] == b[i..i + |p|];
  }

  /** The code of some test functions holds the `def` line of each of them. */
  lemma DefHolds(funcs: seq<TestFunc>, k: nat) returns (i: nat)
    requires k < |funcs|
    ensures IsPrefixAt(TestsCode(funcs), i, "\ndef " + funcs[k].Name() + "():")
  {
    var ts := FuncTexts(funcs);
    i := ConcatHolds(ts, k);
    PrefixOfPiece(Concat(ts), i, ts[k], "\ndef " + funcs[k].Name() + "():");
    assert TestsCode(funcs) == Concat(ts);
  }

  /** What starts a piece found at `i` is found at `i` too. */
  lemma PrefixOfPiece(s: string, i: nat, t: string, d: string)
    requires IsPrefixAt(s, i, t) && StartsWith(t, d)
    ensures IsPrefixAt(s, i, d)
  {
    assert s[i..i + |d|] == t[..|d|];
  }

  /** The test file defines one test function for each of the first five criteria,
      named after it. */
  lemma TestFileDefinesTests(key: string, summary: string, acs: seq<string>, k: nat)
    requires k < TestItems(acs)
    ensures Contains(TestFileContent(key, summary, acs), "\ndef " + AcToTestName(acs[k]) + "():")
  {
    var funcs := FunctionsOf(acs, TestItems(acs));
    var i := DefHolds(funcs, k);
    var def := "\ndef " + AcToTestName(acs[k]) + "():";
    assert funcs[k].Name() == AcToTestName(acs[k]);
    var header := TestFileHeader(key, summary);
    PrefixAtShift(header, TestsCode(funcs), "\n", i, def);
    assert IsPrefixAt(TestFileContent(key, summary, acs), |header| + i, def);
  }

  /** Without criteria, the test file holds the placeholder test. */
  lemma TestFileWithoutCriteria(key: string, summary: string)
    ensures Contains(TestFileContent(key, summary, []), Placeholder)
  {
    PrefixAtShift(TestFileHeader(key, summary), Placeholder, "\n", 0, Placeholder);
    assert IsPrefixAt(Placeholder, 0, Placeholder);
  }

  /** A file written by the generator: its path under the working directory and its content. */
  datatype Written = Written(path: string, content: string)

  /** `_generate_test_skeleton`, given whether `tests/__init__.py` and the test file
      already exist: an empty `__init__.py` is written when missing, and the test
      file only when missing, so an existing test file is never overwritten. */
  method GenerateTestSkeleton(initExists: bool, testExists: bool, key: string, summary: string, acs: seq<string>)
    returns (path: string, writes: seq<Written>)
    ensures path == "tests/" + TestFileName(key)
    ensures |writes| == (if initExists then 0 else 1) + (if testExists then 0 else 1)
    ensures !initExists ==> writes[0] == Written("tests/__init__.py", "")
    ensures forall w :: w in writes ==> w.path == "tests/__init__.py" || w.path == path
    ensures testExists ==> forall w :: w in writes ==> w.path != path
    ensures !testExists ==> writes[|writes| - 1] == Written(path, TestFileContent(key, summary, acs))
  {
    writes := [];
    if !initExists {
      writes := writes + [Written("tests/__init__.py", "")];
    }
    path := "tests/" + TestFileName(key);
    assert path != "tests/__init__.py" by {
      assert path[6] == TestFileName(key)[0] == 't';
    }
    if testExists {
      return;
    }
    var content := TestFileText(key, summary, acs);
    writes := writes + [Written(path, content)];
  }

  /** The content `_generate_test_skeleton` writes: the docstring and import, then the
      test functions of the first five criteria, or the placeholder without criteria. */
  method TestFileText(key: string, summary: string, acs: seq<string>) returns (content: string)
    ensures content == TestFileContent(key, summary, acs)
  {
    var funcs := TestFunctions(acs);
    assert funcs == FunctionsOf(acs, TestItems(acs));
    content := TestFileHeader(key, summary) + TestsCode(funcs) + "\n";
  }
}

=== FILE: fetcher.dfy ===
/** `PRReviewFetcher` after decoding (pr_review.py:133-222): review-comment records
    become `PRComment` objects, reply records are set aside, and each comment gets
    its replies and a fixed flag. The `gh` calls and the JSON decoding are not
    modelled; the records arrive already decoded. */
module Fetcher {
  import opened Wrappers
  import opened Text
  import opened ReviewModel
  import Analyzer

  /** The "state" key of a record: absent, a JSON null, or a string. */
  datatype StateField = Missing | Null | Given(text: string)

  /** `c.get("state", "SUBMITTED")`: the default only for a missing key; a JSON
      null stays `None`. */
  function StateOf(f: StateField): (r: Option<string>)
    ensures r.None? <==> f.Null?
    ensures f.Missing? ==> r == Some("SUBMITTED")
    ensures f.Given? ==> r == Some(f.text)
  {
    match f
    case Missing => Some("SUBMITTED")
    case Null => None
    case Given(t) => Some(t)
  }

  /** A decoded review-comment record. Apart from `state`, `None` stands for a
      missing key or a JSON null. */
  datatype RawRecord = RawRecord(
    id: int,
    login: string,
    body: string,
    path: Option<string>,
    line: Option<int>,
    originalLine: Option<int>,
    diffHunk: Option<string>,
    createdAt: string,
    inReplyTo: Option<int>,
    state: StateField)

  /** A decoded issue (general PR) comment record. */
  datatype IssueRecord = IssueRecord(id: int, login: string, body: string, createdAt: string)

  /** Python truthiness of an optional integer: present and non-zero. */
  predicate Truthy(x: Option<int>) {
    x.Some? && x.value != 0
  }

  /** `c.get("in_reply_to_id")` is truthy. */
  predicate IsReply(r: RawRecord) {
    Truthy(r.inReplyTo)
  }

  /** `c.get("line") or c.get("original_line")` */
  function LineOf(r: RawRecord): (l: Option<int>)
    ensures Truthy(r.line) ==> l == r.line
    ensures !Truthy(r.line) ==> l == r.originalLine
  {
    if Truthy(r.line) then r.line else r.originalLine
  }

  /** The records that are not replies, in record order. */
  function TopLevel(raw: seq<RawRecord>): seq<RawRecord> {
    if raw == [] then []
    else TopLevel(raw[..|raw| - 1]) + (if IsReply(raw[|raw| - 1]) then [] else [raw[|raw| - 1]])
  }

  /** Reply records never become top-level comments, and every other record does. */
  lemma {:induction false} TopLevelMembers(raw: seq<RawRecord>)
    ensures forall x :: x in TopLevel(raw) <==> x in raw && !IsReply(x)
  {
    if raw != [] {
      TopLevelMembers(raw[..|raw| - 1]);
      assert raw == raw[..|raw| - 1] + [raw[|raw| - 1]];
    }
  }

  /** `c` carries the payload of record `r` as the first pass copies it. */
  predicate Mirrors(c: PRComment, r: RawRecord) {
    c.id == r.id && c.author == r.login && c.body == r.body && c.filePath == r.path
    && c.line == LineOf(r) && c.diffHunk == r.diffHunk && c.createdAt == r.createdAt
    && c.state == StateOf(r.state)
  }

  /** `c` still holds the dataclass defaults for its analysis and reply fields. */
  predicate Fresh(c: PRComment)
    reads c
  {
    c.category == Unknown && c.difficulty == Complex && c.suggestedFix == None
    && c.draftReply == None && c.replies == [] && !c.isFixed
  }

  /** The first pass of `fetch_review_comments`: one new comment per record that is not a reply. */
  method CollectTopLevel(raw: seq<RawRecord>) returns (comments: seq<PRComment>)
    ensures |comments| == |TopLevel(raw)|
    ensures forall i :: 0 <= i < |comments| ==> Mirrors(comments[i], TopLevel(raw)[i])
    ensures forall i :: 0 <= i < |comments| ==> fresh(comments[i]) && Fresh(comments[i])
    ensures Distinct(comments)
  {
    comments := [];
    var i := 0;
    while i < |raw|
      invariant 0 <= i <= |raw|
      invariant |comments| == |TopLevel(raw[..i])|
      invariant forall j :: 0 <= j < |comments| ==> Mirrors(comments[j], TopLevel(raw[..i])[j])
      invariant forall j :: 0 <= j < |comments| ==> fresh(comments[j]) && Fresh(comments[j])
      invariant Distinct(comments)
    {
      assert raw[..i + 1][..i] == raw[..i];
      var r := raw[i];
      if !IsReply(r) {
        var c := new PRComment(r.id, r.login, r.body, r.path, LineOf(r), r.diffHunk, r.createdAt,
                               StateOf(r.state));
        comments := comments + [c];
      }
      i := i + 1;
    }
    assert raw[..i] == raw;
  }

  /** The bodies of the records that reply to comment `id`, in record order. */
  function RepliesTo(raw: seq<RawRecord>, id: int): seq<string> {
    if raw == [] then []
    else
      var r := raw[|raw| - 1];
      RepliesTo(raw[..|raw| - 1], id) + (if IsReply(r) && r.inReplyTo.value == id then [r.body] else [])
  }

  /** `reply_map.get(id, [])` */
  function MapGet(m: map<int, seq<string>>, id: int): seq<string> {
    if id in m then m[id] else []
  }

  /** The `reply_map` after the first `|raw|` records: each reply body appended under its parent. */
  function ReplyMap(raw: seq<RawRecord>): map<int, seq<string>> {
    if raw == [] then map[]
    else
      var m := ReplyMap(raw[..|raw| - 1]);
      var r := raw[|raw| - 1];
      if IsReply(r) then m[r.inReplyTo.value := MapGet(m, r.inReplyTo.value) + [r.body]] else m
  }

  /** The map holds, under each parent id, exactly that parent's replies in record
      order, and it has a key only for parents that have a reply. */
  lemma {:induction false} ReplyMapIsRepliesTo(raw: seq<RawRecord>)
    ensures forall id :: MapGet(ReplyMap(raw), id) == RepliesTo(raw, id)
    ensures forall id :: id in ReplyMap(raw) <==> RepliesTo(raw, id) != []
  {
    if raw != [] {
      ReplyMapIsRepliesTo(raw[..|raw| - 1]);
    }
  }

  lemma ReplyMapAt(raw: seq<RawRecord>, id: int)
    ensures MapGet(ReplyMap(raw), id) == RepliesTo(raw, id)
  {
    ReplyMapIsRepliesTo(raw);
  }

  /** The loop of `_populate_reply_status` that builds `reply_map`. */
  method BuildReplyMap(raw: seq<RawRecord>) returns (m: map<int, seq<string>>)
    ensures m == ReplyMap(raw)
  {
    m := map[];
    var i := 0;
    while i < |raw|
      invariant 0 <= i <= |raw|
      invariant m == ReplyMap(raw[..i])
    {
      assert raw[..i + 1][..i] == raw[..i];
      var r := raw[i];
      if IsReply(r) {
        var parent := r.inReplyTo.value;
        if parent !in m {
          m := m[parent := []];
        }
        m := m[parent := m[parent] + [r.body]];
      }
      i := i + 1;
    }
    assert raw[..i] == raw;
  }

  /** The reply markers that mean "fixed"; the last is the mis-decoded checkmark of the source. */
  const FixedMarkers: seq<string> := ["fixed in commit", "fixed in ", "done", "resolved", "applied", Analyzer.CheckMarkMarker]

  /** A reply says the comment was fixed: its lower-cased text holds a marker. */
  predicate SaysFixed(reply: string) {
    ContainsAny(Lower(reply), FixedMarkers)
  }

  /** Some reply in the list says fixed. */
  predicate AnySaysFixed(replies: seq<string>) {
    replies != [] && (AnySaysFixed(replies[..|replies| - 1]) || SaysFixed(replies[|replies| - 1]))
  }

  /** `_populate_reply_status`: every comment gets the replies to it and becomes
      fixed when one of them says so; a fixed flag is never cleared and nothing
      else about the comments changes. The same object may occur twice in the list. */
  method PopulateReplyStatus(comments: seq<PRComment>, raw: seq<RawRecord>)
    modifies comments`replies, comments`isFixed
    ensures forall c :: c in comments ==> c.replies == RepliesTo(raw, c.id)
    ensures forall c :: c in comments ==> c.isFixed == (old(c.isFixed) || AnySaysFixed(RepliesTo(raw, c.id)))
    ensures forall c :: c in comments ==>
              c.category == old(c.category) && c.difficulty == old(c.difficulty)
              && c.suggestedFix == old(c.suggestedFix) && c.draftReply == old(c.draftReply)
  {
    var replyMap := BuildReplyMap(raw);
    var i := 0;
    ghost var done: set<PRComment> := {};
    while i < |comments|
      invariant 0 <= i <= |comments|
      invariant forall j :: 0 <= j < i ==> comments[j] in done
      invariant forall c :: c in done ==> c in comments
      invariant forall c :: c in done ==> c.replies == RepliesTo(raw, c.id)
      invariant forall c :: c in done ==> c.isFixed == (old(c.isFixed) || AnySaysFixed(RepliesTo(raw, c.id)))
      invariant forall c :: c in comments && c !in done ==> c.isFixed == old(c.isFixed)
    {
      var comment := comments[i];
      ReplyMapAt(raw, comment.id);
      UpdateStatus(comment, MapGet(replyMap, comment.id), raw);
      done := done + {comment};
      i := i + 1;
    }
  }

  /** One step of `_populate_reply_status`: the comment receives its replies and
      the fixed flag is raised when one of them says so. */
  method UpdateStatus(comment: PRComment, replies: seq<string>, ghost raw: seq<RawRecord>)
    requires replies == RepliesTo(raw, comment.id)
    modifies comment`replies, comment`isFixed
    ensures comment.replies == RepliesTo(raw, comment.id)
    ensures comment.isFixed == (old(comment.isFixed) || AnySaysFixed(RepliesTo(raw, comment.id)))
  {
    comment.replies := replies;
    MarkIfFixed(comment, replies);
  }

  /** The inner loop of `_populate_reply_status`: stops at the first reply that says fixed. */
  method MarkIfFixed(comment: PRComment, replies: seq<string>)
    modifies comment`isFixed
    ensures comment.isFixed == (old(comment.isFixed) || AnySaysFixed(replies))
  {
    var j := 0;
    while j < |replies|
      invariant 0 <= j <= |replies|
      invariant comment.isFixed == old(comment.isFixed)
      invariant !AnySaysFixed(replies[..j])
    {
      assert replies[..j + 1][..j] == replies[..j];
      if SaysFixed(replies[j]) {
        comment.isFixed := true;
        AnySaysFixedPrefix(replies, j + 1);
        break;
      }
      j := j + 1;
    }
    if j == |replies| {
      assert replies[..j] == replies;
    }
  }

  /** A list holds a reply that says fixed when one of its prefixes does. */
  lemma {:induction false} AnySaysFixedPrefix(replies: seq<string>, n: nat)
    requires n <= |replies| && AnySaysFixed(replies[..n])
    ensures AnySaysFixed(replies)
    decreases |replies| - n
  {
    if n < |replies| {
      assert replies[..n + 1][..n] == replies[..n];
      AnySaysFixedPrefix(replies, n + 1);
    } else {
      assert replies[..n] == replies;
    }
  }

  /** An issue comment: no file, line or hunk, state "SUBMITTED". */
  predicate MirrorsIssue(c: PRComment, r: IssueRecord) {
    c.id == r.id && c.author == r.login && c.body == r.body && c.filePath == None
    && c.line == None && c.diffHunk == None && c.createdAt == r.createdAt && c.state == Some("SUBMITTED")
  }

  /** `fetch_review_comments` after decoding: the top-level review comments with
      their reply status, followed by the issue comments. */
  method FetchReviewComments(review: seq<RawRecord>, issues: seq<IssueRecord>) returns (comments: seq<PRComment>)
    ensures |comments| == |TopLevel(review)| + |issues|
    ensures forall i :: 0 <= i < |TopLevel(review)| ==>
          Mirrors(comments[i], TopLevel(review)[i])
          && comments[i].replies == RepliesTo(review, comments[i].id)
          && comments[i].isFixed == AnySaysFixed(RepliesTo(review, comments[i].id))
    ensures forall i :: 0 <= i < |issues| ==>
      MirrorsIssue(comments[|TopLevel(review)| + i], issues[i]) && comments[|TopLevel(review)| + i].replies == []
    ensures forall i :: 0 <= i < |comments| ==> fresh(comments[i])
    ensures forall i :: 0 <= i < |comments| ==> comments[i].category == Unknown && comments[i].difficulty == Complex
    ensures Distinct(comments)
  {
    var top := CollectTopLevel(review);
    PopulateReplyStatus(top, review);
    var fromIssues := CollectIssueComments(issues);
    assert forall i, j :: 0 <= i < |top| && 0 <= j < |fromIssues| ==> top[i] != fromIssues[j];
    DistinctConcat(top, fromIssues);
    comments := top + fromIssues;
  }

  /** Two lists of distinct comments, the second freshly allocated, join into one. */
  lemma DistinctConcat(a: seq<PRComment>, b: seq<PRComment>)
    requires Distinct(a) && Distinct(b)
    requires forall i, j :: 0 <= i < |a| && 0 <= j < |b| ==> a[i] != b[j]
    ensures Distinct(a + b)
  {
  }

  /** The second loop of `fetch_review_comments`: one fresh comment per issue comment, with no replies. */
  method CollectIssueComments(issues: seq<IssueRecord>) returns (comments: seq<PRComment>)
    ensures |comments| == |issues|
    ensures forall i :: 0 <= i < |issues| ==> MirrorsIssue(comments[i], issues[i]) && comments[i].replies == []
    ensures forall i :: 0 <= i < |comments| ==> fresh(comments[i])
    ensures forall i :: 0 <= i < |comments| ==> comments[i].category == Unknown && comments[i].difficulty == Complex
    ensures Distinct(comments)
  {
    comments := [];
    var k := 0;
    while k < |issues|
      invariant 0 <= k <= |issues|
      invariant |comments| == k
      invariant forall i :: 0 <= i < k ==> MirrorsIssue(comments[i], issues[i]) && comments[i].replies == []
      invariant forall i :: 0 <= i < |comments| ==> fresh(comments[i])
      invariant forall i :: 0 <= i < |comments| ==> comments[i].category == Unknown && comments[i].difficulty == Complex
      invariant Distinct(comments)
    {
      var r := issues[k];
      var c := new PRComment(r.id, r.login, r.body, None, None, None, r.createdAt, Some("SUBMITTED"));
      comments := comments + [c];
      k := k + 1;
    }
  }
}

=== FILE: jira.dfy ===
/** The two pieces of logic in `JiraConnector` (jira_connector.py): reading the
    acceptance criteria out of an issue description, and choosing the workflow
    transition that reaches a target status. */
module Jira {
  import opened Wrappers
  import opened Text

  // ---------------------------------------------------------------------------
  // Acceptance criteria (jira_connector.py:82-113)

  /** The phrases that open the acceptance-criteria section. */
  const SectionMarkers: seq<string> := ["acceptance criteria", "ac:", "criteria:"]

  /** The characters taken off the front of a criterion: bullets, then numbering. */
  const Bullets: string := "-*•"
  const Numbering: string := "0123456789."

  /** Line 91: the lower-cased, stripped line contains a section marker. */
  predicate OpensSection(line: string) {
    ContainsAny(Strip(Lower(line)), SectionMarkers)
  }

  /** `any(c.isdigit() for c in s)` */
  predicate HasDigit(s: string) {
    exists i :: 0 <= i < |s| && IsDigit(s[i])
  }

  /** Lines 95-96: a non-blank line that does not start with space, '-', '*', '•' or
      tab, holds a ':' and has no digit before its first ':' ends the section. */
  predicate ClosesSection(line: string) {
    Strip(line) != [] && !(line != [] && line[0] in " -*•\t") && ':' in line && !HasDigit(Split(line, ':')[0])
  }

  /** Line 101: strip, drop leading bullets, then leading digits and dots, strip again. */
  function CleanCriterion(line: string): (r: string)
    ensures r == [] || (!IsSpace(r[0]) && !IsSpace(r[|r| - 1]))
  {
    StrippedEnds(LStripChars(LStripChars(Strip(line), Bullets), Numbering))
  }

  /** Line 109: drop leading bullets from a stripped line, then strip. */
  function CleanBullet(stripped: string): (r: string)
    ensures r == [] || (!IsSpace(r[0]) && !IsSpace(r[|r| - 1]))
  {
    StrippedEnds(LStripChars(stripped, Bullets))
  }

  /** `s.strip()`, with what it guarantees about both ends. */
  function StrippedEnds(s: string): (r: string)
    ensures r == Strip(s)
    ensures r == [] || (!IsSpace(r[0]) && !IsSpace(r[|r| - 1]))
  {
    var l := LStrip(s);
    var r := RStrip(l);
    assert r != [] ==> r[0] == l[0];
    r
  }

  /** The section pass after one more line: the criteria so far and whether the
      section is open. */
  function SectionStep(state: (seq<string>, bool), line: string): (seq<string>, bool) {
    var (items, open) := state;
    if OpensSection(line) then (items, true)
    else if open && ClosesSection(line) then (items, false)
    else if open && Strip(line) != [] && CleanCriterion(line) != [] then (items + [CleanCriterion(line)], true)
    else state
  }

  /** The criteria collected by the section pass over `lines`, and whether the
      section is open after them. */
  function SectionPass(lines: seq<string>): (seq<string>, bool) {
    if lines == [] then ([], false)
    else SectionStep(SectionPass(lines[..|lines| - 1]), lines[|lines| - 1])
  }

  /** The fallback pass after one more line: a bullet line adds its cleaned text. */
  function BulletStep(items: seq<string>, line: string): seq<string> {
    var stripped := Strip(line);
    if stripped != [] && stripped[0] in Bullets && CleanBullet(stripped) != [] then items + [CleanBullet(stripped)]
    else items
  }

  /** The criteria of the fallback pass: every bullet line, cleaned. */
  function BulletPass(lines: seq<string>): seq<string> {
    if lines == [] then [] else BulletStep(BulletPass(lines[..|lines| - 1]), lines[|lines| - 1])
  }

  /** `_parse_acceptance_criteria`: the section pass, or the bullet pass when the
      section pass found nothing; either way at most one criterion per line. */
  function AcceptanceCriteria(description: string): (r: seq<string>)
    ensures |r| <= CountChar(description, '\n') + 1
  {
    var lines := Split(description, '\n');
    SectionPassClean(lines);
    BulletPassClean(lines);
    var section := SectionPass(lines).0;
    if section != [] then section else BulletPass(lines)
  }

  /** `_parse_acceptance_criteria` as the source runs it: the section loop, then the
      bullet loop when it found nothing. */
  method ParseAcceptanceCriteria(description: string) returns (criteria: seq<string>)
    ensures criteria == AcceptanceCriteria(description)
  {
    var lines := Split(description, '\n');
    criteria := SectionLoop(lines);
    if criteria == [] {
      criteria := BulletLoop(lines);
    }
  }

  /** The first loop (lines 88-103), carrying the `in_ac_section` flag. */
  method SectionLoop(lines: seq<string>) returns (criteria: seq<string>)
    ensures criteria == SectionPass(lines).0
  {
    criteria := [];
    var inSection := false;
    var i := 0;
    while i < |lines|
      invariant 0 <= i <= |lines|
      invariant (criteria, inSection) == SectionPass(lines[..i])
    {
      assert lines[..i + 1][..i] == lines[..i];
      var line := lines[i];
      if OpensSection(line) {
        inSection := true;
      } else if inSection && ClosesSection(line) {
        inSection := false;
      } else if inSection && Strip(line) != [] {
        var clean := CleanCriterion(line);
        if clean != [] {
          criteria := criteria + [clean];
        }
      }
      i := i + 1;
    }
    assert lines[..i] == lines;
  }

  /** The fallback loop (lines 105-111). */
  method BulletLoop(lines: seq<string>) returns (criteria: seq<string>)
    ensures criteria == BulletPass(lines)
  {
    criteria := [];
    var i := 0;
    while i < |lines|
      invariant 0 <= i <= |lines|
      invariant criteria == BulletPass(lines[..i])
    {
      assert lines[..i + 1][..i] == lines[..i];
      var stripped := Strip(lines[i]);
      if stripped != [] && stripped[0] in Bullets {
        var clean := CleanBullet(stripped);
        if clean != [] {
          criteria := criteria + [clean];
        }
      }
      i := i + 1;
    }
    assert lines[..i] == lines;
  }

  /** Every criterion is non-empty and has no whitespace at either end. */
  predicate AllClean(items: seq<string>) {
    forall k :: 0 <= k < |items| ==> items[k] != [] && !IsSpace(items[k][0]) && !IsSpace(items[k][|items[k]| - 1])
  }

  lemma AllCleanAppend(items: seq<string>, x: string)
    requires AllClean(items) && x != [] && !IsSpace(x[0]) && !IsSpace(x[|x| - 1])
    ensures AllClean(items + [x])
  {
    assert forall k :: 0 <= k < |items| ==> (items + [x])[k] == items[k];
  }

  lemma {:induction false} SectionPassClean(lines: seq<string>)
    ensures AllClean(SectionPass(lines).0)
    ensures |SectionPass(lines).0| <= |lines|
  {
    if lines != [] {
      var before := SectionPass(lines[..|lines| - 1]);
      var line := lines[|lines| - 1];
      SectionPassClean(lines[..|lines| - 1]);
      if SectionPass(lines).0 != before.0 {
        AllCleanAppend(before.0, CleanCriterion(line));
      }
    }
  }

  lemma {:induction false} BulletPassClean(lines: seq<string>)
    ensures AllClean(BulletPass(lines))
    ensures |BulletPass(lines)| <= |lines|
  {
    if lines != [] {
      var before := BulletPass(lines[..|lines| - 1]);
      BulletPassClean(lines[..|lines| - 1]);
      if BulletPass(lines) != before {
        AllCleanAppend(before, CleanBullet(Strip(lines[|lines| - 1])));
      }
    }
  }

  /** Every criterion the parser returns is non-empty and stripped. */
  lemma CriteriaAreClean(description: string)
    ensures AllClean(AcceptanceCriteria(description))
  {
    var lines := Split(description, '\n');
    SectionPassClean(lines);
    BulletPassClean(lines);
  }

  /** Without a line that opens the section, the section pass collects nothing,
      so the result is exactly the bullet pass. */
  lemma {:induction false} NoMarkerMeansBullets(lines: seq<string>)
    requires forall k :: 0 <= k < |lines| ==> !OpensSection(lines[k])
    ensures SectionPass(lines) == ([], false)
  {
    if lines != [] {
      NoMarkerMeansBullets(lines[..|lines| - 1]);
    }
  }

  /** A line that opens the section is never itself a criterion, and the section
      is open after it whatever came before. */
  lemma MarkerLineNotEmitted(lines: seq<string>, marker: string)
    requires OpensSection(marker)
    ensures SectionPass(lines + [marker]) == (SectionPass(lines).0, true)
  {
    assert (lines + [marker])[..|lines|] == lines;
  }

  /** A line that closes the section is never itself a criterion, and the section
      is closed after it. */
  lemma ClosingLineNotEmitted(lines: seq<string>, line: string)
    requires !OpensSection(line) && SectionPass(lines).1 && ClosesSection(line)
    ensures SectionPass(lines + [line]) == (SectionPass(lines).0, false)
  {
    assert (lines + [line])[..|lines|] == lines;
  }

  // ---------------------------------------------------------------------------
  // Transition selection (jira_connector.py:122-138)

  /** One entry of `client.transitions(issue)`: its id, its name, and the name of
      the state it leads to (absent when the entry has no `to` or no name there). */
  datatype Transition = Transition(id: string, name: string, toName: Option<string>)

  /** The transition is named like the target, or leads to a state named like it,
      ignoring case; a missing target-state name counts as "". */
  predicate Reaches(t: Transition, target: string) {
    Lower(t.name) == Lower(target) || Lower(t.toName.GetOr("")) == Lower(target)
  }

  /** The index of the first transition that reaches the target. */
  function FirstReaching(ts: seq<Transition>, target: string): (r: Option<nat>)
    ensures r.Some? ==> r.value < |ts| && Reaches(ts[r.value], target)
    ensures r.Some? ==> forall j :: 0 <= j < r.value ==> !Reaches(ts[j], target)
    ensures r.None? ==> forall j :: 0 <= j < |ts| ==> !Reaches(ts[j], target)
  {
    if ts == [] then None
    else if Reaches(ts[0], target) then Some(0)
    else
      match FirstReaching(ts[1..], target)
      case None => None
      case Some(k) => Some(k + 1)
  }

  /** The search loop of `update_status`: the id of the first transition that
      reaches the target, if any. */
  method SelectTransition(ts: seq<Transition>, target: string) returns (id: Option<string>)
    ensures id.None? <==> FirstReaching(ts, target).None?
    ensures id.Some? ==> id.value == ts[FirstReaching(ts, target).value].id
  {
    id := None;
    var i := 0;
    while i < |ts|
      invariant 0 <= i <= |ts|
      invariant forall j :: 0 <= j < i ==> !Reaches(ts[j], target)
      invariant id.None?
    {
      if Lower(ts[i].name) == Lower(target) {
        id := Some(ts[i].id);
        break;
      }
      if Lower(ts[i].toName.GetOr("")) == Lower(target) {
        id := Some(ts[i].id);
        break;
      }
      i := i + 1;
    }
    FirstReachingIs(ts, target, i);
  }

  /** If no transition before `i` reaches the target and the one at `i` (when
      there is one) does, the first one to reach it is at `i`. */
  lemma FirstReachingIs(ts: seq<Transition>, target: string, i: nat)
    requires i <= |ts|
    requires forall j :: 0 <= j < i ==> !Reaches(ts[j], target)
    requires i < |ts| ==> Reaches(ts[i], target)
    ensures i < |ts| ==> FirstReaching(ts, target) == Some(i)
    ensures i == |ts| ==> FirstReaching(ts, target).None?
  {
  }

  /** `update_status`: true exactly when a transition reaches the target and its id
      is not empty (an empty id is falsy and is treated as not found). The
      transition itself is a call to the Jira server and is not modelled. */
  method UpdateStatus(ts: seq<Transition>, target: string) returns (moved: bool)
    ensures moved <==> FirstReaching(ts, target).Some? && ts[FirstReaching(ts, target).value].id != ""
  {
    var id := SelectTransition(ts, target);
    moved := id.Some? && id.value != "";
  }
}

=== FILE: manager.dfy ===
/** `PRReviewManager.analyze_pr` (pr_review.py:443-500): every fetched comment is
    analysed in fetch order and appended to exactly one of the five lists of the
    review summary. */
module Manager {
  import opened Wrappers
  import opened ReviewModel
  import opened Analyzer
  import Fetcher

  /** The five lists of `PRReviewSummary`. */
  datatype Bucket = AutoFixable | SimpleFixes | ComplexFixes | Discussions | ResolvedBucket

  /** The routing of an analysed comment (pr_review.py:487-498): approvals and
      resolved comments first, then by difficulty. */
  function BucketOf(category: Category, difficulty: Difficulty): (b: Bucket)
    ensures b == ResolvedBucket <==> category == Approval || category == Resolved
    ensures b == AutoFixable <==> category != Approval && category != Resolved && difficulty == Auto
    ensures b == SimpleFixes <==> category != Approval && category != Resolved && difficulty == Simple
    ensures b == Discussions <==> category != Approval && category != Resolved && difficulty == Discussion
    ensures b == ComplexFixes <==> category != Approval && category != Resolved && difficulty == Complex
  {
    if category == Approval then ResolvedBucket
    else if category == Resolved then ResolvedBucket
    else
      match difficulty
      case Auto => AutoFixable
      case Simple => SimpleFixes
      case Discussion => Discussions
      case Complex => ComplexFixes
  }

  /** What `get_pr_by_number` / `get_pr_for_branch` report about the pull request. */
  datatype PrInfo = PrInfo(number: int, title: string, url: string)

  class ReviewSummary {
    const prNumber: int
    const prTitle: string
    const prUrl: string
    const totalComments: int
    var autoFixable: seq<PRComment>
    var simpleFixes: seq<PRComment>
    var complexFixes: seq<PRComment>
    var discussions: seq<PRComment>
    var resolved: seq<PRComment>

    /** A summary with the given header and five empty lists. */
    constructor (info: PrInfo, total: int)
      ensures prNumber == info.number && prTitle == info.title && prUrl == info.url
      ensures totalComments == total
      ensures forall b :: List(b) == []
    {
      prNumber := info.number;
      prTitle := info.title;
      prUrl := info.url;
      totalComments := total;
      autoFixable := [];
      simpleFixes := [];
      complexFixes := [];
      discussions := [];
      resolved := [];
    }

    /** The list that holds bucket `b`. */
    function List(b: Bucket): seq<PRComment>
      reads this
    {
      match b
      case AutoFixable => autoFixable
      case SimpleFixes => simpleFixes
      case ComplexFixes => complexFixes
      case Discussions => discussions
      case ResolvedBucket => resolved
    }

    /** `summary.<list>.append(comment)`: only the list of bucket `b` grows. */
    method Append(c: PRComment, b: Bucket)
      modifies this
      ensures List(b) == old(List(b)) + [c]
      ensures forall o :: o != b ==> List(o) == old(List(o))
    {
      match b
      case AutoFixable => autoFixable := autoFixable + [c];
      case SimpleFixes => simpleFixes := simpleFixes + [c];
      case ComplexFixes => complexFixes := complexFixes + [c];
      case Discussions => discussions := discussions + [c];
      case ResolvedBucket => resolved := resolved + [c];
    }
  }

  /** The comments of the list whose category and difficulty route them to `b`, in list order. */
  function Routed(cs: seq<PRComment>, b: Bucket): seq<PRComment>
    reads set c | c in cs
  {
    if cs == [] then []
    else
      var c := cs[|cs| - 1];
      Routed(cs[..|cs| - 1], b) + (if BucketOf(c.category, c.difficulty) == b then [c] else [])
  }

  /** How `analyze_pr` ends: no pull request, a summary, or the `IndexError` that
      the analysis of comment `at` raised. */
  datatype Review = NotFound | Summarised(summary: ReviewSummary) | Crashed(at: nat)

  /** `analyze_pr` once the pull request has been looked up; the comments arrive
      as decoded records and are fetched as `fetch_review_comments` does. */
  method AnalyzePr(pr: Option<PrInfo>, review: seq<Fetcher.RawRecord>, issues: seq<Fetcher.IssueRecord>)
    returns (r: Review)
    ensures pr.None? <==> r.NotFound?
    ensures r.Summarised? ==> r.summary.totalComments == |Fetcher.TopLevel(review)| + |issues|
    ensures r.Summarised? ==> r.summary.prNumber == pr.value.number && r.summary.prTitle == pr.value.title
    ensures r.Crashed? ==> r.at < |Fetcher.TopLevel(review)| + |issues|
  {
    if pr.None? {
      return NotFound;
    }
    var comments := Fetcher.FetchReviewComments(review, issues);
    r := Summarise(pr.value, comments);
  }

  /** The analysing and routing loop of `analyze_pr` over the fetched comments:
      either every comment is analysed and sits in the list its category and
      difficulty select, in fetch order, or the analysis of one comment raises. */
  method Summarise(info: PrInfo, comments: seq<PRComment>) returns (r: Review)
    requires Distinct(comments)
    modifies comments`category, comments`difficulty, comments`suggestedFix, comments`draftReply
    ensures !r.NotFound?
    ensures comments == [] ==> r.Summarised? && r.summary.totalComments == 0 && forall b :: r.summary.List(b) == []
    ensures r.Summarised? ==> fresh(r.summary) && r.summary.totalComments == |comments|
    ensures r.Summarised? ==>
              r.summary.prNumber == info.number && r.summary.prTitle == info.title && r.summary.prUrl == info.url
    ensures r.Summarised? ==> forall b :: r.summary.List(b) == Routed(comments, b)
    ensures r.Summarised? ==> forall k :: 0 <= k < |comments| ==> comments[k].category != Resolved
    ensures r.Crashed? ==> r.at < |comments| && Classify(comments[r.at].body).Raised?
  {
    var summary := new ReviewSummary(info, |comments|);
    if comments == [] {
      return Summarised(summary);
    }
    var i := 0;
    while i < |comments|
      invariant 0 <= i <= |comments|
      invariant forall b :: summary.List(b) == Routed(comments[..i], b)
      invariant forall k :: 0 <= k < i ==> comments[k].category != Resolved
    {
      assert comments[..i + 1][..i] == comments[..i];
      var outcome := AnalyzeAndRoute(summary, comments[i]);
      if outcome == RaisedIndexError {
        return Crashed(i);
      }
      i := i + 1;
    }
    assert comments[..i] == comments;
    r := Summarised(summary);
  }

  /** One pass of the loop of `analyze_pr`: analyse the comment, then append it to
      the list its new category and difficulty select. */
  method AnalyzeAndRoute(summary: ReviewSummary, c: PRComment) returns (outcome: Outcome)
    modifies summary, c`category, c`difficulty, c`suggestedFix, c`draftReply
    ensures outcome == RaisedIndexError ==> Classify(c.body).Raised?
    ensures outcome == Returned ==> c.category != Resolved
    ensures outcome == Returned ==>
              forall b :: summary.List(b) == old(summary.List(b)) + (if BucketOf(c.category, c.difficulty) == b then [c] else [])
  {
    outcome := Analyze(c);
    if outcome == RaisedIndexError {
      return;
    }
    ClassifyNeverResolved(c.body);
    summary.Append(c, BucketOf(c.category, c.difficulty));
  }

  // ---------------------------------------------------------------------------
  // Properties of the routing

  /** A comment is in list `b` exactly when it is one of the comments and its
      category and difficulty route it to `b`; so no comment is in two lists. */
  lemma {:induction false} RoutedMembers(cs: seq<PRComment>, b: Bucket)
    ensures forall c :: c in Routed(cs, b) <==> c in cs && BucketOf(c.category, c.difficulty) == b
  {
    if cs != [] {
      RoutedMembers(cs[..|cs| - 1], b);
      assert cs == cs[..|cs| - 1] + [cs[|cs| - 1]];
    }
  }

  /** Every comment lands in exactly one list: the five lengths add up to the
      number of comments. */
  lemma {:induction false} RoutedPartition(cs: seq<PRComment>)
    ensures |Routed(cs, AutoFixable)| + |Routed(cs, SimpleFixes)| + |Routed(cs, ComplexFixes)|
            + |Routed(cs, Discussions)| + |Routed(cs, ResolvedBucket)| == |cs|
  {
    if cs != [] {
      RoutedPartition(cs[..|cs| - 1]);
    }
  }

  /** Once no comment is `Resolved`, the resolved list holds exactly the approvals. */
  lemma ResolvedAreApprovals(cs: seq<PRComment>)
    requires forall k :: 0 <= k < |cs| ==> cs[k].category != Resolved
    ensures forall c :: c in Routed(cs, ResolvedBucket) <==> c in cs && c.category == Approval
  {
    RoutedMembers(cs, ResolvedBucket);
  }

  /** The analysis never produces `Resolved`: the cascade has no branch for it. */
  lemma DecideNeverResolved(s: Signals, body: string)
    requires |s.fires| == |RuleOrder|
    ensures Decide(s, body).Analysed? ==> Decide(s, body).analysis.category != Resolved
  {
    match FirstTrue(s.fires, 0)
    case Some(k) =>
    case None =>
  }

  lemma ClassifyNeverResolved(body: string)
    ensures Classify(body).Analysed? ==> Classify(body).analysis.category != Resolved
  {
    DecideNeverResolved(SignalsOf(body), body);
  }
}

=== FILE: review_model.dfy ===
/** The review comment as the engine sees it (pr_review.py:16-84): the fetched
    payload, which never changes, and the analysis fields that the classifier and
    the reply tracker fill in place. */
module ReviewModel {
  import opened Wrappers

  datatype Category = CodeFix | LogicIssue | Question | Suggestion | Nitpick | Approval | Resolved | Unknown

  datatype Difficulty = Auto | Simple | Complex | Discussion

  /** A drafted reply: to a question, quoting the start of the comment, or to a suggestion. */
  datatype DraftReply = QuestionDraft(quoted: string) | SuggestionDraft {

    /** The reply text as it is posted (pr_review.py:426-432). */
    function Text(): string {
      match this
      case QuestionDraft(quoted) =>
        "_[Draft reply for question]_\n\n> " + quoted + "...\n\nTODO: Explain the reasoning here."
      case SuggestionDraft =>
        "_[Draft reply for suggestion]_\n\nThanks for the suggestion! [Accept/Decline with reason]"
    }
  }

  class PRComment {
    // the fetched payload
    const id: int
    const author: string
    const body: string
    const filePath: Option<string>
    const line: Option<int>
    const diffHunk: Option<string>
    const createdAt: string
    const state: Option<string>

    // analysis results, updated in place
    var category: Category
    var difficulty: Difficulty
    var suggestedFix: Option<string>
    var draftReply: Option<DraftReply>

    // reply tracking
    var replies: seq<string>
    var isFixed: bool

    /** A freshly fetched comment carries the dataclass defaults: unknown, complex, no replies, not fixed. */
    constructor (id: int, author: string, body: string, filePath: Option<string>, line: Option<int>,
                 diffHunk: Option<string>, createdAt: string, state: Option<string>)
      ensures this.id == id && this.author == author && this.body == body
      ensures this.filePath == filePath && this.line == line && this.diffHunk == diffHunk
      ensures this.createdAt == createdAt && this.state == state
      ensures category == Unknown && difficulty == Complex
      ensures suggestedFix == None && draftReply == None
      ensures replies == [] && !isFixed
    {
      this.id := id;
      this.author := author;
      this.body := body;
      this.filePath := filePath;
      this.line := line;
      this.diffHunk := diffHunk;
      this.createdAt := createdAt;
      this.state := state;
      category := Unknown;
      difficulty := Complex;
      suggestedFix := None;
      draftReply := None;
      replies := [];
      isFixed := false;
    }
  }

  /** No comment object occurs twice in the list. */
  predicate Distinct(cs: seq<PRComment>) {
    forall j, k :: 0 <= j < k < |cs| ==> cs[j] != cs[k]
  }
}

=== FILE: scanner.dfy ===
/** A deterministic scanner for the handful of regular expressions that the
    review engine searches for (pr_review.py and auto_fixer.py use Python's `re`).

    Each pattern is a sequence of steps. Every step that consumes a variable
    amount of text (`\s+`, `\w+`, `[^...]+`, an optional character, one of several
    alternatives) is taken maximally and never revisited. For the patterns of this
    model that is exactly what the backtracking of `re` finds: in each of them the
    step that follows such a run cannot start inside the run (a word follows
    whitespace, a quote or whitespace follows a word, the alternatives of a group
    start with distinct letters), so a shorter run can never lead to a match. The
    one step that does backtrack, `.*`, is searched from its longest extent down, as
    `re` does. The typo template and the fenced blocks do not fit this shape and are
    matched by hand-written searches below. */
module Scanner {
  import opened Wrappers
  import opened Text

  datatype CharClass = AnyOf(chars: string) | Space

  predicate InClass(c: char, cls: CharClass) {
    match cls
    case AnyOf(cs) => c in cs
    case Space => IsSpace(c)
  }

  datatype Step =
    | Lit(text: string)          // literal text
    | LitFolded(text: string)    // literal lower-case text, matched ignoring ASCII case
    | Gap(atLeastOne: bool)      // `\s+` (true) or `\s*` (false)
    | Opt(cls: CharClass)        // an optional character of the class, e.g. [`']?
    | One(cls: CharClass)        // one character of the class
    | Choice(alts: seq<string>)  // a captured group `(a|b|...)`
    | Word                       // a captured group `(\w+)`
    | NoneOf(chars: string)      // a captured group `([^...]+)`
    | Boundary                   // `\b`
    | LineEnd                    // `$` (end of text, or before a final newline)
    | AnyOnLine                  // `.*` without DOTALL: any run of non-newline characters

  /** A pattern, searched for anywhere (or only at the start when anchored by `^`);
      `TypoPhrase` is the typo template of the auto-fix table. */
  datatype Pattern = Pattern(anchored: bool, steps: seq<Step>) | TypoPhrase

  /** A successful search: where it starts and the captured groups in order. */
  datatype Match = Match(start: nat, groups: seq<string>)

  /** The index just past the run of whitespace starting at `i`. */
  function SkipSpaces(t: string, i: nat): (r: nat)
    requires i <= |t|
    decreases |t| - i
    ensures i <= r <= |t| && (r == |t| || !IsSpace(t[r]))
    ensures forall k :: i <= k < r ==> IsSpace(t[k])
  {
    if i < |t| && IsSpace(t[i]) then SkipSpaces(t, i + 1) else i
  }

  /** The index just past the run of word characters starting at `i`. */
  function SkipWord(t: string, i: nat): (r: nat)
    requires i <= |t|
    decreases |t| - i
    ensures i <= r <= |t| && (r == |t| || !IsWordChar(t[r]))
    ensures forall k :: i <= k < r ==> IsWordChar(t[k])
  {
    if i < |t| && IsWordChar(t[i]) then SkipWord(t, i + 1) else i
  }

  /** The index just past the run of characters outside `cs` starting at `i`. */
  function SkipNoneOf(t: string, i: nat, cs: string): (r: nat)
    requires i <= |t|
    decreases |t| - i
    ensures i <= r <= |t| && (r == |t| || t[r] in cs)
  {
    if i < |t| && t[i] !in cs then SkipNoneOf(t, i + 1, cs) else i
  }

  /** The index of the first newline at or after `i`, or the end of the text. */
  function LineEndFrom(t: string, i: nat): (r: nat)
    requires i <= |t|
    decreases |t| - i
    ensures i <= r <= |t| && (r == |t| || t[r] == '\n')
    ensures forall k :: i <= k < r ==> t[k] != '\n'
  {
    if i < |t| && t[i] != '\n' then LineEndFrom(t, i + 1) else i
  }

  /** `\b` at index `i`: a word character on exactly one side. */
  predicate IsBoundary(t: string, i: nat)
    requires i <= |t|
  {
    (i > 0 && IsWordChar(t[i - 1])) != (i < |t| && IsWordChar(t[i]))
  }

  /** The first alternative that occurs at `i`. */
  function FirstAlt(t: string, i: nat, alts: seq<string>): (r: Option<string>)
    ensures r.Some? ==> r.value in alts && IsPrefixAt(t, i, r.value)
  {
    if alts == [] then None
    else if IsPrefixAt(t, i, alts[0]) then Some(alts[0])
    else FirstAlt(t, i, alts[1..])
  }

  function Prepend(g: string, r: Option<(nat, seq<string>)>): Option<(nat, seq<string>)> {
    match r
    case None => None
    case Some((e, gs)) => Some((e, [g] + gs))
  }

  /** Runs `steps` from index `i`; on success gives the end index and the captured groups. */
  function Run(t: string, i: nat, steps: seq<Step>): (r: Option<(nat, seq<string>)>)
    requires i <= |t|
    decreases |steps|, |t| + 1
    ensures r.Some? ==> i <= r.value.0 <= |t|
  {
    if steps == [] then Some((i, []))
    else
      var rest := steps[1..];
      match steps[0]
      case Lit(p) =>
        if IsPrefixAt(t, i, p) then Run(t, i + |p|, rest) else None
      case LitFolded(p) =>
        if i + |p| <= |t| && Lower(t[i..i + |p|]) == p then Run(t, i + |p|, rest) else None
      case Gap(atLeastOne) =>
        var j := SkipSpaces(t, i);
        if atLeastOne && j == i then None else Run(t, j, rest)
      case Opt(cls) =>
        if i < |t| && InClass(t[i], cls) then Run(t, i + 1, rest) else Run(t, i, rest)
      case One(cls) =>
        if i < |t| && InClass(t[i], cls) then Run(t, i + 1, rest) else None
      case Choice(alts) =>
        (match FirstAlt(t, i, alts)
         case None => None
         case Some(a) => Prepend(a, Run(t, i + |a|, rest)))
      case Word =>
        var j := SkipWord(t, i);
        if j == i then None else Prepend(t[i..j], Run(t, j, rest))
      case NoneOf(cs) =>
        var j := SkipNoneOf(t, i, cs);
        if j == i then None else Prepend(t[i..j], Run(t, j, rest))
      case Boundary =>
        if IsBoundary(t, i) then Run(t, i, rest) else None
      case LineEnd =>
        if i == |t| || (i + 1 == |t| && t[i] == '\n') then Run(t, i, rest) else None
      case AnyOnLine =>
        RunBack(t, i, LineEndFrom(t, i), rest)
  }

  /** `.*` followed by `rest`: tries the longest run first, as greedy matching does. */
  function RunBack(t: string, lo: nat, j: nat, rest: seq<Step>): (r: Option<(nat, seq<string>)>)
    requires lo <= j <= |t|
    decreases |rest| + 1, j
    ensures r.Some? ==> lo <= r.value.0 <= |t|
  {
    match Run(t, j, rest)
    case Some(m) => Some(m)
    case None => if j == lo then None else RunBack(t, lo, j - 1, rest)
  }

  /** `re.search`: the leftmost start from which the steps succeed. */
  function SearchFrom(t: string, steps: seq<Step>, s: nat): (r: Option<Match>)
    requires s <= |t|
    decreases |t| - s
    ensures r.Some? ==> s <= r.value.start <= |t| && Run(t, r.value.start, steps).Some?
    ensures r.Some? ==> r.value.groups == Run(t, r.value.start, steps).value.1
    ensures r.Some? ==> forall j :: s <= j < r.value.start ==> Run(t, j, steps).None?
    ensures r.None? ==> forall j :: s <= j <= |t| ==> Run(t, j, steps).None?
  {
    match Run(t, s, steps)
    case Some((_, gs)) => Some(Match(s, gs))
    case None => if s == |t| then None else SearchFrom(t, steps, s + 1)
  }

  /** The index of the last word character in `t[lo..hi]`. */
  function LastWordChar(t: string, lo: nat, hi: nat): (r: Option<nat>)
    requires lo <= hi <= |t|
    decreases hi - lo
    ensures r.Some? ==> lo <= r.value < hi && IsWordChar(t[r.value])
    ensures r.Some? ==> forall k :: r.value < k < hi ==> !IsWordChar(t[k])
    ensures r.None? ==> forall k :: lo <= k < hi ==> !IsWordChar(t[k])
  {
    if hi == lo then None
    else if IsWordChar(t[hi - 1]) then Some(hi - 1)
    else LastWordChar(t, lo, hi - 1)
  }

  /** The typo template `(typo|spelling).*[`']?(\w+)[`']?.*[`']?(\w+)[`']?` at `s`.
      The first `.*` is greedy and backtracks only as far as it must, so the two
      word groups become the last two word characters of the rest of the line,
      one character each. */
  function TypoAt(t: string, s: nat): Option<seq<string>>
    requires s <= |t|
  {
    var kw := if IsPrefixAt(t, s, "typo") then "typo" else "spelling";
    if !IsPrefixAt(t, s, kw) then None
    else
      var lo := s + |kw|;
      var hi := LineEndFrom(t, lo);
      match LastWordChar(t, lo, hi)
      case None => None
      case Some(z) =>
        match LastWordChar(t, lo, z)
        case None => None
        case Some(y) => Some([kw, [t[y]], [t[z]]])
  }

  function TypoSearch(t: string, s: nat): (r: Option<Match>)
    requires s <= |t|
    decreases |t| - s
    ensures r.Some? ==> s <= r.value.start <= |t| && TypoAt(t, r.value.start) == Some(r.value.groups)
    ensures r.Some? ==> forall j :: s <= j < r.value.start ==> TypoAt(t, j).None?
    ensures r.None? ==> forall j :: s <= j <= |t| ==> TypoAt(t, j).None?
  {
    match TypoAt(t, s)
    case Some(gs) => Some(Match(s, gs))
    case None => if s == |t| then None else TypoSearch(t, s + 1)
  }

  /** `re.search(pattern, t)` */
  function Search(t: string, p: Pattern): Option<Match> {
    match p
    case TypoPhrase => TypoSearch(t, 0)
    case Pattern(anchored, steps) =>
      if !anchored then SearchFrom(t, steps, 0)
      else
        match Run(t, 0, steps)
        case Some((_, gs)) => Some(Match(0, gs))
        case None => None
  }

  /** Group `k` (counted from 0) of a match; every template reads only groups its pattern has. */
  function Group(m: Match, k: nat): string {
    if k < |m.groups| then m.groups[k] else ""
  }

  /** The tag of a fenced block: a fixed word, or `\w*` (any run of word characters). */
  datatype FenceTag = Tag(name: string) | AnyTag

  /** `re.search(r'```<tag>\s*\n(.*?)\n```', t, re.DOTALL).group(1)`: the leftmost
      fence opening with the tag from which a closing fence can be reached. */
  function FencedBlock(t: string, tag: FenceTag): Option<string> {
    FenceFrom(t, tag, 0)
  }

  function FenceFrom(t: string, tag: FenceTag, s: nat): Option<string>
    requires s <= |t|
    decreases |t| - s
  {
    var here :=
      if !IsPrefixAt(t, s, "```") then None
      else
        match tag
        case Tag(name) => if IsPrefixAt(t, s + 3, name) then FenceBody(t, s + 3 + |name|) else None
        case AnyTag => FenceBody(t, SkipWord(t, s + 3));
    if here.Some? then here
    else if s == |t| then None
    else FenceFrom(t, tag, s + 1)
  }

  /** `\s*\n(.*?)\n``` ` after the tag: the greedy `\s*` gives back characters until
      it stops before a newline; the lazy group ends at the first closing fence. */
  function FenceBody(t: string, tagEnd: nat): Option<string>
    requires tagEnd <= |t|
  {
    NewlineBack(t, tagEnd, SkipSpaces(t, tagEnd))
  }

  function NewlineBack(t: string, lo: nat, k: nat): Option<string>
    requires lo <= k <= |t|
    decreases k - lo
  {
    if k == lo then None
    else if t[k - 1] == '\n' then
      match Find(t, "\n```", k)
      case Some(e) => Some(t[k..e])
      case None => NewlineBack(t, lo, k - 1)
    else NewlineBack(t, lo, k - 1)
  }
}

=== FILE: text.dfy ===
/** The parts of Python's `str` that the modelled code relies on: character
    classes, case folding, stripping, searching, splitting and joining.
    Case folding and the character classes cover ASCII only. */
module Text {
  import opened Wrappers

  /** `str.isspace` over ASCII (also the regular-expression class `\s`). */
  predicate IsSpace(c: char) {
    c == ' ' || c == '\t' || c == '\n' || c == '\r' || c == '\U{000B}' || c == '\U{000C}'
    || ('\U{001C}' <= c <= '\U{001F}')
  }

  /** `str.isdigit` over ASCII. */
  predicate IsDigit(c: char) { '0' <= c <= '9' }

  predicate IsAlpha(c: char) { 'a' <= c <= 'z' || 'A' <= c <= 'Z' }

  /** `str.isalnum` over ASCII. */
  predicate IsAlnum(c: char) { IsAlpha(c) || IsDigit(c) }

  /** The regular-expression class `\w` over ASCII. */
  predicate IsWordChar(c: char) { IsAlnum(c) || c == '_' }

  function LowerChar(c: char): char {
    if 'A' <= c <= 'Z' then (c as int + 32) as char else c
  }

  /** `str.lower` over ASCII: every other character is left as it is. */
  function Lower(s: string): (r: string)
    ensures |r| == |s|
    ensures forall i :: 0 <= i < |s| ==> r[i] == LowerChar(s[i])
  {
    seq(|s|, i requires 0 <= i < |s| => LowerChar(s[i]))
  }

  /** `str.lstrip()` */
  function LStrip(s: string): (r: string)
    ensures |r| <= |s| && r == s[|s| - |r|..]
    ensures r == [] || !IsSpace(r[0])
  {
    if |s| > 0 && IsSpace(s[0]) then LStrip(s[1..]) else s
  }

  /** `str.rstrip()` */
  function RStrip(s: string): (r: string)
    ensures |r| <= |s| && r == s[..|r|]
    ensures r == [] || !IsSpace(r[|r| - 1])
    ensures forall i :: |r| <= i < |s| ==> IsSpace(s[i])
  {
    if |s| > 0 && IsSpace(s[|s| - 1]) then RStrip(s[..|s| - 1]) else s
  }

  /** `str.strip()` */
  function Strip(s: string): string {
    RStrip(LStrip(s))
  }

  /** `str.lstrip(chars)` */
  function LStripChars(s: string, chars: string): (r: string)
    ensures |r| <= |s|
    ensures r == [] || r[0] !in chars
  {
    if |s| > 0 && s[0] in chars then LStripChars(s[1..], chars) else s
  }

  /** `p` occurs in `s` starting at index `i`. */
  predicate IsPrefixAt(s: string, i: nat, p: string) {
    i + |p| <= |s| && s[i..i + |p|] == p
  }

  /** `s.startswith(p)` */
  predicate StartsWith(s: string, p: string) {
    IsPrefixAt(s, 0, p)
  }

  /** `s.endswith(p)` */
  predicate EndsWith(s: string, p: string) {
    |p| <= |s| && s[|s| - |p|..] == p
  }

  /** `p in s` */
  predicate Contains(s: string, p: string) {
    exists i: nat | i <= |s| :: IsPrefixAt(s, i, p)
  }

  /** `any(p in s for p in ps)` */
  predicate ContainsAny(s: string, ps: seq<string>) {
    ps != [] && (Contains(s, ps[0]) || ContainsAny(s, ps[1..]))
  }

  /** `s.find(p, from)`: the leftmost occurrence of `p` at or after `from`. */
  function Find(s: string, p: string, from: nat): (r: Option<nat>)
    decreases |s| - from
    ensures r.Some? ==> from <= r.value && IsPrefixAt(s, r.value, p)
    ensures r.Some? ==> forall j :: from <= j < r.value ==> !IsPrefixAt(s, j, p)
    ensures r.None? ==> forall j :: from <= j ==> !IsPrefixAt(s, j, p)
  {
    if from + |p| > |s| then None
    else if IsPrefixAt(s, from, p) then Some(from)
    else Find(s, p, from + 1)
  }

  /** Python's `s[:n]` for a non-negative `n`. */
  function Prefix(s: string, n: nat): (r: string)
    ensures |r| == if n < |s| then n else |s|
    ensures StartsWith(s, r)
  {
    if n < |s| then s[..n] else s
  }

  /** `s.count(c)` for a single character. */
  function CountChar(s: string, c: char): nat {
    if s == [] then 0 else (if s[0] == c then 1 else 0) + CountChar(s[1..], c)
  }

  /** `s.split(d)` for a single-character separator: one more piece than separators. */
  function Split(s: string, d: char): (r: seq<string>)
    ensures |r| == CountChar(s, d) + 1
    ensures forall k :: 0 <= k < |r| ==> d !in r[k]
  {
    if s == [] then [""]
    else
      var rest := Split(s[1..], d);
      if s[0] == d then [""] + rest else [[s[0]] + rest[0]] + rest[1..]
  }

  /** `sep.join(xs)` */
  function Join(sep: string, xs: seq<string>): string {
    if xs == [] then "" else if |xs| == 1 then xs[0] else xs[0] + sep + Join(sep, xs[1..])
  }

  /** The longest prefix of `s` that holds no whitespace. */
  function TakeNonSpace(s: string): (r: string)
    ensures |r| <= |s| && r == s[..|r|]
    ensures forall i :: 0 <= i < |r| ==> !IsSpace(r[i])
    ensures |r| < |s| ==> IsSpace(s[|r|])
  {
    if s == [] || IsSpace(s[0]) then [] else [s[0]] + TakeNonSpace(s[1..])
  }

  /** A non-empty run of non-whitespace characters. */
  predicate IsWord(w: string) {
    w != [] && forall i :: 0 <= i < |w| ==> !IsSpace(w[i])
  }

  /** `s.split()`: the maximal runs of non-whitespace characters, in order. */
  function Words(s: string): (r: seq<string>)
    decreases |s|
    ensures forall k :: 0 <= k < |r| ==> IsWord(r[k])
  {
    var t := LStrip(s);
    if t == [] then []
    else
      var w := TakeNonSpace(t);
      assert IsWord(w) && |w| > 0;
      var rest := Words(t[|w|..]);
      assert forall k :: 1 <= k < |rest| + 1 ==> ([w] + rest)[k] == rest[k - 1];
      [w] + rest
  }

  /** `str(n)` for a natural number. */
  function NatToString(n: nat): (r: string)
    ensures |r| >= 1 && forall i :: 0 <= i < |r| ==> IsDigit(r[i])
  {
    if n < 10 then ['0' + n as char] else NatToString(n / 10) + ['0' + (n % 10) as char]
  }

  /** `str.replace(a, b)`: every non-overlapping occurrence of `a`, scanned from the left, becomes `b`. */
  function ReplaceAll(s: string, a: string, b: string): string
    requires |a| > 0
  {
    if |s| < |a| then s
    else if s[..|a|] == a then b + ReplaceAll(s[|a|..], a, b)
    else [s[0]] + ReplaceAll(s[1..], a, b)
  }

  /** `str.replace` changes its text exactly when the old word occurs in it and differs from the new one. */
  lemma {:induction false} ReplaceAllUnchangedIff(s: string, a: string, b: string)
    requires |a| > 0
    ensures ReplaceAll(s, a, b) == s <==> (!Contains(s, a) || a == b)
    decreases |s|
  {
    if |s| < |a| {
      assert !Contains(s, a);
    } else if s[..|a|] == a {
      assert IsPrefixAt(s, 0, a);
      ReplaceAllUnchangedIff(s[|a|..], a, b);
      if a == b {
        ReplaceAllSame(s[|a|..], a);
      } else if |a| == |b| {
        assert ReplaceAll(s, a, b)[..|a|] == b;
      } else {
        ReplaceAllLength(s[|a|..], a, b, |a| < |b|);
      }
    } else {
      ReplaceAllUnchangedIff(s[1..], a, b);
      ContainsTail(s, a);
    }
  }

  lemma {:induction false} ReplaceAllSame(s: string, a: string)
    requires |a| > 0
    ensures ReplaceAll(s, a, a) == s
    decreases |s|
  {
    if |s| < |a| {
    } else if s[..|a|] == a {
      ReplaceAllSame(s[|a|..], a);
    } else {
      ReplaceAllSame(s[1..], a);
    }
  }

  /** When `b` is longer (shorter) than `a`, replacing never shortens (lengthens) the text. */
  lemma {:induction false} ReplaceAllLength(s: string, a: string, b: string, longer: bool)
    requires |a| > 0 && longer == (|a| < |b|)
    ensures longer ==> |ReplaceAll(s, a, b)| >= |s|
    ensures !longer && |b| != |a| ==> |ReplaceAll(s, a, b)| <= |s|
    decreases |s|
  {
    if |s| < |a| {
    } else if s[..|a|] == a {
      ReplaceAllLength(s[|a|..], a, b, longer);
    } else {
      ReplaceAllLength(s[1..], a, b, longer);
    }
  }

  /** No occurrence of `a` starts inside `p`, even one that runs on into an `a` after it. */
  predicate NoMatchBefore(p: string, a: string) {
    forall j :: 0 <= j < |p| ==> !IsPrefixAt(p + a, j, a)
  }

  /** Text that holds no occurrence of `a` before the next `a` is kept, and that `a` is replaced. */
  lemma {:induction false} ReplaceAllPiece(p: string, a: string, b: string, rest: string)
    requires |a| > 0 && NoMatchBefore(p, a)
    ensures ReplaceAll(p + a + rest, a, b) == p + b + ReplaceAll(rest, a, b)
    decreases |p|
  {
    if p == [] {
      assert p + a + rest == a + rest;
      ReplaceAllAtMatch(a, b, rest);
    } else {
      var s := p + a + rest;
      assert s[..|a|] == (p + a)[..|a|] && !IsPrefixAt(p + a, 0, a);
      ReplaceAllSkip(s, a, b);
      assert s[1..] == p[1..] + a + rest;
      NoMatchBeforeTail(p, a);
      ReplaceAllPiece(p[1..], a, b, rest);
      assert [s[0]] + p[1..] == p;
    }
  }

  /** An occurrence of `a` at the start is replaced. */
  lemma ReplaceAllAtMatch(a: string, b: string, rest: string)
    requires |a| > 0
    ensures ReplaceAll(a + rest, a, b) == b + ReplaceAll(rest, a, b)
  {
    var s := a + rest;
    assert s[..|a|] == a && s[|a|..] == rest;
  }

  /** A start that is not an occurrence of `a` is kept, one character at a time. */
  lemma ReplaceAllSkip(s: string, a: string, b: string)
    requires |a| > 0 && |s| >= |a| && s[..|a|] != a
    ensures ReplaceAll(s, a, b) == [s[0]] + ReplaceAll(s[1..], a, b)
  {
  }

  /** Dropping the first character keeps text free of occurrences of `a`. */
  lemma NoMatchBeforeTail(p: string, a: string)
    requires p != [] && NoMatchBefore(p, a)
    ensures NoMatchBefore(p[1..], a)
  {
    forall j | 0 <= j < |p[1..]|
      ensures !IsPrefixAt(p[1..] + a, j, a)
    {
      assert !IsPrefixAt(p + a, j + 1, a);
      assert p[1..] + a == (p + a)[1..];
    }
  }

  /** Text that holds no occurrence of `a`, even one running past its end, is kept. */
  lemma ReplaceAllNoMatch(p: string, a: string, b: string)
    requires |a| > 0 && NoMatchBefore(p, a)
    ensures ReplaceAll(p, a, b) == p
  {
    if Contains(p, a) {
      var i: nat :| i <= |p| && IsPrefixAt(p, i, a);
      assert (p + a)[i..i + |a|] == p[i..i + |a|];
      assert IsPrefixAt(p + a, i, a);
      assert false;
    }
    ReplaceAllUnchangedIff(p, a, b);
  }

  /** `str.replace` replaces every occurrence: pieces joined by `a`, none of which
      hides an occurrence of `a`, come out joined by `b` instead. */
  lemma {:induction false} ReplaceAllJoin(ps: seq<string>, a: string, b: string)
    requires |a| > 0 && forall k :: 0 <= k < |ps| ==> NoMatchBefore(ps[k], a)
    ensures ReplaceAll(Join(a, ps), a, b) == Join(b, ps)
  {
    if |ps| == 1 {
      ReplaceAllNoMatch(ps[0], a, b);
    } else if |ps| > 1 {
      ReplaceAllJoin(ps[1..], a, b);
      ReplaceAllPiece(ps[0], a, b, Join(a, ps[1..]));
    }
  }

  /** `a` occurs in `s` but not at its start exactly when it occurs in `s[1..]`. */
  lemma ContainsTail(s: string, a: string)
    requires |s| >= 1 && !IsPrefixAt(s, 0, a)
    ensures Contains(s, a) <==> Contains(s[1..], a)
  {
    if Contains(s, a) {
      var i: nat :| i <= |s| && IsPrefixAt(s, i, a);
      assert i >= 1;
      assert IsPrefixAt(s[1..], i - 1, a);
    }
    if Contains(s[1..], a) {
      var i: nat :| i <= |s| - 1 && IsPrefixAt(s[1..], i, a);
      assert IsPrefixAt(s, i + 1, a);
    }
  }
}

=== FILE: todo.dfy ===
/** The TODO list of a backlog item (todo_manager.py): the item record and its
    dictionary form, the status commands of the interactive manager and of
    `update_status`, and the markdown checklist written after every change. */
module Todo {
  import opened Wrappers
  import opened Text

  // ---------------------------------------------------------------------------
  // Items and their dictionary form (todo_manager.py:16-34)

  /** The three statuses the manager itself writes; `update_status` accepts any string. */
  const Pending: string := "pending"
  const InProgress: string := "in_progress"
  const Done: string := "done"

  /** The category of an item created without one. */
  const General: string := "general"

  datatype TodoItem = TodoItem(id: int, title: string, status: string, category: string)

  /** A value of the JSON object an item is saved as. */
  datatype Value = IntValue(i: int) | StrValue(s: string)

  /** The keyword arguments of the `TodoItem` constructor. */
  const Fields: set<string> := {"id", "title", "status", "category"}

  /** `to_dict`: one entry per field. */
  function ToDict(t: TodoItem): (d: map<string, Value>)
    ensures d.Keys == Fields
  {
    map["id" := IntValue(t.id), "title" := StrValue(t.title), "status" := StrValue(t.status),
        "category" := StrValue(t.category)]
  }

  /** `from_dict`, that is `TodoItem(**data)`: an unknown key or a missing `id` or
      `title` is a `TypeError` (None); a missing status or category takes its
      default. */
  function FromDict(d: map<string, Value>): (r: Option<TodoItem>)
    ensures r.Some? ==> d.Keys <= Fields && "id" in d && "title" in d
    ensures r.Some? && "status" !in d ==> r.value.status == Pending
    ensures r.Some? && "category" !in d ==> r.value.category == General
  {
    if !(d.Keys <= Fields) || "id" !in d || "title" !in d then None
    else
      var status := if "status" in d then d["status"] else StrValue(Pending);
      var category := if "category" in d then d["category"] else StrValue(General);
      if d["id"].IntValue? && d["title"].StrValue? && status.StrValue? && category.StrValue? then
        Some(TodoItem(d["id"].i, d["title"].s, status.s, category.s))
      else None
  }

  /** Saving and loading an item gives it back unchanged. */
  lemma FromDictToDict(t: TodoItem)
    ensures FromDict(ToDict(t)) == Some(t)
  {
  }

  /** A dictionary with all four fields that loads is exactly what its item saves. */
  lemma ToDictFromDict(d: map<string, Value>)
    requires d.Keys == Fields && FromDict(d).Some?
    ensures ToDict(FromDict(d).value) == d
  {
    var e := ToDict(FromDict(d).value);
    assert forall k :: k in d ==> k in e && e[k] == d[k];
  }

  // ---------------------------------------------------------------------------
  // Looking items up (the `next(...)` and list comprehensions of lines 181-245)

  /** What an item is looked up by: its status or its id. */
  datatype Key = ByStatus(status: string) | ById(id: int)

  predicate Has(t: TodoItem, key: Key) {
    match key
    case ByStatus(s) => t.status == s
    case ById(id) => t.id == id
  }

  /** The index of the first item with the key (`[t for t in todos if ...][0]`,
      `next(t for t in todos if ...)`). */
  function FirstWith(ts: seq<TodoItem>, key: Key): (r: Option<nat>)
    ensures r.Some? ==> r.value < |ts| && Has(ts[r.value], key)
    ensures r.Some? ==> forall j :: 0 <= j < r.value ==> !Has(ts[j], key)
    ensures r.None? ==> forall j :: 0 <= j < |ts| ==> !Has(ts[j], key)
  {
    if ts == [] then None
    else if Has(ts[0], key) then Some(0)
    else
      match FirstWith(ts[1..], key)
      case None => None
      case Some(k) => Some(k + 1)
  }

  /** The index of the last item with the key (`[t for t in todos if ...][-1]`). */
  function LastWith(ts: seq<TodoItem>, key: Key): (r: Option<nat>)
    ensures r.Some? ==> r.value < |ts| && Has(ts[r.value], key)
    ensures r.Some? ==> forall j :: r.value < j < |ts| ==> !Has(ts[j], key)
    ensures r.None? ==> forall j :: 0 <= j < |ts| ==> !Has(ts[j], key)
  {
    if ts == [] then None
    else if Has(ts[|ts| - 1], key) then Some(|ts| - 1)
    else LastWith(ts[..|ts| - 1], key)
  }

  /** The list after item `k`'s status is set to `s`: no other item and no other
      field changes. */
  function SetStatus(ts: seq<TodoItem>, k: nat, s: string): (r: seq<TodoItem>)
    requires k < |ts|
    ensures |r| == |ts| && r[k].status == s
    ensures r[k].id == ts[k].id && r[k].title == ts[k].title && r[k].category == ts[k].category
    ensures forall j :: 0 <= j < |ts| && j != k ==> r[j] == ts[j]
  {
    ts[k := ts[k].(status := s)]
  }

  /** The list after the reset loop of the 's' command (lines 210-212): no item is
      in progress any more, those that were are pending, and nothing else changes. */
  function ResetInProgress(ts: seq<TodoItem>): (r: seq<TodoItem>)
    ensures |r| == |ts|
    ensures forall j :: 0 <= j < |r| ==> r[j].status != InProgress
    ensures forall j :: 0 <= j < |r| ==> r[j] == if ts[j].status == InProgress then ts[j].(status := Pending) else ts[j]
  {
    if ts == [] then []
    else
      var t := ts[|ts| - 1];
      ResetInProgress(ts[..|ts| - 1]) + [if t.status == InProgress then t.(status := Pending) else t]
  }

  /** How many items have the key. */
  function CountWith(ts: seq<TodoItem>, key: Key): (n: nat)
    ensures n <= |ts|
  {
    if ts == [] then 0 else CountWith(ts[..|ts| - 1], key) + (if Has(ts[|ts| - 1], key) then 1 else 0)
  }

  /** Moving one item from status `a` to another status `b` takes one item from
      `a` and adds one to `b`; every other status keeps its count. */
  lemma {:induction false} SetStatusCounts(ts: seq<TodoItem>, k: nat, b: string)
    requires k < |ts| && ts[k].status != b
    ensures CountWith(SetStatus(ts, k, b), ByStatus(ts[k].status)) == CountWith(ts, ByStatus(ts[k].status)) - 1
    ensures CountWith(SetStatus(ts, k, b), ByStatus(b)) == CountWith(ts, ByStatus(b)) + 1
    ensures forall s :: s != b && s != ts[k].status ==> CountWith(SetStatus(ts, k, b), ByStatus(s)) == CountWith(ts, ByStatus(s))
  {
    var r := SetStatus(ts, k, b);
    var n := |ts| - 1;
    assert r[..n] == if k == n then ts[..n] else SetStatus(ts[..n], k, b);
    if k < n {
      SetStatusCounts(ts[..n], k, b);
    }
  }

  // ---------------------------------------------------------------------------
  // The session of the interactive manager (todo_manager.py:157-249)

  /** The choices of the task-id prompt (line 233): "start" means in progress. */
  datatype Action = MarkDone | MarkStart | MarkPending

  function StatusFor(a: Action): (s: string)
    ensures s == Done <==> a == MarkDone
    ensures s == InProgress <==> a == MarkStart
    ensures s == Pending <==> a == MarkPending
  {
    match a
    case MarkDone => Done
    case MarkStart => InProgress
    case MarkPending => Pending
  }

  /** Which item the 'd' command marked: the first one in progress, or the one
      whose id was typed at the prompt, or none (an unknown or unreadable id). */
  datatype Marked = MarkedInProgress(at: nat) | MarkedById(at: nat) | InvalidId

  /** The loaded items and the list of snapshots `save_todos` has written. */
  class TodoSession {
    var todos: seq<TodoItem>
    var saves: seq<seq<TodoItem>>

    constructor (loaded: seq<TodoItem>)
      ensures todos == loaded && saves == []
    {
      todos := loaded;
      saves := [];
    }

    /** `save_todos`: the current list is written once more. */
    method Save()
      modifies this
      ensures todos == old(todos) && saves == old(saves) + [old(todos)]
    {
      saves := saves + [todos];
    }

    /** Item `k` gets status `s` (the assignments of lines 183, 192, 200, 213, 222,
        234 and 245), then the list is saved. */
    method SetAndSave(k: nat, s: string)
      requires k < |todos|
      modifies this
      ensures todos == SetStatus(old(todos), k, s) && saves == old(saves) + [todos]
    {
      todos := SetStatus(todos, k, s);
      Save();
    }

    /** 'n': the first pending item goes in progress; with none, nothing happens. */
    method Next() returns (started: Option<nat>)
      modifies this
      ensures started == FirstWith(old(todos), ByStatus(Pending))
      ensures started.Some? ==> todos == SetStatus(old(todos), started.value, InProgress) && saves == old(saves) + [todos]
      ensures started.None? ==> todos == old(todos) && saves == old(saves)
    {
      started := FirstWith(todos, ByStatus(Pending));
      if started.Some? {
        SetAndSave(started.value, InProgress);
      }
    }

    /** 'd': the first item in progress is done; with none, the id typed at the
        prompt (`None` when `int()` fails) selects the item to mark done. */
    method MarkDoneCommand(typed: Option<int>) returns (marked: Marked)
      modifies this
      ensures FirstWith(old(todos), ByStatus(InProgress)).Some? ==>
                marked == MarkedInProgress(FirstWith(old(todos), ByStatus(InProgress)).value)
      ensures FirstWith(old(todos), ByStatus(InProgress)).None? && typed.Some? && FirstWith(old(todos), ById(typed.value)).Some? ==>
                marked == MarkedById(FirstWith(old(todos), ById(typed.value)).value)
      ensures marked.InvalidId? <==>
                FirstWith(old(todos), ByStatus(InProgress)).None?
                && (typed.None? || FirstWith(old(todos), ById(typed.value)).None?)
      ensures marked.InvalidId? ==> todos == old(todos) && saves == old(saves)
      ensures !marked.InvalidId? ==>
                marked.at < |old(todos)| && todos == SetStatus(old(todos), marked.at, Done) && saves == old(saves) + [todos]
    {
      var first := FirstWith(todos, ByStatus(InProgress));
      if first.Some? {
        marked := MarkedInProgress(first.value);
      } else if typed.None? {
        return InvalidId;
      } else {
        var task := FirstWith(todos, ById(typed.value));
        if task.None? {
          return InvalidId;
        }
        marked := MarkedById(task.value);
      }
      SetAndSave(marked.at, Done);
    }

    /** 's': with a known id, every item in progress goes back to pending and the
        chosen item goes in progress; an unknown or unreadable id changes nothing. */
    method Start(typed: Option<int>) returns (started: Option<nat>)
      modifies this
      ensures started == if typed.None? then None else FirstWith(old(todos), ById(typed.value))
      ensures started.Some? ==>
                todos == SetStatus(ResetInProgress(old(todos)), started.value, InProgress) && saves == old(saves) + [todos]
      ensures started.None? ==> todos == old(todos) && saves == old(saves)
    {
      if typed.None? {
        return None;
      }
      started := FirstWith(todos, ById(typed.value));
      if started.None? {
        return;
      }
      ResetAll();
      SetAndSave(started.value, InProgress);
    }

    /** The reset loop of 's' (lines 210-212): every item in progress goes back to pending. */
    method ResetAll()
      modifies this
      ensures todos == ResetInProgress(old(todos)) && saves == old(saves)
    {
      var i := 0;
      while i < |todos|
        invariant 0 <= i <= |todos| == |old(todos)|
        invariant forall j :: 0 <= j < i ==> todos[j] == ResetInProgress(old(todos))[j]
        invariant forall j :: i <= j < |todos| ==> todos[j] == old(todos)[j]
        invariant saves == old(saves)
      {
        if todos[i].status == InProgress {
          todos := SetStatus(todos, i, Pending);
        }
        i := i + 1;
      }
    }

    /** 'u': the last done item goes back to pending; with none, nothing happens. */
    method Undo() returns (undone: Option<nat>)
      modifies this
      ensures undone == LastWith(old(todos), ByStatus(Done))
      ensures undone.Some? ==> todos == SetStatus(old(todos), undone.value, Pending) && saves == old(saves) + [todos]
      ensures undone.None? ==> todos == old(todos) && saves == old(saves)
    {
      undone := LastWith(todos, ByStatus(Done));
      if undone.Some? {
        SetAndSave(undone.value, Pending);
      }
    }

    /** A command that is a task id, then an action from the prompt (lines 227-237):
        the first item with that id takes the action's status; other items in
        progress are left as they are. An unknown id changes nothing. */
    method Act(id: int, action: Action) returns (task: Option<nat>)
      modifies this
      ensures task == FirstWith(old(todos), ById(id))
      ensures task.Some? ==> todos == SetStatus(old(todos), task.value, StatusFor(action)) && saves == old(saves) + [todos]
      ensures task.None? ==> todos == old(todos) && saves == old(saves)
    {
      task := FirstWith(todos, ById(id));
      if task.Some? {
        SetAndSave(task.value, StatusFor(action));
      }
    }

    /** `update_status`: true exactly when an item has the id; the first such item
        takes the status and the list is saved. Otherwise nothing is saved. */
    method UpdateStatus(id: int, status: string) returns (found: bool)
      modifies this
      ensures found <==> FirstWith(old(todos), ById(id)).Some?
      ensures found ==> todos == SetStatus(old(todos), FirstWith(old(todos), ById(id)).value, status) && saves == old(saves) + [todos]
      ensures !found ==> todos == old(todos) && saves == old(saves)
    {
      var task := FirstWith(todos, ById(id));
      found := task.Some?;
      if found {
        SetAndSave(task.value, status);
      }
    }
  }

  // ---------------------------------------------------------------------------
  // Properties of the commands

  /** 'n' and 'd' move exactly one item: one fewer pending (in progress), one
      more in progress (done). */
  lemma NextMovesOne(ts: seq<TodoItem>)
    requires FirstWith(ts, ByStatus(Pending)).Some?
    ensures var r := SetStatus(ts, FirstWith(ts, ByStatus(Pending)).value, InProgress);
            CountWith(r, ByStatus(Pending)) == CountWith(ts, ByStatus(Pending)) - 1
            && CountWith(r, ByStatus(InProgress)) == CountWith(ts, ByStatus(InProgress)) + 1
            && CountWith(r, ByStatus(Done)) == CountWith(ts, ByStatus(Done))
  {
    SetStatusCounts(ts, FirstWith(ts, ByStatus(Pending)).value, InProgress);
  }

  /** 'u' moves exactly one done item back to pending. */
  lemma UndoMovesOne(ts: seq<TodoItem>)
    requires LastWith(ts, ByStatus(Done)).Some?
    ensures var r := SetStatus(ts, LastWith(ts, ByStatus(Done)).value, Pending);
            CountWith(r, ByStatus(Done)) == CountWith(ts, ByStatus(Done)) - 1
            && CountWith(r, ByStatus(Pending)) == CountWith(ts, ByStatus(Pending)) + 1
            && CountWith(r, ByStatus(InProgress)) == CountWith(ts, ByStatus(InProgress))
  {
    SetStatusCounts(ts, LastWith(ts, ByStatus(Done)).value, Pending);
  }

  /** After 's' with a known id, the chosen item is the only one in progress. */
  lemma StartLeavesOneInProgress(ts: seq<TodoItem>, k: nat)
    requires k < |ts|
    ensures forall j :: 0 <= j < |ts| ==> (SetStatus(ResetInProgress(ts), k, InProgress)[j].status == InProgress <==> j == k)
  {
  }

  /** Undo after 'd' on an item with no done item after it brings the list back. */
  lemma UndoReversesDone(ts: seq<TodoItem>, k: nat)
    requires k < |ts| && ts[k].status == Pending
    requires forall j :: k < j < |ts| ==> ts[j].status != Done
    ensures LastWith(SetStatus(ts, k, Done), ByStatus(Done)) == Some(k)
    ensures SetStatus(SetStatus(ts, k, Done), k, Pending) == ts
  {
    var r := SetStatus(ts, k, Done);
    assert Has(r[k], ByStatus(Done));
    assert forall j :: k < j < |r| ==> !Has(r[j], ByStatus(Done));
    LastWithIs(r, ByStatus(Done), k);
    assert SetStatus(r, k, Pending) == ts;
  }

  /** The last item with a key is at `k` when the item at `k` has it and none after it does. */
  lemma {:induction false} LastWithIs(ts: seq<TodoItem>, key: Key, k: nat)
    requires k < |ts| && Has(ts[k], key)
    requires forall j :: k < j < |ts| ==> !Has(ts[j], key)
    ensures LastWith(ts, key) == Some(k)
  {
    if k < |ts| - 1 {
      LastWithIs(ts[..|ts| - 1], key, k);
    }
  }

  // ---------------------------------------------------------------------------
  // The markdown checklist (todo_manager.py:84-115)

  /** The in-progress marker and the section headings, as the source spells them
      (emoji stored with a broken encoding; they are opaque strings here). */
  const ProgressMark: string := "\U{F8FF}\U{00FC}\U{00EE}\U{00D1} "
  const TitleMark: string := "\U{201A}\U{00FA}\U{00D6}"
  const RequirementsHeading: string := "\U{F8FF}\U{00FC}\U{00EC}\U{00E3} Requirements"
  const TestsHeading: string := "\U{F8FF}\U{00FC}\U{00DF}\U{2122} Tests"
  const ImplementationHeading: string := "\U{F8FF}\U{00FC}\U{00EE}\U{00AE} Implementation"
  const GeneralHeading: string := "\U{F8FF}\U{00FC}\U{00EC}\U{00F9} General"

  /** One checklist line (lines 96-98): checked exactly when done, and marked when
      in progress. */
  function ItemLine(t: TodoItem): (r: string)
    ensures StartsWith(r, "- [x] ") <==> t.status == Done
    ensures t.status == Done ==> r == "- [x] " + t.title
    ensures t.status == InProgress ==> r == "- [ ] " + ProgressMark + t.title
    ensures t.status != Done && t.status != InProgress ==> r == "- [ ] " + t.title
    ensures EndsWith(r, t.title)
  {
    var check := if t.status == Done then "x" else " ";
    var prefix := if t.status == InProgress then ProgressMark else "";
    var r := "- [" + check + "] " + prefix + t.title;
    assert r[..6] == "- [" + check + "] " && r[3] == check[0];
    assert r[|r| - |t.title|..] == t.title;
    r
  }

  /** The items of a category, in list order. */
  function InCategory(ts: seq<TodoItem>, cat: string): (r: seq<TodoItem>)
    ensures |r| <= |ts|
    ensures forall t :: t in r <==> t in ts && t.category == cat
  {
    if ts == [] then []
    else
      var t := ts[|ts| - 1];
      assert ts == ts[..|ts| - 1] + [t];
      InCategory(ts[..|ts| - 1], cat) + (if t.category == cat then [t] else [])
  }

  /** The checklist lines of some items, in order. */
  function ItemLines(items: seq<TodoItem>): (r: seq<string>)
    ensures |r| == |items| && forall k :: 0 <= k < |items| ==> r[k] == ItemLine(items[k])
  {
    seq(|items|, k requires 0 <= k < |items| => ItemLine(items[k]))
  }

  /** `render_category` (lines 89-99): nothing for an empty category, otherwise a
      heading line and one line per item. */
  function RenderCategory(ts: seq<TodoItem>, cat: string, name: string): (r: string)
    ensures r == [] <==> InCategory(ts, cat) == []
    ensures r != [] ==> StartsWith(r, "\n## " + name)
  {
    var items := InCategory(ts, cat);
    if items == [] then ""
    else
      var lines := ["\n## " + name] + ItemLines(items);
      JoinStartsWith("\n", lines);
      Join("\n", lines)
  }

  lemma JoinStartsWith(sep: string, xs: seq<string>)
    requires xs != []
    ensures StartsWith(Join(sep, xs), xs[0])
  {
    if |xs| > 1 {
      assert Join(sep, xs)[..|xs[0]|] == xs[0];
    }
  }

  /** The four sections, in the order requirement, test, implementation, general. */
  function Checklist(ts: seq<TodoItem>): (r: string)
    ensures (InCategory(ts, "requirement") == [] && InCategory(ts, "test") == [] && InCategory(ts, "implementation") == []
             && InCategory(ts, General) == []) ==> r == "\n\n\n"
  {
    RenderCategory(ts, "requirement", RequirementsHeading) + "\n" + RenderCategory(ts, "test", TestsHeading) + "\n"
    + RenderCategory(ts, "implementation", ImplementationHeading) + "\n" + RenderCategory(ts, General, GeneralHeading)
  }

  /** The content of todo.md. The percentage is computed in floating point by the
      source and is taken as given here. */
  function Markdown(key: string, summary: string, ts: seq<TodoItem>, percent: nat): (r: string)
    ensures StartsWith(r, "# " + TitleMark + " TODO: " + key)
  {
    var head := "# " + TitleMark + " TODO: " + key;
    var r := head + "\n\n> **" + summary + "**\n" + Checklist(ts) + "\n\n---\n**Progress:** "
             + NatToString(CountWith(ts, ByStatus(Done))) + "/" + NatToString(|ts|) + " (" + NatToString(percent) + "%)\n";
    assert r[..|head|] == head;
    r
  }

  /** An item in none of the four categories is not rendered at all. */
  lemma UnknownCategoryNotRendered(ts: seq<TodoItem>, t: TodoItem)
    requires t.category !in {"requirement", "test", "implementation", General}
    ensures Checklist(ts + [t]) == Checklist(ts)
  {
    assert (ts + [t])[..|ts|] == ts;
    assert InCategory(ts + [t], "requirement") == InCategory(ts, "requirement");
    assert InCategory(ts + [t], "test") == InCategory(ts, "test");
    assert InCategory(ts + [t], "implementation") == InCategory(ts, "implementation");
    assert InCategory(ts + [t], General) == InCategory(ts, General);
  }
}

=== FILE: wrappers.dfy ===
/** The optional value used wherever the modelled code has `None`. */
module Wrappers {

  datatype Option<+T> = None | Some(value: T) {

    /** The wrapped value, or `default` when there is none. */
    function GetOr(default: T): T {
      match this
      case Some(v) => v
      case None => default
    }
  }
}
